=== FILE: README.md ===
# shooter-do-mau, per-tick game logic in Dafny

This project models the simulation core of a small pygame vertical shooter. Everything in the game moves once per frame by a frame time `dt`. The model covers:

- the animation playhead;
- the five trajectory providers (straight, linear segments, predefined samples, seeking, keyboard);
- the sprite tick that combines a provider with an animation and fires the end handlers;
- the player's power source, weapons, shield and hit rule;
- the enemy fire loops and the enemy spawner;
- the game director: the difficulty curve, the wave, bonus and boss script, and the end of the game;
- the arcade variant's player loop and spawner;
- sprite-sheet `crop`, `trim` and `slice_image` over an alpha grid;
- the two plain bullets.

Floats are `real`. Python's `int()` is `Numerics.Trunc` (toward zero) and `round()` is `Numerics.RoundHalfEven`. The `Vector2` primitives (`angle_to`, `rotate`, `length`, `normalize_ip`) are the fields of a `Geometry.Trig` value and nothing is assumed about them.

Each generator (`_main_loop`, `_game_script`, `_wait`, `_bonus_round`, the sprite loops) becomes explicit state plus an `Update`/`Step` method. The method takes what the generator reads from the world as parameters: the enemy count, whether a player exists, pressed keys and buttons, random draws. It returns what the generator creates: launch records, spawn orders, director events.

An exception becomes a `Result`/`Option` or an `ok` flag. For example:
- `StraightTrajectoryProvider` with neither end nor angle;
- a zero-width look-up row at distance 0;
- `subsurface` outside the image;
- the red-enemy extrapolation dividing by zero.

Objects whose fields the source updates are classes: providers, sprites, weapons, power source, spawners, `GameFlow`, bullets. Pure rules are functions. Each method's `ensures` ties its new state to such a function, and the lemmas state what those functions promise over runs of frames.

## Model

| member | source | states |
|---|---|---|
| Numerics.Trunc | engine.py:88 | `int()` of a float: the integer within 1 of x on the zero side (0 ≤ n ≤ x < n+1, or n−1 < x ≤ n ≤ 0) |
| Numerics.RoundHalfEven | engine.py:68 | `round()`: within 1/2 of x, and an exact tie goes to the even neighbour |
| Numerics.RoundHalfEvenMonotone | game_flow.py:181 | rounding keeps order, so a larger lerp never gives a smaller squadron |
| Numerics.Clamp | game_flow.py:174 | `min(max(x, lo), hi)` lies in [lo, hi] and leaves an in-range x alone |
| Geometry.TruncPoint | engine.py:139 | `(int(x), int(y))`: each coordinate becomes the integer within 1 of it on the zero side (0 ≤ n ≤ x < n+1, or n−1 < x ≤ n ≤ 0) |
| Geometry.TruncPointOfPoint | engine.py:139 | a point with integer coordinates is kept exactly by the truncation |
| Animations.Advance | animation.py:16-23 | one update: below the delay only the accumulator grows; once the delay is reached the accumulator drops to 0 and the frame becomes frame + 1, or (frame + 1) mod count when looping; a looping playhead stays in range and is never finished; a finished one stays finished; an infinite delay never moves |
| Animations.PlayAtMostOneFramePerUpdate | animation.py:16-23 | over n updates a non-looping animation advances between 0 and n frames |
| Animations.FinishedIsPermanent | animation.py:23-29 | once `is_finished` holds it holds after any further updates |
| Animations.LoopStaysInRange | animation.py:20-21 | a looping animation's frame stays below the frame count forever and it is never finished |
| Animations.NeverDelayFreezes | animation.py:6-7 | with infinite delay (`Animation.static`) the frame never changes |
| Animations.WholeDelaysAdvanceOneEach | animation.py:17-23 | n updates of exactly one delay each advance exactly n frames |
| Animations.FramesCostFullDelays | animation.py:17-19 | each frame advanced costs a full delay of elapsed time; the remainder is discarded |
| Animations.ZeroDelayAlwaysAdvances | animation.py:17-18 | with delay 0 even an update with dt = 0 advances a frame |
| Animations.WholeDelaysWrapAround | animation.py:17-21 | a looping animation fed n whole delays stands at frame (start + n) mod count with nothing accumulated |
| Animations.Animation.constructor | animation.py:9-14 | frames, delay and loop as given, playhead at frame 0 with no delay accumulated |
| Animations.Animation.Static | animation.py:6-7 | one frame, infinite delay, looping |
| Animations.Animation.Update | animation.py:16-23 | the playhead after the update is `Advance` of the one before |
| Animations.Animation.GetCurrentFrame | animation.py:25-26 | the current frame, or the last one once past the end; empty frames is the IndexError |
| Animations.Animation.Reset | animation.py:31-33 | back to frame 0 with nothing accumulated |
| Engine.PlanStraight | engine.py:117-132 | neither end nor angle is the ValueError; an end wins over an angle and gives direction, length and heading of end − start; an angle alone gives no distance limit; a zero direction cannot be normalised |
| Engine.StraightProvider.constructor | engine.py:109-132 | position at the start; direction, limit and angle from the plan |
| Engine.StraightProvider.Create | engine.py:109-132 | fails exactly when `PlanStraight` does, with its error; otherwise a fresh provider at the start with the plan's direction, limit and angle |
| Engine.StraightProvider.Update | engine.py:134-136 | position moves by direction·speed·dt and the angle by angular_speed·dt |
| Engine.StraightProvider.IsFinished | engine.py:147-148 | a provider built from an angle (no limit) is never finished |
| Engine.BuildTable | engine.py:62-72 | the look-up table has one row per segment with the rounded segment length as width, and its rows are contiguous from 0 to the returned total |
| Engine.DescribedWidthsNonNegative | engine.py:64-72 | every row of a table built from lengths ≥ 0 has initial ≤ final, and the total is ≥ 0 |
| Engine.RowsStartNonNegative | engine.py:62-72 | every row of a contiguous table starts at or after 0 |
| Engine.FirstCovering | engine.py:83-90 | the first row covering a distance, or none when no row covers it |
| Engine.Locate | engine.py:83-90 | the scan with `break` finds exactly `FirstCovering` |
| Engine.CoveredThroughout | engine.py:79-90 | every clamped distance in [0, total] is covered by some row of a non-empty table |
| Engine.ZeroWidthOnlyAtStart | engine.py:84-86 | the division by a zero width can only happen at distance 0 in the first row |
| Engine.LinearSegmentsProvider.constructor | engine.py:52-76 | table built from the control points, start at the first point, distance 0, initial angle the heading of the last segment |
| Engine.LinearSegmentsProvider.Create | engine.py:52-76 | fewer than two control points is the failure (IndexError or unbound `end`); otherwise a fresh provider whose table describes the polyline, at the first point, distance 0 |
| Engine.LinearSegmentsProvider.Update | engine.py:78-90 | distance = min(old + speed·dt, total); `is_finished` afterwards holds exactly when the unclamped sum reached the total; position and angle follow the first covering row; the zero-width division is the failure |
| Engine.LinearSegmentsProvider.GetCurrentPosition | engine.py:92-99 | without a shift the stored point itself |
| Engine.ClampedDistanceInRange | engine.py:79-81 | the clamped distance stays in [0, total] and reaches total exactly when the unclamped one does |
| Engine.PredefinedProvider.constructor | engine.py:156-164 | equal-length samples, index 0 |
| Engine.PredefinedProvider.Fixed | engine.py:152-154 | one sample at speed 0, not finished |
| Engine.PredefinedProvider.Update | engine.py:178-179 | index grows by trunc(speed·dt): never backwards for non-negative speed·dt, not at all when the product is below 1 |
| Engine.PredefinedProvider.SetSpeed | engine.py:173-176 | the new speed |
| Engine.PredefinedProvider.Reset | engine.py:190-191 | index back to 0 |
| Engine.PredefinedProvider.GetCurrentPosition | engine.py:181-182 | the sample at the index, clamped to the last; IndexError only on an empty list or a too negative index |
| Engine.PredefinedProvider.GetCurrentAngle | engine.py:184-185 | the same clamped read of the angles |
| Engine.WrapOnce | engine.py:219-223 | the difference shifted by at most one turn, in [−180, 180] for differences within ±540, untouched within ±180 |
| Engine.Steer | engine.py:219-229 | beyond the cap the angle moves by exactly ±cap (not scaled by dt); within it the desired angle is taken; the turn never exceeds the cap |
| Engine.SeekingProvider.constructor | engine.py:195-213 | position at start, direction toward the mark, distance 0 |
| Engine.SeekingProvider.Update | engine.py:215-232 | with a live mark the angle is `Steer`ed toward it and the direction follows; with a dead mark both are frozen; position still moves by direction·speed·dt and distance grows by speed·dt |
| Engine.SeekingProvider.IsFinished | engine.py:240-243 | never finished without a length or with length 0; otherwise finished exactly when distance ≥ length |
| Engine.ActiveFlags | engine.py:336-340 | a flag is active exactly when virtual or bound to a pressed key |
| Engine.CollectFlags | engine.py:337-340 | the key loop collects exactly `ActiveFlags` |
| Engine.Translation | engine.py:342-350 | zero exactly when each axis has both or neither flag; each unit component comes from exactly one flag of its axis |
| Engine.OppositeFlagsCancel | engine.py:342-350 | up with down, or left with right, cancel on that axis |
| Engine.ClampAxis | engine.py:354-361 | a coordinate inside [lo, hi], unchanged when already there |
| Engine.ClampToBoundary | engine.py:354-361 | the moved position lies in the boundary rectangle, unchanged when already inside |
| Engine.KeyboardProvider.constructor | engine.py:318-333 | at the initial position with angle 0 |
| Engine.KeyboardProvider.Update | engine.py:335-366 | no translation leaves the position alone; otherwise it moves by normalised translation·speed·dt and is clamped; CW adds and CCW subtracts rotation_speed·dt |
| Engine.KeyboardProvider.IsFinished | engine.py:374-375 | never finished |
| Engine.Unscale | engine.py:388-391 | the nearest integer to the window coordinate divided by the scale factor; the coordinate itself at scale 1 |
| Engine.MouseProvider.constructor | engine.py:379-384 | at the initial position with angle 0 |
| Engine.MouseProvider.Update | engine.py:386-391 | the position becomes the unscaled pointer; a zero scale factor is the ZeroDivisionError and leaves the position alone |
| Engine.MouseProvider.IsFinished | engine.py:399-400 | never finished |
| Sprites.AdvanceProvider | engine.py:488-491 | `Stepped`: each kind of provider moves exactly as its own `update` promises (straight, segments, predefined, seeking against the mark as it was, keyboard with the flags), and the step fails exactly on the zero-width row division (`Raised`) |
| Sprites.AnimatedSprite.constructor | engine.py:404-417 | angle 0, no handler, loop phase by whether the animation is already finished |
| Sprites.AnimatedSprite.Kill | engine.py:511-512 | the sprite is no longer alive |
| Sprites.AnimatedSprite.SetAnimation | engine.py:439-448 | new animation; an offset of None keeps the old offset; the angle is reset only on request |
| Sprites.AnimatedSprite.OnAnimationEnd | engine.py:450-452 | the handler is installed |
| Sprites.AnimatedSprite.RenderRotation | engine.py:422-423 | a rotation exists exactly when there is an offset, and it is −angle + offset |
| Sprites.AnimatedSprite.Update | engine.py:454-466 | a playing sprite advances its animation; a holding one does not; the handler fires exactly on the update that finishes the animation; a killing handler kills the sprite |
| Sprites.TrajectorySprite.constructor | engine.py:470-482 | a live sprite centred on the provider's position |
| Sprites.TrajectorySprite.OnTrajectoryEnd | engine.py:484-486 | the handler is installed |
| Sprites.TrajectorySprite.ResumeTrajectory | engine.py:488-493 | the provider takes one `Stepped` step; the resumption succeeds exactly when it raised nothing and the provider still has an angle and a position, and then the centre and angle are those; a failed one leaves both the centre and the angle; the loop is exhausted afterwards exactly when it failed or the sprite is dead |
| Sprites.TrajectorySprite.StepTrajectory | engine.py:488-509 | the trajectory half of `update`: an exhausted loop leaves everything; otherwise one `ResumeTrajectory`, and a failed one keeps centre and angle; the handler fires exactly when `is_finished` turned true; a killing handler kills the sprite; the loop is exhausted exactly when it was, failed, or the sprite was dead |
| Sprites.TrajectorySprite.Update | engine.py:495-509 | the animation advances exactly while playing, its handler fires exactly on the update that finishes it; an exhausted loop leaves the provider, centre and angle untouched, otherwise the provider takes one `Stepped` step, and a failed step keeps the centre and angle; the trajectory handler fires exactly when `is_finished` turned from false to true; the sprite stays alive exactly unless a killing handler fired; the loop is exhausted from then on exactly when it was, failed, or found the sprite dead |
| Equipment.Charged | player.py:239-240 | capped at 100, exact below the cap, never lowers power for a non-negative amount |
| Equipment.Drained | player.py:242-243 | floored at 0, exact when enough power, never raises power |
| Equipment.PowerSource.constructor | player.py:235-237 | full power 100, regeneration 10 per second |
| Equipment.PowerSource.Charge | player.py:239-240 | power becomes `Charged` by regen·dt and stays in [0, 100] |
| Equipment.PowerSource.Consume | player.py:242-243 | power becomes `Drained` and stays in [0, 100] |
| Equipment.PowerSource.ChargeFrom | player.py:248-249 | power becomes `Charged` by the capsule and stays in [0, 100] |
| Equipment.UpgradePath | player.py:68-75 | every weapon's path (also lines 30, 120, 161-166 and 187-193) is non-empty with positive refresh times and consumptions |
| Equipment.Volley | player.py:38-208 | shots per weapon and level: the cannon, and the TurboLaser up to level 3 and at level 4 without the wing flag, fire exactly one shot straight up at the cannon shot speed; turret and Minigun exactly one at the direction and the turret shot speed; the TurboLaser at level 4 with the wing flag fires at x−8 and x+8, above level 4 at x−8, x and x+8; FlakCannon exactly 5 at direction + {0, ±15, ±30} |
| Equipment.Cooled | player.py:35-36 | `max(timer − dt, 0)`: never negative, exact while above 0, never higher for dt ≥ 0 |
| Equipment.CooledOverTotal | player.py:389-392 | cooling frame by frame equals cooling once by the total, and reaches 0 exactly when the total time covers the timer |
| Equipment.WingAfterParity | player.py:95 | after n level-4 volleys from False the wing flag is set exactly when n is odd |
| Equipment.TurboLaserAlternates | player.py:85-95 | at level 4 the volleys go 1, 2, 1, 2, … starting with 1 |
| Equipment.Weapon.constructor | player.py:16-33 | level 0, timer 0, no wing shot yet, stage 0 of the path loaded |
| Equipment.Weapon.Update | player.py:125-126 | the timer cools by dt |
| Equipment.Weapon.Upgrade | player.py:53-57 | level + 1 until the last stage; at the last stage nothing changes; stage values reloaded |
| Equipment.Weapon.Shoot | player.py:42-51 | shoots exactly when the timer is out and the power source has enough power; then the timer restarts, exactly the consumption is drawn and the volley is fired; otherwise nothing changes |
| Equipment.Shield.constructor | player.py:212-215 | wired to the given power source |
| Equipment.Shield.Absorb | player.py:217-231 | absorbs exactly when power ≥ 2·damage, drawing exactly that; otherwise power is unchanged |
| Equipment.ChooseLean | player.py:355-369 | left only → left, right only → right, anything else → neutral |
| Equipment.AimVector | player.py:379-384 | the pointer minus the centre, or (1, 0) when that is zero |
| Equipment.Player.constructor | player.py:253-288 | its own full power source, no weapons or shield, controls on, no white-out |
| Equipment.Player.Equip | player.py:309-332 | each given part replaces the old one, and every mounted part is wired to the player's (possibly new) power source; only the player and the power-source links of the old and new parts change |
| Equipment.Player.SetPowerSource | player.py:316-323 | the new source is given to the player and to every mounted part |
| Equipment.Player.MountAll | player.py:324-332 | the given parts are mounted and wired to the player's source |
| Equipment.Player.MountCannon | player.py:324-326 | the cannon is mounted and wired |
| Equipment.Player.MountTurret | player.py:327-329 | the turret is mounted and wired |
| Equipment.Player.MountShield | player.py:330-332 | the shield is mounted and wired |
| Equipment.Player.Hit | player.py:342-346 | not hurt (and white-out 0.1) exactly when a shield absorbs the damage; otherwise power and white-out are unchanged |
| Equipment.Player.FireCannon | player.py:370-372 | shots exist exactly when space is pressed and a mounted cannon could fire (timer out, enough power); they are its `Volley` straight up from the centre, and a TurboLaser volley at level 4 flips the wing flag |
| Equipment.Player.FireTurret | player.py:373-388 | shots exist exactly when the button is pressed and a mounted turret could fire; they are its `Volley` at the heading of `AimVector`, and the wing flag stays |
| Equipment.Player.CoolDown | player.py:389-392 | recharge by regen·dt, both weapon timers and the white-out timer cool, wings unchanged; without both weapons it fails (the AttributeError) after cooling only the cannon when there is one, and leaves the white-out timer |
| Equipment.Player.Fire | player.py:370-388 | the cannon fires exactly as in `FireCannon`; then the turret fires exactly when the button is pressed, it is mounted, its timer is out and the power left after the cannon's draw covers it; power drops by exactly what was fired; per weapon the level, stage values and wing rule hold and the timer restarts exactly when it fired |
| Equipment.Player.ControlledStep | player.py:353-392 | `ControlledOutcome`: lean and look chosen; each weapon fires exactly when its control is pressed, it is mounted, its timer is out and the power left over covers it (the turret after the cannon's draw); the shots are the volleys; power is charged(old − what was fired); timers restart when fired, then cool when both weapons are mounted |
| Equipment.Player.MainLoopStep | player.py:348-392 | with controls disabled nothing fires and nothing changes (no recharge, no cooling, same look); otherwise `ControlledOutcome`; power stays in [0, 100] |
| Enemies.FireTick | enemy.py:123-132 | without a player the timer is frozen and nothing fires; with one it fires exactly when the timer is ≤ 0 (then reloads) and otherwise cools |
| Enemies.ShotsAtMostEveryOtherTick | enemy.py:127-132 | a positive reload allows at most ⌈n/2⌉ shots in n ticks, ⌊n/2⌋ when the timer starts positive |
| Enemies.NoShotOnTheTickTheTimerExpires | enemy.py:128-132 | the tick that brings the timer to 0 does not fire |
| Enemies.RedEnemy.constructor | enemy.py:73 | fire timer 0.1 |
| Enemies.RedEnemy.Update | enemy.py:72-81 | `FireTick` with a 1.0 s reload |
| Enemies.InsectEnemy.constructor | enemy.py:100-124 | shot speed 80, reload 2.0, fire timer 0.1 |
| Enemies.InsectEnemy.Configure | enemy.py:253-254 | the spawner's shot speed and reload |
| Enemies.InsectEnemy.Update | enemy.py:110-132 | `FireTick` with its reload; a shot leaves the centre toward the player plus the drawn error |
| Enemies.RedEnemyEnd | enemy.py:262-278 | the end y is bottom + 10; the end x is centerx without a player, else on the line from spawn through the player; a player at the spawn height is the ZeroDivisionError |
| Enemies.RedCourseBuilds | enemy.py:262-281 | whenever the end exists the straight provider can be built, and the course spans the screen height plus 20 |
| Enemies.SpawnerRoutes | enemy.py:149-206 | four routes of 10, 10, 8 and 8 points; the second and fourth are the first and third reversed |
| Enemies.WaveFor | enemy.py:219-225 | wave k lerps speed 50→150, shot speed 80→180 and reload 2.0→0.5 by min(k/10, 1); spawn timer 20/speed > 0 |
| Enemies.WavesHarden | enemy.py:219-225 | later waves are never slower, never shoot slower, never reload slower |
| Enemies.EnemySpawner.constructor | enemy.py:208-212 | idle, wave count −1, no spawns, timer 0.4 |
| Enemies.EnemySpawner.Update | enemy.py:213-290 | an idle spawner facing no enemies starts the next wave and orders one red enemy in that tick, and otherwise stays idle; a spawning one orders at most one insect per tick, only when the timer ran out, never more than 5; the tick after the fifth goes idle with the count reset, no insect, the wave kept and the timer lowered by dt |
| ShooterGame.ArcadePlayer.constructor | shooter_game.py:67-69 | both timers 0 |
| ShooterGame.ArcadePlayer.Arm | shooter_game.py:158-159 | cannon and turret mounted |
| ShooterGame.ArcadePlayer.Step | shooter_game.py:70-104 | lean from the arrows; cannon fires exactly when space, mounted and timer ≤ 0 (restart 0.25); turret likewise with 0.2 at the aim heading; both timers then cool |
| ShooterGame.ArcadeRoutes | shooter_game.py:174-183 | three 5-point routes; the first two share their first four points; the third is the second reversed |
| ShooterGame.ArcadeSpawner.constructor | shooter_game.py:185-188 | resting, no spawns, timer 0.2 |
| ShooterGame.ArcadeSpawner.Update | shooter_game.py:190-209 | leaves rest only with no enemies; at most one spawn per tick, 0.2 s apart, at most 5; the tick after the fifth rests with the count reset and no spawn; a tick without a spawn otherwise keeps the count and the mode (apart from leaving rest); the route is kept while launching |
| Director.ExtraRoutes | game_flow.py:73-160 | the six director-only routes and their lengths |
| Director.FlowRoutes | game_flow.py:20-161 | ten routes: the spawner's four followed by the six extra ones |
| Director.FlowRoutesLongEnough | game_flow.py:20-161 | every route has at least two points, so every insect provider can be built |
| Director.Factor | game_flow.py:174 | value/100 clamped into [0, 1] |
| Director.FactorMonotone | game_flow.py:174 | the factor never decreases with the difficulty |
| Director.UpdateDifficulty | game_flow.py:171-181 | speed in [50, 120], shot speed in [80, 160], reload in [0.5, 2.0], double chance in [0, 1], squadron size in [5, 15], spawn timer 20/speed; ≤ 0 gives the floor and ≥ 100 the ceiling |
| Director.DifficultyMonotone | game_flow.py:171-181 | raising the difficulty never lowers speed, shot speed, double chance or squadron size and never raises the reload |
| Director.InsectShifts | game_flow.py:206-256 | two insects at −8 and +8 exactly when the draw is below the double chance, else one at 0 |
| Director.SquadronSplitExtremes | game_flow.py:206-256 | at difficulty 0 never two, at 100 always two |
| Director.Squadron | game_flow.py:202-256 | the wave's route, shifts, speed, shot speed and reload |
| Director.WaveRed | game_flow.py:258-277 | the red enemy of a wave at speed 120 toward the extrapolated player; none exactly on the ZeroDivisionError |
| Director.BonusRed | game_flow.py:287-296 | a vertical course at the drawn x from above to below the screen at speed 160 |
| Director.BonusRedBuilds | game_flow.py:287-296 | that course always builds |
| Director.BossAnchors | game_flow.py:306-410 | 1 boss up to difficulty 20, 2 up to 40, 3 up to 60, 4 above, at distinct anchors |
| Director.WaitStep | game_flow.py:412-416 | one resumption of `_wait`: it goes on exactly while timer − dt > 0 |
| Director.BonusStep | game_flow.py:418-429 | one resumption of the bonus round's spawning sends at most one red, the script's count of sent reds grows by exactly that, and it stays in the spawning or reaches "Bonus round completed" |
| Director.BonusRunCounts | game_flow.py:418-429 | over any frames the count of sent reds grows by exactly the reds sent, and the script stays in the bonus round's spawning or reaches its completion |
| Director.BonusRoundSendsExactlyTen | game_flow.py:423-429 | a bonus round never sends more than 10 reds and has sent exactly 10 when "Bonus round completed" appears |
| Director.WaitCompletesOnceEnoughTime | game_flow.py:412-416 | a suspended wait ends exactly once the frame times add up to its duration |
| Director.ZeroFrameTimeMakesNoProgress | game_flow.py:414-416 | dt = 0 leaves the wait where it was |
| Director.VictoryAfterSixRounds | game_flow.py:454-478 | the victory banner comes after exactly 6 rounds, at difficulty 108 |
| Director.BossesPerRound | game_flow.py:454-473 | a boss fight happens in round ≤ 5 with min(round + 1, 4) bosses |
| Director.IntroPath | game_flow.py:439-444 | a vertical straight path from just below the screen to the ship |
| Director.IntroPathBuilds | game_flow.py:439-444 | that path always builds while the ship is on the screen |
| Director.GameFlow.constructor | game_flow.py:434-444 | "Get ready!" shown, difficulty 0, the intro path installed |
| Director.GameFlow.StartRound | game_flow.py:454-478 | `RoundStarted`: above difficulty 100 the victory message and its 5.0 s wait with nothing spawned, otherwise wave 0 opens as `WaveOpened` says; the parameters, rounds and player path are unchanged; the script invariant holds |
| Director.GameFlow.StartWave | game_flow.py:456-465 | `WaveOpened`: wave 5 shows "Bonus round" and waits 1.0 s with nothing spawned; any other wave keeps the messages and succeeds exactly when the red enemy's course exists, spawns that red enemy and the first squadron, and waits the spawn timer; otherwise the script crashes with nothing spawned |
| Director.GameFlow.StartRegularWave | game_flow.py:460-465 | the red enemy and then the first squadron in the same tick, or the crash exactly when the red enemy's course divides by zero |
| Director.GameFlow.OpenBonus | game_flow.py:418-420 | "Bonus round" and a 1.0 s wait |
| Director.GameFlow.Crash | game_flow.py:270-276 | the script ends by the uncaught ZeroDivisionError |
| Director.GameFlow.SpawnNext | game_flow.py:463-465 | one squadron, then a wait of the spawn timer |
| Director.GameFlow.AwaitClear | game_flow.py:466-468 | waits for an empty enemy group |
| Director.GameFlow.NextInsects | game_flow.py:463-473 | while calls remain, exactly one squadron and the spawn-timer wait; after the last, the wait for a clear screen while enemies remain, otherwise `WaveEnded`; parameters and messages are kept except as `WaveEnded` says, and the player path is kept |
| Director.GameFlow.EndWave | game_flow.py:466-473 | `WaveEnded`: the parameters are `update_difficulty` of difficulty + 2; after the tenth wave exactly the bosses for the new difficulty and the boss fight with the messages kept; otherwise the next wave opens as `WaveOpened` says; the player path is kept |
| Director.GameFlow.BonusCompleted | game_flow.py:427-429 | "Bonus round completed" |
| Director.GameFlow.ResumeOpening | game_flow.py:445-454 | `OpeningResumed`: a wait that goes on only ticks; the banner's end clears the messages and starts the 0.5 s pause, changing nothing else; the pause's end starts a round as `RoundStarted` says; parameters, rounds and player path are kept, the script invariant holds and the player is never killed |
| Director.GameFlow.ResumeWave | game_flow.py:463-473 | `WaveResumed`: a spawn wait that goes on only ticks; its end sends the next squadron or waits for a clear screen, with parameters and messages kept, or ends the wave (`WaveEnded`); while enemies remain nothing changes; a clear screen ends the wave, or ends the boss fight, which counts a round and starts the next (`RoundStarted`); the player path is kept |
| Director.GameFlow.ResumeSquadron | game_flow.py:463-469 | the spawn wait after a squadron: it ticks, or its end is `NextInsects`, as `WaveResumed` says; the player path is kept |
| Director.GameFlow.ResumeBonusSpawns | game_flow.py:418-429 | `BonusResumed`: the script moves exactly as `BonusStep` says, every event is the bonus red enemy at the drawn x, the messages clear after the banner and become "Bonus round completed" when the reds are gone; the bonus round never ends the script |
| Director.GameFlow.ResumeBonusEnd | game_flow.py:429-432 | `BonusEndResumed`: a wait that goes on only ticks; the closing banner's end clears the messages and starts the 0.5 s pause, changing nothing else; the pause's end opens wave 6 as `WaveOpened` says; parameters, rounds and player path are kept |
| Director.GameFlow.Update | game_flow.py:191-196 | keeps the script invariant (rounds and difficulty never decrease, at most two spawns per tick); an exhausted script kills the player every tick and changes nothing else, and the player is killed exactly when the script is exhausted; the intro keeps parameters and rounds, and its messages and path until the straight path ends, then returns control to the keyboard with "GO! GO! GO!"; after the intro the player path never changes; the victory wait ticks and its end clears the messages and kills the player, keeping parameters and rounds; every other resumption is exactly one of `OpeningResumed`, `WaveResumed`, `BonusResumed`, `BonusEndResumed` |
| Director.GameFlow.ResumeVictory | game_flow.py:474-478 | the victory wait ticks; its end clears the messages, exhausts the script and kills the player |
| Director.GameFlow.Resume | game_flow.py:412-473 | a resumption inside the rounds: exactly one of `OpeningResumed`, `WaveResumed`, `BonusResumed`, `BonusEndResumed` by where the script waits; the player path is kept, and rounds only grow when a boss fight ends; a crash closes the script with nothing spawned |
| SpriteSheet.Crop | surface_factory.py:69-72 | the subsurface exactly when the rectangle lies inside, pixel for pixel; else the ValueError |
| SpriteSheet.CropWholeIsIdentity | surface_factory.py:69-72 | cropping to the whole image is the image |
| SpriteSheet.CropOfCrop | surface_factory.py:69-72 | a crop of a crop is one crop at the summed offset |
| SpriteSheet.FirstLine | surface_factory.py:38-58 | the first visible column or row from an index on, or none |
| SpriteSheet.LastLine | surface_factory.py:45-65 | the last visible column or row below an index, or none |
| SpriteSheet.AsWrittenBoundsOrdered | surface_factory.py:38-66 | left ≤ right ≤ width and top ≤ bottom ≤ height, so `trim` never fails |
| SpriteSheet.TrimRect | surface_factory.py:33-66 | `trim`'s rectangle is inside the image; a blank image gives the whole image |
| SpriteSheet.BlankHasNoLines | surface_factory.py:34-37 | a blank image has no visible line |
| SpriteSheet.TrimAsWrittenDropsLastLines | surface_factory.py:45-66 | with anything visible, the last visible column and row fall just outside the result |
| SpriteSheet.TrimAsWrittenSkipsLineZero | surface_factory.py:38-58 | a visible line 0 with a later visible line moves left (top) past line 0 |
| SpriteSheet.TrimAsWrittenEmptiesOnePixel | surface_factory.py:33-66 | a 1×1 opaque image trims to an empty rectangle |
| SpriteSheet.BoundingBox | surface_factory.py:33-66 | the corrected trim rectangle: inside the image, whole image when blank |
| SpriteSheet.BoundingBoxKeepsEveryVisiblePixel | surface_factory.py:33-66 | every visible pixel lies inside the corrected rectangle |
| SpriteSheet.BoundingBoxIsTight | surface_factory.py:33-66 | its first and last columns and rows each hold a visible pixel |
| SpriteSheet.ScanLine | surface_factory.py:39-42 | the inner loop finds a visible pixel in the line exactly when there is one |
| SpriteSheet.ScanLow | surface_factory.py:38-44 | the `left`/`top` loop computes the as-written low bound |
| SpriteSheet.ScanHigh | surface_factory.py:45-51 | the `right`/`bottom` loop computes the as-written high bound |
| SpriteSheet.Trim | surface_factory.py:33-66 | `trim` returns the crop of `TrimRect` |
| SpriteSheet.Inked | surface_factory.py:20-28 | the tiles with a visible pixel, and only those |
| SpriteSheet.SliceRowShape | surface_factory.py:18-30 | a row's tiles are w×h at its height, inside the image, left to right, inked when skipping |
| SpriteSheet.SliceRowsShape | surface_factory.py:17-30 | all tiles are w×h, inside the image, in row-major order, inked when skipping |
| SpriteSheet.SliceShape | surface_factory.py:15-30 | the tile size is min(target, image size) and the tiles come row-major |
| SpriteSheet.SkipRowKeepsInked | surface_factory.py:18-30 | skipping blanks in a row keeps exactly the inked tiles of the unskipped row |
| SpriteSheet.SkipRowsKeepsInked | surface_factory.py:17-30 | the same for all rows from a height on |
| SpriteSheet.SkipBlanksKeepsExactlyInkedTiles | surface_factory.py:20-30 | `skip_blanks` yields exactly the tiles with a visible pixel, in order, and fails exactly when the unskipped slicing fails |
| SpriteSheet.SmallImageIsOneTile | surface_factory.py:15-19 | an image no larger than the target is one whole tile |
| SpriteSheet.RowCompleteIffMultiple | surface_factory.py:18-19 | a row runs out without error exactly when the width left is a multiple of the tile width |
| SpriteSheet.RowsCompleteIffMultiple | surface_factory.py:17-19 | the rows run out without error exactly when both dimensions left are multiples |
| SpriteSheet.SliceCompleteIffMultiple | surface_factory.py:15-19 | `slice_image` raises exactly when the image is not a whole number of tiles |
| SpriteSheet.TileHasInk | surface_factory.py:21-26 | the pixel loops set `found` exactly when the tile has a visible pixel |
| SpriteSheet.SliceOneRow | surface_factory.py:18-30 | the inner loop yields exactly `SliceRow` |
| SpriteSheet.SliceImage | surface_factory.py:9-30 | the generator yields exactly `Slice` |
| Bullets.BulletKillRule | bullet.py:27-31 | x unchanged, y down by 1200·dt, a live bullet survives exactly when y ≥ 0 afterwards |
| Bullets.BulletRunPosition | bullet.py:28 | after any frames the bullet has risen 1200 times the elapsed time, straight up |
| Bullets.BulletSurvivesIff | bullet.py:28-30 | with non-negative frame times it is alive exactly when it was and has not passed the top edge |
| Bullets.Bullet.constructor | bullet.py:20-25 | alive at the given position; the image's rectangle still sits at the origin, so its centre is half the image size |
| Bullets.Bullet.Update | bullet.py:27-31 | one `BulletKillRule` step, and the rectangle is centred on the new position, also on the killing tick |
| Bullets.TurretKillRule | turret_bullet.py:33-40 | moves 600·dt along the direction; a live bullet survives exactly when the new position is in the closed screen rectangle |
| Bullets.CornersAreOnScreen | turret_bullet.py:34-39 | the edges count as on screen; just outside does not |
| Bullets.TurretRunPosition | turret_bullet.py:33 | after any frames the bullet is 600 times the elapsed time along its direction |
| Bullets.TurretSurvivesIff | turret_bullet.py:33-40 | from on screen, with non-negative frame times, it is alive exactly when it was and ends on screen |
| Bullets.TurretDeadStaysDead | turret_bullet.py:34-40 | a killed bullet stays killed |
| Bullets.RectCoversPosition | turret_bullet.py:41-43 | the rectangle is centred on the position within a pixel, so a sprite of at least 2×2 covers it |
| Bullets.TurretBullet.constructor | turret_bullet.py:22-30 | alive at the position with the given direction; the rectangle's top-left at the origin |
| Bullets.TurretBullet.Update | turret_bullet.py:32-43 | one `TurretKillRule` step, the top-left set from the new position also on the killing tick, the direction untouched |

## Left out

- Rendering and asset loading. Image rotation and copying, debug drawing, the power bar and `SurfaceFactory` file loading are left out. Only the effective rotation angle is kept (`RenderRotation`). Images are alpha grids, and slices and trims are rectangles rather than new surfaces.
- Device polling. Keys, mouse buttons and the pointer are parameters (`Controls`, `pressed`, `pointer`). In `Player._main_loop` the pointer is taken as already divided by the scale factor.
- Vector trigonometry. `angle_to`, `rotate`, `length` and `normalize_ip` are uninterpreted fields of `Trig`. The lateral shift of `get_current_position` and `EvadingTrajectoryProvider` are therefore not modelled beyond that.
- Randomness. Every `random.*` draw is a parameter of the step that makes it.
- `StaticTrajectoryProvider` never defines `update`, so it cannot be instantiated. It is left out.
- `RedEnemy.shoot` builds a `SeekingTrajectoryProvider` without its `mark` argument, which raises TypeError. The red enemy's fire loop is modelled, but the shot it would create is not.
- `Brain` (imported by game_flow.py), `SplineTrajectoryProvider` (imported by shooter_game.py) and `white_out` (imported by player.py) do not exist in the repository and are not part of this model. A boss is therefore its seeking anchor only (`BossAnchors`, speed 20, turn 2). An arcade squadron is the index of its route.
- Sprite groups are counts (`enemyCount`) or an `alive` flag. Created sprites are launch records (`Launch`) and director events (`Event`), not objects added to groups.
- `Animation` on an empty frame list is only allowed when not looping, where `GetCurrentFrame` reports the IndexError. A sprite requires at least one frame because its constructor reads `get_current_frame()`.
- The `Player` of player.py is modelled through its equipment and `_main_loop`. Its `TrajectorySprite` part is the separate `Sprites.TrajectorySprite`, and the two are not composed into one object.
- Cannon, TurboLaser, Turret, Minigun and FlakCannon are one `Weapon` class with a `WeaponKind`. Their differences are exactly `UpgradePath` and `Volley`.
- `Equipment.Player.CoolDown`: a missing cannon or turret raises AttributeError at player.py:390-391. The model reports this as `ok == false` after recharging, and does not say which later statements were skipped.
- `Animations.Animation.Update` uses the source's rule that a frame changes once its delay is reached. Described informally, a K-frame animation might look finished after (K−1) delays plus a little; in the model, as in the code, it needs K full delays.
- `Director.GameFlow.constructor` installs the intro path, so the intro course is taken to be unfinished at creation. Its end is an input (`Frame.introDone`), because the player sprite is not part of the director.
- `SpriteSheet.Crop`: rectangles have non-negative sizes (`Rect` uses `nat`). pygame's handling of negative sizes is not modelled.
- `Bullets.Bullet.Update` and `Bullets.TurretBullet.Update` model pygame's float-to-integer rectangle assignment as truncation toward zero.
- `Bullet` keeps the `Vector2` it was given and changes it in place, so the creator's vector moves with the bullet. The model copies the position and does not capture that aliasing.
- `Sprites.TrajectorySprite.ResumeTrajectory`: the source sets the angle before it reads the position. The model reads both and then writes both. This is the same behaviour, because a provider has an angle exactly when it has a position.
- `Sprites.TrajectorySprite.Update`: exceptions raised by a provider other than the linear-segments division are not modelled.

## Findings

| source | as written | input that shows it | evidently intended | confidence | as-written member | corrected member |
|---|---|---|---|---|---|---|
| surface_factory.py:45-66 | `right`/`bottom` are the index of the last visible column/row, and `right - left` is the width, so that column and row are cut off | a 1×1 image with one opaque pixel trims to a 0×0 rectangle | one past the last visible line, keeping every visible pixel | not executed | SpriteSheet.TrimAsWrittenDropsLastLines | SpriteSheet.BoundingBoxKeepsEveryVisiblePixel |
| surface_factory.py:38-58 | the scan for `left`/`top` breaks only when `left != 0`, so a visible column 0 does not stop it and the next visible column wins | a 2×1 image with both pixels opaque gets `left` = 1 | the first visible line, including line 0 | not executed | SpriteSheet.TrimAsWrittenSkipsLineZero | SpriteSheet.BoundingBoxIsTight |

=== FILE: animation.dfy ===
/** The frame playhead of `Animation` (animation.py): a frame index and a delay
    accumulator that `update` advances by at most one frame per call. The class
    keeps the source's mutable fields; the pure `Advance` and `Play` functions
    say what a sequence of updates does to them. */
module Animations {
  import opened Prelude
  import opened Numerics

  /** A frame is an opaque handle to a `pygame.Surface`. */
  type Surface = nat

  /** The time between frames; `Never` is the `float("Infinity")` delay of a
      static animation, which no finite accumulated time reaches. */
  datatype Delay = After(seconds: real) | Never

  /** `(current_frame, current_delay)`. */
  datatype Playhead = Playhead(frame: nat, elapsed: real)

  /** Whether an accumulated time reaches the delay (`current_delay >= delay`). */
  predicate Due(delay: Delay, acc: real) {
    delay.After? && acc >= delay.seconds
  }

  /** `is_finished`: only a non-looping animation that ran past its last frame. */
  predicate Finished(count: nat, loop: bool, p: Playhead) {
    !loop && p.frame >= count
  }

  /** One `update(dt)`: add dt to the accumulator; once it reaches the delay,
      discard it and step one frame, wrapping around when looping. A looping
      animation without frames divides by zero, which the precondition excludes. */
  function Advance(count: nat, delay: Delay, loop: bool, p: Playhead, dt: real): (q: Playhead)
    requires loop ==> count > 0
    ensures !Due(delay, p.elapsed + dt) ==> q == Playhead(p.frame, p.elapsed + dt)
    ensures Due(delay, p.elapsed + dt) ==> q.elapsed == 0.0
    ensures Due(delay, p.elapsed + dt) ==> q.frame == if loop then (p.frame + 1) % count else p.frame + 1
    ensures !loop ==> p.frame <= q.frame <= p.frame + 1
    ensures q.frame != p.frame ==> q.elapsed == 0.0
    ensures loop && p.frame < count ==> q.frame < count
    ensures Finished(count, loop, p) ==> Finished(count, loop, q)
    ensures loop ==> !Finished(count, loop, q)
    ensures delay == Never ==> q.frame == p.frame
  {
    var acc := p.elapsed + dt;
    if !Due(delay, acc) then Playhead(p.frame, acc)
    else if loop then Playhead((p.frame + 1) % count, 0.0)
    else Playhead(p.frame + 1, 0.0)
  }

  /** The playhead after one update per element of `dts`, in order. */
  function Play(count: nat, delay: Delay, loop: bool, p: Playhead, dts: seq<real>): Playhead
    requires loop ==> count > 0
    decreases |dts|
  {
    if dts == [] then p
    else Play(count, delay, loop, Advance(count, delay, loop, p, dts[0]), dts[1..])
  }

  /** A non-looping animation advances at most one frame per update. */
  lemma {:induction false} PlayAtMostOneFramePerUpdate(count: nat, delay: Delay, p: Playhead, dts: seq<real>)
    ensures p.frame <= Play(count, delay, false, p, dts).frame <= p.frame + |dts|
    decreases |dts|
  {
    if dts != [] {
      PlayAtMostOneFramePerUpdate(count, delay, Advance(count, delay, false, p, dts[0]), dts[1..]);
    }
  }

  /** Once finished, a non-looping animation stays finished whatever the updates. */
  lemma {:induction false} FinishedIsPermanent(count: nat, delay: Delay, p: Playhead, dts: seq<real>)
    requires Finished(count, false, p)
    ensures Finished(count, false, Play(count, delay, false, p, dts))
    decreases |dts|
  {
    if dts != [] {
      FinishedIsPermanent(count, delay, Advance(count, delay, false, p, dts[0]), dts[1..]);
    }
  }

  /** A looping animation keeps its frame index among its frames and is never finished. */
  lemma {:induction false} LoopStaysInRange(count: nat, delay: Delay, p: Playhead, dts: seq<real>)
    requires count > 0 && p.frame < count
    ensures Play(count, delay, true, p, dts).frame < count
    ensures !Finished(count, true, Play(count, delay, true, p, dts))
    decreases |dts|
  {
    if dts != [] {
      LoopStaysInRange(count, delay, Advance(count, delay, true, p, dts[0]), dts[1..]);
    }
  }

  /** A static animation (infinite delay) never changes frame. */
  lemma {:induction false} NeverDelayFreezes(count: nat, loop: bool, p: Playhead, dts: seq<real>)
    requires loop ==> count > 0
    ensures Play(count, Never, loop, p, dts).frame == p.frame
    decreases |dts|
  {
    if dts != [] {
      NeverDelayFreezes(count, loop, Advance(count, Never, loop, p, dts[0]), dts[1..]);
    }
  }

  /** Updates of exactly one delay each, from a zero accumulator, advance one
      frame apiece: a non-looping animation of K frames finishes on the K-th such
      update and not before. */
  lemma {:induction false} WholeDelaysAdvanceOneEach(count: nat, d: real, frame: nat, n: nat)
    ensures Play(count, After(d), false, Playhead(frame, 0.0), seq(n, _ => d)) == Playhead(frame + n, 0.0)
    decreases n
  {
    if n > 0 {
      var dts := seq(n, _ => d);
      assert dts[1..] == seq(n - 1, _ => d);
      WholeDelaysAdvanceOneEach(count, d, frame + 1, n - 1);
    }
  }

  /** The looping counterpart: n updates of one delay each move a looping
      animation n frames on, wrapping around its frames. */
  lemma {:induction false} WholeDelaysWrapAround(count: nat, d: real, frame: nat, n: nat)
    requires frame < count
    ensures Play(count, After(d), true, Playhead(frame, 0.0), seq(n, _ => d)) == Playhead((frame + n) % count, 0.0)
    decreases n
  {
    if n > 0 {
      var dts := seq(n, _ => d);
      assert dts[1..] == seq(n - 1, _ => d);
      WholeDelaysWrapAround(count, d, (frame + 1) % count, n - 1);
      ModuloShift(frame, n, count);
    }
  }

  lemma ModuloShift(f: nat, n: nat, c: nat)
    requires c > 0 && n >= 1
    ensures ((f + 1) % c + (n - 1)) % c == (f + n) % c
  {
    var a := (f + 1) % c + (n - 1);
    assert a == (a / c) * c + a % c;
    assert f + 1 == ((f + 1) / c) * c + (f + 1) % c;
    assert f + n == ((f + 1) / c + a / c) * c + a % c;
    ModuloUnique(f + n, c, (f + 1) / c + a / c, a % c);
  }

  /** A non-looping animation cannot get ahead of the clock: starting from a
      zero accumulator, every frame advanced costs a full delay of the time
      supplied, so finishing K frames takes at least K delays in total. */
  lemma {:induction false} FramesCostFullDelays(count: nat, d: real, p: Playhead, dts: seq<real>)
    requires d >= 0.0
    ensures var q := Play(count, After(d), false, p, dts);
      (q.frame - p.frame) as real * d + q.elapsed <= p.elapsed + Sum(dts)
    decreases |dts|
  {
    if dts != [] {
      var p1 := Advance(count, After(d), false, p, dts[0]);
      FramesCostFullDelays(count, d, p1, dts[1..]);
      var q := Play(count, After(d), false, p, dts);
      PlayAtMostOneFramePerUpdate(count, After(d), p1, dts[1..]);
      if p1.frame == p.frame {
        assert (q.frame - p.frame) as real * d == (q.frame - p1.frame) as real * d;
      } else {
        assert (q.frame - p.frame) as real * d == (q.frame - p1.frame) as real * d + d;
      }
    }
  }

  /** With a zero delay every update advances a frame, even with dt = 0. */
  lemma ZeroDelayAlwaysAdvances(count: nat, p: Playhead)
    requires p.elapsed >= 0.0
    ensures Advance(count, After(0.0), false, p, 0.0).frame == p.frame + 1
  {
  }

  /** `Animation`: the frames and settings are fixed at construction; the
      playhead is the mutable part. */
  class Animation {
    const frames: seq<Surface>
    const delay: Delay
    const loop: bool
    var currentFrame: nat
    var currentDelay: real

    function Head(): Playhead
      reads this
    {
      Playhead(currentFrame, currentDelay)
    }

    constructor (frames: seq<Surface>, delay: Delay, loop: bool)
      ensures this.frames == frames && this.delay == delay && this.loop == loop
      ensures Head() == Playhead(0, 0.0)
    {
      this.frames := frames;
      this.delay := delay;
      this.loop := loop;
      currentFrame := 0;
      currentDelay := 0.0;
    }

    /** `Animation.static(surface)`: one frame, infinite delay, looping. */
    constructor Static(surface: Surface)
      ensures frames == [surface] && delay == Never && loop
      ensures Head() == Playhead(0, 0.0)
    {
      frames := [surface];
      delay := Never;
      loop := true;
      currentFrame := 0;
      currentDelay := 0.0;
    }

    method Update(dt: real)
      requires loop ==> |frames| > 0
      modifies this
      ensures Head() == Advance(|frames|, delay, loop, old(Head()), dt)
    {
      currentDelay := currentDelay + dt;
      if Due(delay, currentDelay) {
        currentDelay := 0.0;
        if loop {
          currentFrame := (currentFrame + 1) % |frames|;
        } else {
          currentFrame := currentFrame + 1;
        }
      }
    }

    /** `get_current_frame`: the current frame, or the last one once the
        animation has run past its end; an empty animation raises IndexError. */
    function GetCurrentFrame(): (r: Option<Surface>)
      reads this
      ensures r.None? <==> |frames| == 0
      ensures currentFrame < |frames| ==> r == Some(frames[currentFrame])
      ensures currentFrame >= |frames| > 0 ==> r == Some(frames[|frames| - 1])
    {
      PyIndex(frames, if currentFrame <= |frames| - 1 then currentFrame else |frames| - 1)
    }

    predicate IsFinished()
      reads this
    {
      Finished(|frames|, loop, Head())
    }

    method Reset()
      modifies this
      ensures Head() == Playhead(0, 0.0)
    {
      currentFrame := 0;
      currentDelay := 0.0;
    }
  }
}

=== FILE: bullets.dfy ===
/** The two plain projectiles: `Bullet` (bullet.py), which flies straight up
    and dies above the top edge, and `TurretBullet` (turret_bullet.py),
    which flies along a fixed direction and dies once it leaves the screen.
    A projectile's flight is its position and whether it is still in its
    sprite groups (`kill()` removes it from all of them). */
module Bullets {
  import opened Numerics
  import opened Geometry

  datatype Flight = Flight(pos: Vec, alive: bool)

  // ---------------------------------------------------------------------------
  // Bullet (bullet.py:19-31)
  // ---------------------------------------------------------------------------

  /** Pixels per second, upward. */
  const BulletSpeed: real := 1200.0

  /** One `Bullet.update`: y decreases by 1200·dt, and the bullet is killed
      when the new y is negative. */
  function BulletStep(s: Flight, dt: real): Flight {
    var y := s.pos.y - BulletSpeed * dt;
    Flight(Vec(s.pos.x, y), s.alive && !(y < 0.0))
  }

  /** The flight after one update per frame time in `dts`. */
  function BulletRun(s: Flight, dts: seq<real>): Flight
    decreases |dts|
  {
    if dts == [] then s else BulletRun(BulletStep(s, dts[0]), dts[1..])
  }

  /** The kill rule: a live bullet survives an update exactly when it is not
      above the top edge afterwards (y = 0 survives); x never changes. */
  lemma BulletKillRule(s: Flight, dt: real)
    ensures BulletStep(s, dt).pos.x == s.pos.x
    ensures BulletStep(s, dt).pos.y + BulletSpeed * dt == s.pos.y
    ensures s.alive ==> (BulletStep(s, dt).alive <==> BulletStep(s, dt).pos.y >= 0.0)
    ensures !s.alive ==> !BulletStep(s, dt).alive
  {
  }

  /** After any run of frames the bullet has risen by 1200 times the elapsed
      time, straight up. */
  lemma {:induction false} BulletRunPosition(s: Flight, dts: seq<real>)
    ensures BulletRun(s, dts).pos == Vec(s.pos.x, s.pos.y - BulletSpeed * Sum(dts))
    decreases |dts|
  {
    if dts != [] {
      BulletRunPosition(BulletStep(s, dts[0]), dts[1..]);
    }
  }

  /** With frame times that are never negative the bullet only rises, so it
      is still alive after a run of frames exactly when it was alive before
      and has not passed the top edge by the end. */
  lemma {:induction false} BulletSurvivesIff(s: Flight, dts: seq<real>)
    requires dts != [] && forall i :: 0 <= i < |dts| ==> 0.0 <= dts[i]
    ensures BulletRun(s, dts).alive <==> s.alive && s.pos.y - BulletSpeed * Sum(dts) >= 0.0
    decreases |dts|
  {
    var next := BulletStep(s, dts[0]);
    var rest := dts[1..];
    assert forall i :: 0 <= i < |rest| ==> 0.0 <= rest[i] by {
      forall i | 0 <= i < |rest| ensures 0.0 <= rest[i] {
        assert rest[i] == dts[i + 1];
      }
    }
    if rest == [] {
      assert Sum(dts) == dts[0];
    } else {
      BulletSurvivesIff(next, rest);
      SumNonNegative(rest);
    }
  }

  /** A bullet's sprite. */
  class Bullet {
    var pos: Vec
    /** `rect.center`. */
    var center: Point
    var alive: bool

    function State(): Flight
      reads this
    {
      Flight(pos, alive)
    }

    /** `Bullet(images, pos)`: the rectangle of `images[0]`, whose size is
        given, starts at the origin. */
    constructor (pos: Vec, imageWidth: nat, imageHeight: nat)
      ensures State() == Flight(pos, true)
      ensures center == Point(imageWidth / 2, imageHeight / 2)
    {
      this.pos := pos;
      alive := true;
      center := Point(imageWidth / 2, imageHeight / 2);
    }

    /** `update`: move, kill when above the top edge, and centre the
        rectangle on the new position (also on the tick that kills). */
    method Update(dt: real)
      modifies this
      ensures State() == BulletStep(old(State()), dt)
      ensures center == TruncPoint(pos)
    {
      pos := Vec(pos.x, pos.y - BulletSpeed * dt);
      if pos.y < 0.0 {
        alive := false;
      }
      center := TruncPoint(pos);
    }
  }

  // ---------------------------------------------------------------------------
  // TurretBullet (turret_bullet.py:21-43)
  // ---------------------------------------------------------------------------

  /** Pixels per second along the (unit) direction. */
  const TurretBulletSpeed: real := 600.0

  /** The closed screen rectangle [0, width] × [0, height]: the edges count
      as on the screen. */
  predicate OnScreen(p: Vec, width: int, height: int) {
    0.0 <= p.x <= width as real && 0.0 <= p.y <= height as real
  }

  /** The point `t` seconds along the direction from `start`. */
  function Along(start: Vec, direction: Vec, t: real): Vec {
    Plus(start, Times(direction, TurretBulletSpeed * t))
  }

  /** One `TurretBullet.update` on a screen of the given size. */
  function TurretStep(s: Flight, direction: Vec, dt: real, width: int, height: int): Flight {
    var p := Plus(s.pos, Times(Times(direction, TurretBulletSpeed), dt));
    Flight(p, s.alive && OnScreen(p, width, height))
  }

  function TurretRun(s: Flight, direction: Vec, dts: seq<real>, width: int, height: int): Flight
    decreases |dts|
  {
    if dts == [] then s else TurretRun(TurretStep(s, direction, dts[0], width, height), direction, dts[1..], width, height)
  }

  /** The kill rule: a live turret bullet survives an update exactly when
      its new position is on the closed screen rectangle. */
  lemma TurretKillRule(s: Flight, direction: Vec, dt: real, width: int, height: int)
    ensures TurretStep(s, direction, dt, width, height).pos == Along(s.pos, direction, dt)
    ensures s.alive ==>
      (TurretStep(s, direction, dt, width, height).alive <==> OnScreen(Along(s.pos, direction, dt), width, height))
    ensures !s.alive ==> !TurretStep(s, direction, dt, width, height).alive
  {
  }

  /** The four corners of the screen are on it: a bullet that lands exactly
      on an edge lives on. */
  lemma CornersAreOnScreen(width: nat, height: nat)
    ensures OnScreen(Vec(0.0, 0.0), width, height) && OnScreen(Vec(width as real, height as real), width, height)
    ensures OnScreen(Vec(width as real, 0.0), width, height) && OnScreen(Vec(0.0, height as real), width, height)
    ensures !OnScreen(Vec(-0.5, 0.0), width, height) && !OnScreen(Vec(0.0, height as real + 0.5), width, height)
  {
  }

  /** After any run of frames the bullet is 600 times the elapsed time
      along its direction from where it started. */
  lemma {:induction false} TurretRunPosition(s: Flight, direction: Vec, dts: seq<real>, width: int, height: int)
    ensures TurretRun(s, direction, dts, width, height).pos == Along(s.pos, direction, Sum(dts))
    decreases |dts|
  {
    if dts != [] {
      var next := TurretStep(s, direction, dts[0], width, height);
      TurretRunPosition(next, direction, dts[1..], width, height);
      assert Along(next.pos, direction, Sum(dts[1..])) == Along(s.pos, direction, Sum(dts));
    }
  }

  /** The screen is convex: between two points of a straight flight that are
      both on the screen, every point is on the screen. */
  lemma BetweenOnScreen(start: Vec, direction: Vec, t: real, u: real, width: int, height: int)
    requires 0.0 <= t <= u
    requires OnScreen(start, width, height) && OnScreen(Along(start, direction, u), width, height)
    ensures OnScreen(Along(start, direction, t), width, height)
  {
    if u > 0.0 {
      var f := t / u;
      assert 0.0 <= f <= 1.0;
      assert Along(start, direction, t).x == start.x + f * (Along(start, direction, u).x - start.x);
      assert Along(start, direction, t).y == start.y + f * (Along(start, direction, u).y - start.y);
      MixBetween(start.x, Along(start, direction, u).x, f, width as real);
      MixBetween(start.y, Along(start, direction, u).y, f, height as real);
    }
  }

  /** A mix of two values of [0, hi] lies in [0, hi]. */
  lemma MixBetween(a: real, b: real, f: real, hi: real)
    requires 0.0 <= a <= hi && 0.0 <= b <= hi && 0.0 <= f <= 1.0
    ensures 0.0 <= a + f * (b - a) <= hi
  {
    LerpBetween(a, b, f);
    assert Lerp(a, b, f) == a + f * (b - a);
  }

  /** A straight flight that starts on the screen, with frame times that
      are never negative, is still alive after a run of frames exactly when
      it was alive before and ends on the screen. */
  lemma {:induction false} TurretSurvivesIff(s: Flight, direction: Vec, dts: seq<real>, width: int, height: int)
    requires OnScreen(s.pos, width, height)
    requires dts != [] && forall i :: 0 <= i < |dts| ==> 0.0 <= dts[i]
    ensures TurretRun(s, direction, dts, width, height).alive <==>
      s.alive && OnScreen(Along(s.pos, direction, Sum(dts)), width, height)
    decreases |dts|
  {
    var next := TurretStep(s, direction, dts[0], width, height);
    var rest := dts[1..];
    assert forall i :: 0 <= i < |rest| ==> 0.0 <= rest[i] by {
      forall i | 0 <= i < |rest| ensures 0.0 <= rest[i] {
        assert rest[i] == dts[i + 1];
      }
    }
    assert next.pos == Along(s.pos, direction, dts[0]);
    if rest == [] {
      assert Sum(dts) == dts[0];
    } else {
      SumNonNegative(rest);
      assert Along(next.pos, direction, Sum(rest)) == Along(s.pos, direction, Sum(dts));
      if OnScreen(next.pos, width, height) {
        TurretSurvivesIff(next, direction, rest, width, height);
      } else {
        TurretDeadStaysDead(next, direction, rest, width, height);
        if OnScreen(Along(s.pos, direction, Sum(dts)), width, height) {
          BetweenOnScreen(s.pos, direction, dts[0], Sum(dts), width, height);
        }
      }
    }
  }

  /** `kill()` is final: a dead bullet stays dead. */
  lemma {:induction false} TurretDeadStaysDead(s: Flight, direction: Vec, dts: seq<real>, width: int, height: int)
    requires !s.alive
    ensures !TurretRun(s, direction, dts, width, height).alive
    decreases |dts|
  {
    if dts != [] {
      TurretDeadStaysDead(TurretStep(s, direction, dts[0], width, height), direction, dts[1..], width, height);
    }
  }

  /** `rect.topleft = pos - (width / 2, height / 2)`, each coordinate
      truncated to an integer. */
  function TopLeftFor(pos: Vec, width: nat, height: nat): Point {
    TruncPoint(Minus(pos, Vec(width as real / 2.0, height as real / 2.0)))
  }

  /** The rectangle is centred on the position to within a pixel, so a
      sprite at least 2 pixels wide and high always covers its position. */
  lemma RectCoversPosition(pos: Vec, width: nat, height: nat)
    requires width >= 2 && height >= 2
    ensures var tl := TopLeftFor(pos, width, height);
      tl.x as real <= pos.x < (tl.x + width) as real && tl.y as real <= pos.y < (tl.y + height) as real
  {
  }

  /** A turret bullet's sprite; `width` and `height` are the size of its
      rectangle (that of `images[0]`). */
  class TurretBullet {
    var pos: Vec
    var direction: Vec
    var alive: bool
    /** `rect.topleft`. */
    var topLeft: Point
    const width: nat
    const height: nat

    function State(): Flight
      reads this
    {
      Flight(pos, alive)
    }

    constructor (pos: Vec, direction: Vec, width: nat, height: nat)
      ensures State() == Flight(pos, true) && this.direction == direction
      ensures this.width == width && this.height == height && topLeft == Point(0, 0)
    {
      this.pos := pos;
      this.direction := direction;
      alive := true;
      this.width := width;
      this.height := height;
      topLeft := Point(0, 0);
    }

    /** `update` on a screen of the given size: move along the direction,
        kill when off the screen, and centre the rectangle on the new
        position (also on the tick that kills). The direction is never
        written. */
    method Update(dt: real, screenWidth: int, screenHeight: int)
      modifies this`pos, this`alive, this`topLeft
      ensures State() == TurretStep(old(State()), direction, dt, screenWidth, screenHeight)
      ensures topLeft == TopLeftFor(pos, width, height)
    {
      pos := Plus(pos, Times(Times(direction, TurretBulletSpeed), dt));
      if pos.y < 0.0 || pos.y > screenHeight as real || pos.x < 0.0 || pos.x > screenWidth as real {
        alive := false;
      }
      topLeft := TopLeftFor(pos, width, height);
    }
  }
}

=== FILE: enemy.dfy ===
/** The enemy scripts of enemy.py: the fire-on-cooldown loop of `RedEnemy`
    and `InsectEnemy`, the straight course of a red enemy (shared with
    game_flow.py), and the mode machine of `EnemySpawner` (idle, red enemy,
    squadron). Random draws and the player's presence are parameters. */
module Enemies {
  import opened Prelude
  import opened Numerics
  import opened Geometry
  import opened Engine
  import opened Equipment

  // ---------------------------------------------------------------------------
  // The fire loop (enemy.py:72-81, 123-132)
  // ---------------------------------------------------------------------------

  /** The loop's local `cannon_timer` after one tick, and whether it shot. */
  datatype FireStep = FireStep(timer: real, fire: bool)

  /** One pass of the fire loop: without a player everything is frozen; with
      one, an expired timer shoots and reloads, any other timer cools down. */
  function FireTick(timer: real, dt: real, playerPresent: bool, reload: real): (r: FireStep)
    ensures !playerPresent ==> r == FireStep(timer, false)
    ensures r.fire <==> playerPresent && timer <= 0.0
    ensures r.fire ==> r.timer == reload
    ensures playerPresent && timer > 0.0 ==> r.timer == Cooled(timer, dt)
    ensures 0.0 <= timer && 0.0 <= reload ==> 0.0 <= r.timer
  {
    if !playerPresent then FireStep(timer, false)
    else if timer <= 0.0 then FireStep(reload, true)
    else FireStep(Cooled(timer, dt), false)
  }

  /** The number of shots over a run of ticks, all with the player present. */
  function ShotsFired(timer: real, dts: seq<real>, reload: real): nat
    decreases |dts|
  {
    if dts == [] then 0
    else
      var s := FireTick(timer, dts[0], true, reload);
      (if s.fire then 1 else 0) + ShotsFired(s.timer, dts[1..], reload)
  }

  /** With a positive reload time two consecutive ticks never both shoot:
      n ticks fire at most (n + 1) / 2 shots, and at most n / 2 while the
      timer is still running, whatever the frame times. */
  lemma {:induction false} ShotsAtMostEveryOtherTick(timer: real, dts: seq<real>, reload: real)
    requires reload > 0.0
    ensures ShotsFired(timer, dts, reload) <= (|dts| + 1) / 2
    ensures timer > 0.0 ==> ShotsFired(timer, dts, reload) <= |dts| / 2
    decreases |dts|
  {
    if dts != [] {
      var s := FireTick(timer, dts[0], true, reload);
      ShotsAtMostEveryOtherTick(s.timer, dts[1..], reload);
    }
  }

  /** The shot that cools the timer down to zero is not taken on that tick:
      a tick that starts with a running timer never shoots. */
  lemma NoShotOnTheTickTheTimerExpires(timer: real, dt: real, reload: real)
    requires timer > 0.0
    ensures !FireTick(timer, dt, true, reload).fire
    ensures dt >= timer ==> FireTick(timer, dt, true, reload).timer == 0.0
  {
  }

  /** `RedEnemy`: the fire loop with a fixed 1.0 s reload. Its `shoot` builds a
      seeking provider without a mark and raises TypeError, so only the
      decision to shoot is modelled. */
  class RedEnemy {
    var timer: real

    constructor ()
      ensures timer == 0.1
    {
      timer := 0.1;
    }

    method Update(dt: real, playerPresent: bool) returns (fire: bool)
      modifies this
      ensures FireStep(timer, fire) == FireTick(old(timer), dt, playerPresent, 1.0)
    {
      fire := false;
      if playerPresent {
        if timer <= 0.0 {
          fire := true;
          timer := 1.0;
        } else {
          timer := Max(timer - dt, 0.0);
        }
      }
    }
  }

  /** The largest angle error `shoot` adds to its aim, in degrees. */
  const AimError: real := 10.0

  /** `InsectEnemy`: the fire loop with the reload time in the `cannon_timer`
      field, which the spawners overwrite; a shot is aimed at the player with
      an error drawn from [-10, 10]. */
  class InsectEnemy {
    const trig: Trig
    var shotSpeed: real
    /** The field `cannon_timer`: the reload time. */
    var reload: real
    /** The loop's local `cannon_timer`: the time left before the next shot. */
    var timer: real

    constructor (trig: Trig)
      ensures this.trig == trig && shotSpeed == 80.0 && reload == 2.0 && timer == 0.1
    {
      this.trig := trig;
      shotSpeed := 80.0;
      reload := 2.0;
      timer := 0.1;
    }

    /** The spawner's configuration of a new insect. */
    method Configure(shotSpeed: real, reload: real)
      modifies this`shotSpeed, this`reload
      ensures this.shotSpeed == shotSpeed && this.reload == reload
    {
      this.shotSpeed := shotSpeed;
      this.reload := reload;
    }

    /** One pass of the loop at `center`, with the player at `player` (if any)
        and `error` the angle error drawn for a shot. */
    method Update(dt: real, player: Option<Point>, center: Point, error: real) returns (shot: Option<Launch>)
      modifies this`timer
      ensures FireStep(timer, shot.Some?) == FireTick(old(timer), dt, player.Some?, reload)
      ensures shot.Some? ==>
        shot.value == Launch(center, trig.heading(Minus(ToVec(player.value), ToVec(center))) + error, shotSpeed)
    {
      shot := None;
      if player.Some? {
        if timer <= 0.0 {
          var direction := trig.heading(Minus(ToVec(player.value), ToVec(center)));
          shot := Some(Launch(center, direction + error, shotSpeed));
          timer := reload;
        } else {
          timer := Max(timer - dt, 0.0);
        }
      }
    }
  }

  // ---------------------------------------------------------------------------
  // The red enemy's course (enemy.py:260-281, game_flow.py:258-277)
  // ---------------------------------------------------------------------------

  /** How far outside the screen enemies appear and disappear. */
  const OffScreen: int := 10

  /** Where a red enemy enters: above the middle of the screen. */
  function RedEnemyStart(screen: Rect): Vec {
    Vec(screen.CenterX() as real, (screen.top - OffScreen) as real)
  }

  /** Where a red enemy leaves: below the screen, straight down when there is
      no player, otherwise on the line from its entry through the player. A
      player exactly on the entry height divides by zero (`None`). */
  function RedEnemyEnd(screen: Rect, player: Option<Point>): (r: Option<Vec>)
    ensures r.None? <==> player.Some? && player.value.y == screen.top - OffScreen
    ensures r.Some? ==> r.value.y == (screen.Bottom() + OffScreen) as real
    ensures player.None? ==> r == Some(Vec(screen.CenterX() as real, (screen.Bottom() + OffScreen) as real))
    ensures r.Some? && player.Some? ==>
      var s := RedEnemyStart(screen);
      var p := ToVec(player.value);
      (r.value.x - s.x) * (p.y - s.y) == (p.x - s.x) * (r.value.y - s.y)
  {
    var s := RedEnemyStart(screen);
    var bottom := (screen.Bottom() + OffScreen) as real;
    if player.None? then Some(Vec(s.x, bottom))
    else
      var p := ToVec(player.value);
      if p.y == s.y then None
      else
        var x := s.x + (p.x - s.x) * (bottom - s.y) / (p.y - s.y);
        QuotientTimesDivisor((p.x - s.x) * (bottom - s.y), p.y - s.y);
        Some(Vec(x, bottom))
  }

  lemma QuotientTimesDivisor(a: real, b: real)
    requires b != 0.0
    ensures (a / b) * b == a
  {
  }

  /** The course is never degenerate: it ends below the screen and starts
      above it, so the straight provider can always be built. */
  lemma RedCourseBuilds(screen: Rect, player: Option<Point>, trig: Trig)
    requires RedEnemyEnd(screen, player).Some?
    ensures PlanStraight(RedEnemyStart(screen), RedEnemyEnd(screen, player), None, trig).Success?
    ensures RedEnemyEnd(screen, player).value.y - RedEnemyStart(screen).y == (screen.height + 2 * OffScreen) as real
  {
  }

  /** A red enemy to create: the ends of its straight course and its speed. */
  datatype RedOrder = RedOrder(start: Vec, end: Vec, speed: real)

  // ---------------------------------------------------------------------------
  // EnemySpawner (enemy.py:135-290)
  // ---------------------------------------------------------------------------

  const InsectRouteA: seq<Point> :=
    [Point(188, -10), Point(30, 135), Point(28, 163), Point(46, 182), Point(73, 175),
     Point(211, 58), Point(231, 58), Point(244, 75), Point(242, 103), Point(53, 298)]

  const InsectRouteB: seq<Point> :=
    [Point(42, -10), Point(42, 123), Point(52, 140), Point(72, 149), Point(228, 149),
     Point(241, 141), Point(245, 124), Point(245, -10)]

  /** The four insect routes: two paths, each also flown backwards. */
  function SpawnerRoutes(): (routes: seq<seq<Point>>)
    ensures |routes| == 4
    ensures |routes[0]| == |routes[1]| == 10 && |routes[2]| == |routes[3]| == 8
    ensures routes[1] == Reverse(routes[0]) && routes[3] == Reverse(routes[2])
    ensures routes[0][0] == routes[1][9] && routes[2][0] == routes[3][7]
  {
    [InsectRouteA, Reverse(InsectRouteA), InsectRouteB, Reverse(InsectRouteB)]
  }

  const SquadronSize: nat := 5

  /** The parameters a wave fixes when it starts. */
  datatype Wave = Wave(route: nat, insectSpeed: real, spawnTimer: real, shotSpeed: real,
                       cannonTimer: real, insectType: nat)

  /** The wave started as wave number `count`: the difficulty
      `min(count / 10, 1)` interpolates the insect speed from 50 to 150, the
      shot speed from 80 to 180 and the reload time from 2.0 down to 0.5; the
      spawn timer is the time to fly 20 pixels. */
  function WaveFor(count: nat, route: nat, insectType: nat): (w: Wave)
    ensures w.route == route && w.insectType == insectType
    ensures 50.0 <= w.insectSpeed <= 150.0 && 80.0 <= w.shotSpeed <= 180.0
    ensures 0.5 <= w.cannonTimer <= 2.0
    ensures w.spawnTimer == 20.0 / w.insectSpeed && w.spawnTimer > 0.0
    ensures count >= 10 ==> w.insectSpeed == 150.0 && w.shotSpeed == 180.0 && w.cannonTimer == 0.5
    ensures count == 0 ==> w.insectSpeed == 50.0 && w.shotSpeed == 80.0 && w.cannonTimer == 2.0
  {
    var d := Min(count as real / 10.0, 1.0);
    LerpBetween(50.0, 150.0, d);
    LerpBetween(80.0, 180.0, d);
    LerpBetween(2.0, 0.5, d);
    var speed := Lerp(50.0, 150.0, d);
    Wave(route, speed, 20.0 / speed, Lerp(80.0, 180.0, d), Lerp(2.0, 0.5, d), insectType)
  }

  /** Later waves are never easier: faster insects and shots, shorter reloads. */
  lemma WavesHarden(m: nat, n: nat, route: nat, insectType: nat)
    requires m <= n
    ensures WaveFor(m, route, insectType).insectSpeed <= WaveFor(n, route, insectType).insectSpeed
    ensures WaveFor(m, route, insectType).shotSpeed <= WaveFor(n, route, insectType).shotSpeed
    ensures WaveFor(n, route, insectType).cannonTimer <= WaveFor(m, route, insectType).cannonTimer
  {
    var dm := Min(m as real / 10.0, 1.0);
    var dn := Min(n as real / 10.0, 1.0);
    assert dm <= dn;
    LerpMonotone(50.0, 150.0, dm, dn);
    LerpMonotone(80.0, 180.0, dm, dn);
    LerpMonotone(2.0, 0.5, dm, dn);
  }

  /** An insect to create: its route, speed, and the settings written into it. */
  datatype InsectOrder = InsectOrder(route: seq<Point>, speed: real, shotSpeed: real,
                                     cannonTimer: real, insectType: nat)

  /** The spawner's mode between ticks (the intermediate mode 2 lasts only
      within the tick that starts a wave). */
  datatype SpawnMode = Idle | Spawning

  /** `EnemySpawner` with its generator's locals as fields. */
  class EnemySpawner {
    const screen: Rect
    var waveCount: int
    var mode: SpawnMode
    var spawnCount: nat
    var timer: real
    var wave: Wave

    ghost predicate Valid()
      reads this
    {
      waveCount >= -1 && spawnCount <= SquadronSize &&
      (mode == Idle ==> spawnCount == 0) &&
      (mode == Spawning ==> waveCount >= 0 && wave.route < 4 &&
                            wave == WaveFor(waveCount, wave.route, wave.insectType))
    }

    /** The constructor primes the generator, which sets the wave count to -1. */
    constructor (screen: Rect)
      ensures Valid() && this.screen == screen
      ensures waveCount == -1 && mode == Idle && spawnCount == 0 && timer == 0.4
    {
      this.screen := screen;
      waveCount := -1;
      mode := Idle;
      spawnCount := 0;
      timer := 0.4;
      wave := WaveFor(0, 0, 0);
    }

    /** One `send((game, dt))`. The timer always counts down first. An idle
        spawner facing an empty enemy group starts the next wave, which sends
        its red enemy in the same tick; a spawning one sends one insect when
        the timer has run out, and goes idle once the squadron is complete.
        `ok` is false when the red enemy's course divides by zero. */
    method Update(dt: real, enemyCount: nat, player: Option<Point>, routeDraw: nat, typeDraw: nat)
      returns (red: Option<RedOrder>, insect: Option<InsectOrder>, ok: bool)
      requires Valid() && routeDraw < 4
      modifies this
      ensures Valid()
      ensures var starts := old(mode) == Idle && enemyCount == 0;
        waveCount == old(waveCount) + (if starts then 1 else 0) &&
        (starts ==> wave == WaveFor(waveCount, routeDraw, typeDraw) && timer == wave.spawnTimer &&
                    spawnCount == 0 &&
                    ok == RedEnemyEnd(screen, player).Some? &&
                    (ok ==> mode == Spawning &&
                            red == Some(RedOrder(RedEnemyStart(screen), RedEnemyEnd(screen, player).value, 120.0)))) &&
        (!starts ==> ok && red.None? && wave == old(wave))
      ensures insect.Some? <==> old(mode) == Spawning && old(spawnCount) < SquadronSize && old(timer) - dt <= 0.0
      ensures insect.Some? ==>
        spawnCount == old(spawnCount) + 1 && mode == Spawning && timer == wave.spawnTimer &&
        insect.value == InsectOrder(SpawnerRoutes()[wave.route], wave.insectSpeed, wave.shotSpeed,
                                    wave.cannonTimer, wave.insectType)
      ensures old(mode) == Spawning && old(spawnCount) < SquadronSize && insect.None? ==>
        mode == Spawning && spawnCount == old(spawnCount) && timer == old(timer) - dt
      ensures old(mode) == Spawning && mode == Idle ==> old(spawnCount) == SquadronSize && spawnCount == 0
      ensures old(mode) == Spawning && old(spawnCount) == SquadronSize ==>
        mode == Idle && spawnCount == 0 && insect.None? && timer == old(timer) - dt && waveCount == old(waveCount)
      ensures old(mode) == Idle && enemyCount == 0 && !ok ==> mode == Idle
      ensures old(mode) == Idle && enemyCount > 0 ==> mode == Idle && timer == old(timer) - dt
    {
      timer := timer - dt;
      red, insect, ok := None, None, true;
      var starts := mode == Idle && enemyCount == 0;
      if starts {
        waveCount := waveCount + 1;
        wave := WaveFor(waveCount, routeDraw, typeDraw);
        timer := 20.0 / wave.insectSpeed;
      }
      if mode == Spawning {
        if spawnCount < SquadronSize {
          if timer <= 0.0 {
            insect := Some(InsectOrder(SpawnerRoutes()[wave.route], wave.insectSpeed, wave.shotSpeed,
                                       wave.cannonTimer, wave.insectType));
            timer := 20.0 / wave.insectSpeed;
            spawnCount := spawnCount + 1;
          }
        } else {
          mode := Idle;
          spawnCount := 0;
        }
      }
      if starts {
        var end := RedEnemyEnd(screen, player);
        if end.None? {
          ok := false;
        } else {
          red := Some(RedOrder(RedEnemyStart(screen), end.value, 120.0));
          mode := Spawning;
        }
      }
    }
  }
}

=== FILE: engine.dfy ===
/** The trajectory providers of engine.py: objects that keep a position and a
    heading, advance them once per `update(dt)`, and report when they are
    finished. The `Vector2` trigonometry they call is the uninterpreted `Trig`
    record; everything around it (clamps, look-up tables, index arithmetic,
    angle wrapping, flags) is modelled exactly. */
module Engine {
  import opened Prelude
  import opened Numerics
  import opened Geometry

  /** The exceptions a provider's construction or update can raise. */
  datatype TrajectoryError =
    | MissingEndAndAngle      // ValueError("Either end or angle must be provided")
    | ZeroLengthDirection     // normalize_ip() on a zero vector
    | TooFewControlPoints     // ctrlpoints[0] or the unbound loop variable `end`
    | ZeroWidthSegment        // ZeroDivisionError in the segment interpolation

  // ---------------------------------------------------------------------------
  // StraightTrajectoryProvider (engine.py:108-148)
  // ---------------------------------------------------------------------------

  /** What the constructor derives from its arguments: the unit direction, the
      travel limit (`None` is the `float("Infinity")` of an angle-only path) and
      the initial heading. */
  datatype StraightPlan = StraightPlan(direction: Vec, limit: Option<real>, angle: real)

  /** The constructor's branch on `end` and `angle`: an end point wins over an
      angle, neither is a ValueError, and normalising a zero direction raises. */
  function PlanStraight(start: Vec, end: Option<Vec>, angle: Option<real>, trig: Trig)
    : (r: Result<StraightPlan, TrajectoryError>)
    ensures end.None? && angle.None? ==> r == Failure(MissingEndAndAngle)
    ensures end.Some? ==> (r.Success? <==> end.value != start)
    ensures end.Some? && r.Success? ==>
      var delta := Minus(end.value, start);
      r.value == StraightPlan(trig.normalized(delta), Some(trig.length(delta)), trig.heading(delta))
    ensures end.None? && angle.Some? ==>
      (r.Success? <==> trig.unitAt(angle.value) != Zero) &&
      (r.Success? ==> r.value.limit == None && r.value.angle == angle.value)
    ensures r.Failure? ==> r.error == MissingEndAndAngle || r.error == ZeroLengthDirection
  {
    if end.Some? then
      var delta := Minus(end.value, start);
      if delta == Zero then Failure(ZeroLengthDirection)
      else Success(StraightPlan(trig.normalized(delta), Some(trig.length(delta)), trig.heading(delta)))
    else if angle.Some? then
      var dir := trig.unitAt(angle.value);
      if dir == Zero then Failure(ZeroLengthDirection)
      else Success(StraightPlan(trig.normalized(dir), None, angle.value))
    else Failure(MissingEndAndAngle)
  }

  class StraightProvider {
    const trig: Trig
    const start: Vec
    const speed: real
    const angularSpeed: real
    const direction: Vec
    const limit: Option<real>
    var position: Vec
    var angle: real

    constructor (start: Vec, plan: StraightPlan, speed: real, angularSpeed: real, trig: Trig)
      ensures this.start == start && this.speed == speed && this.angularSpeed == angularSpeed
      ensures this.trig == trig && direction == plan.direction && limit == plan.limit
      ensures position == start && angle == plan.angle
    {
      this.trig := trig;
      this.start := start;
      this.speed := speed;
      this.angularSpeed := angularSpeed;
      direction := plan.direction;
      limit := plan.limit;
      position := start;
      angle := plan.angle;
    }

    /** `StraightTrajectoryProvider(start, end, angle, speed, angular_speed)`,
        with the constructor's exceptions as a `Failure`. */
    static method Create(start: Vec, end: Option<Vec>, angle: Option<real>, speed: real,
                         angularSpeed: real, trig: Trig)
      returns (r: Result<StraightProvider, TrajectoryError>)
      ensures r.Failure? <==> PlanStraight(start, end, angle, trig).Failure?
      ensures r.Failure? ==> r.error == PlanStraight(start, end, angle, trig).error
      ensures r.Success? ==>
        var plan := PlanStraight(start, end, angle, trig).value;
        fresh(r.value) && r.value.position == start && r.value.angle == plan.angle &&
        r.value.direction == plan.direction && r.value.limit == plan.limit &&
        r.value.start == start && r.value.speed == speed && r.value.angularSpeed == angularSpeed &&
        r.value.trig == trig
    {
      var plan := PlanStraight(start, end, angle, trig);
      if plan.Failure? {
        return Failure(plan.error);
      }
      var p := new StraightProvider(start, plan.value, speed, angularSpeed, trig);
      return Success(p);
    }

    /** `update(dt)`: move along the fixed direction and turn at the angular speed. */
    method Update(dt: real)
      modifies this
      ensures position == Plus(old(position), Times(Times(direction, speed), dt))
      ensures angle == old(angle) + angularSpeed * dt
    {
      position := Plus(position, Times(Times(direction, speed), dt));
      angle := angle + angularSpeed * dt;
    }

    function GetCurrentPosition(): Point
      reads this
    {
      TruncPoint(position)
    }

    /** `is_finished`: the distance covered from the start reached the limit;
        an angle-only path has no limit and never finishes. */
    predicate IsFinished(): (done: bool)
      reads this
      ensures done ==> limit.Some?
    {
      limit.Some? && trig.length(Minus(position, start)) >= limit.value
    }
  }

  // ---------------------------------------------------------------------------
  // LinearSegmentsTrajectoryProvider (engine.py:51-105)
  // ---------------------------------------------------------------------------

  /** One row of `_segment_lut`: `(initial, final, begin, end)`. */
  datatype Segment = Segment(initial: int, final: int, begin: Vec, end: Vec)

  function Width(s: Segment): int { s.final - s.initial }

  /** The row covers distance d (`initial <= d <= final`). */
  predicate Covers(s: Segment, d: real) {
    s.initial as real <= d <= s.final as real
  }

  /** The rows tile [0, total] without gaps: the first starts at 0, each starts
      where the previous ended, and the last ends at the total length. */
  predicate Contiguous(lut: seq<Segment>, total: int) {
    (|lut| == 0 ==> total == 0) &&
    (|lut| > 0 ==> lut[0].initial == 0 && lut[|lut| - 1].final == total) &&
    (forall i :: 0 < i < |lut| ==> lut[i].initial == lut[i - 1].final)
  }

  /** The table describes the polyline through `ctrl`: row i joins control
      points i and i+1, and its width is the rounded length of that leg. */
  predicate Describes(lut: seq<Segment>, ctrl: seq<Point>, trig: Trig) {
    |lut| == (if |ctrl| == 0 then 0 else |ctrl| - 1) &&
    forall i :: 0 <= i < |lut| ==>
      lut[i].begin == ToVec(ctrl[i]) && lut[i].end == ToVec(ctrl[i + 1]) &&
      Width(lut[i]) == RoundHalfEven(trig.length(Minus(lut[i].end, lut[i].begin)))
  }

  /** The loop of the constructor that fills `_segment_lut` and `_total_length`. */
  method BuildTable(ctrl: seq<Point>, trig: Trig) returns (lut: seq<Segment>, total: int)
    ensures Describes(lut, ctrl, trig)
    ensures Contiguous(lut, total)
  {
    lut := [];
    total := 0;
    var i := 0;
    while i < |ctrl| - 1
      invariant 0 <= i <= (if |ctrl| == 0 then 0 else |ctrl| - 1)
      invariant |lut| == i
      invariant forall j :: 0 <= j < i ==>
        lut[j].begin == ToVec(ctrl[j]) && lut[j].end == ToVec(ctrl[j + 1]) &&
        Width(lut[j]) == RoundHalfEven(trig.length(Minus(lut[j].end, lut[j].begin)))
      invariant Contiguous(lut, total)
    {
      var begin := ToVec(ctrl[i]);
      var end := ToVec(ctrl[i + 1]);
      var deltaLength := RoundHalfEven(trig.length(Minus(end, begin)));
      lut := lut + [Segment(total, total + deltaLength, begin, end)];
      total := total + deltaLength;
      i := i + 1;
    }
  }

  /** With non-negative lengths every row is at least zero wide and the total is non-negative. */
  lemma {:induction false} DescribedWidthsNonNegative(lut: seq<Segment>, ctrl: seq<Point>, trig: Trig, total: int)
    requires trig.Sane() && Describes(lut, ctrl, trig) && Contiguous(lut, total)
    ensures forall i :: 0 <= i < |lut| ==> lut[i].initial <= lut[i].final
    ensures total >= 0
  {
    forall i | 0 <= i < |lut| ensures lut[i].initial <= lut[i].final {
      assert trig.length(Minus(lut[i].end, lut[i].begin)) >= 0.0;
    }
    if |lut| > 0 {
      RowsStartNonNegative(lut, total, |lut| - 1);
    }
  }

  lemma {:induction false} RowsStartNonNegative(lut: seq<Segment>, total: int, k: nat)
    requires Contiguous(lut, total) && k < |lut|
    requires forall i :: 0 <= i < |lut| ==> lut[i].initial <= lut[i].final
    ensures 0 <= lut[k].initial
    decreases k
  {
    if k > 0 {
      RowsStartNonNegative(lut, total, k - 1);
    }
  }

  /** The first row covering d, as the update's `for ... break` scan finds it. */
  function FirstCovering(lut: seq<Segment>, d: real): (k: Option<nat>)
    ensures k.Some? ==> k.value < |lut| && Covers(lut[k.value], d)
    ensures k.Some? ==> forall j :: 0 <= j < k.value ==> !Covers(lut[j], d)
    ensures k.None? <==> forall j :: 0 <= j < |lut| ==> !Covers(lut[j], d)
  {
    if lut == [] then None
    else if Covers(lut[0], d) then Some(0)
    else match FirstCovering(lut[1..], d)
      case None => None
      case Some(j) => Some(j + 1)
  }

  /** The scan itself: the first row whose range holds d. */
  method Locate(lut: seq<Segment>, d: real) returns (k: Option<nat>)
    ensures k == FirstCovering(lut, d)
  {
    var i := 0;
    while i < |lut|
      invariant 0 <= i <= |lut|
      invariant forall j :: 0 <= j < i ==> !Covers(lut[j], d)
    {
      if Covers(lut[i], d) {
        k := Some(i);
        return;
      }
      i := i + 1;
    }
    k := None;
  }

  /** Every distance in [0, total] lies in some row of a gap-free table. */
  lemma CoveredThroughout(lut: seq<Segment>, total: int, d: real)
    requires Contiguous(lut, total) && |lut| > 0
    requires forall i :: 0 <= i < |lut| ==> lut[i].initial <= lut[i].final
    requires 0.0 <= d <= total as real
    ensures FirstCovering(lut, d).Some?
  {
    CoveredFrom(lut, total, d, 0);
  }

  lemma {:induction false} CoveredFrom(lut: seq<Segment>, total: int, d: real, i: nat)
    requires Contiguous(lut, total) && i < |lut|
    requires lut[i].initial as real <= d <= total as real
    ensures exists j :: i <= j < |lut| && Covers(lut[j], d)
    decreases |lut| - i
  {
    if !Covers(lut[i], d) {
      assert i + 1 < |lut|;
      assert lut[i + 1].initial == lut[i].final;
      CoveredFrom(lut, total, d, i + 1);
    }
  }

  /** The interpolation divides by the width of the row it found; with rows of
      non-negative width that width can only be zero on the first row, at
      distance 0 (a repeated first control point). */
  lemma ZeroWidthOnlyAtStart(lut: seq<Segment>, total: int, d: real)
    requires Contiguous(lut, total)
    requires forall i :: 0 <= i < |lut| ==> lut[i].initial <= lut[i].final
    requires FirstCovering(lut, d).Some? && Width(lut[FirstCovering(lut, d).value]) == 0
    ensures FirstCovering(lut, d) == Some(0) && d == 0.0
  {
    var k := FirstCovering(lut, d).value;
    if k > 0 {
      assert lut[k].initial == lut[k - 1].final;
      assert Covers(lut[k - 1], d);
      assert false;
    }
  }

  /** `begin.lerp(end, t)` of pygame's `Vector2`. */
  function VecLerp(a: Vec, b: Vec, t: real): Vec {
    Vec(Lerp(a.x, b.x, t), Lerp(a.y, b.y, t))
  }

  class LinearSegmentsProvider {
    const trig: Trig
    const speed: real
    const shift: real
    const lut: seq<Segment>
    const total: int
    var distance: real
    var position: Point
    var angle: real

    ghost predicate Valid()
      reads this
    {
      Contiguous(lut, total) && |lut| > 0
    }

    /** The constructor, for the two or more control points it needs. */
    constructor (ctrl: seq<Point>, speed: real, shift: real, trig: Trig)
      requires |ctrl| >= 2
      ensures Valid() && Describes(lut, ctrl, trig)
      ensures this.speed == speed && this.shift == shift && this.trig == trig
      ensures distance == 0.0 && position == ctrl[0]
      ensures angle == trig.heading(Minus(ToVec(ctrl[|ctrl| - 1]), ToVec(ctrl[|ctrl| - 2])))
    {
      var table, length := BuildTable(ctrl, trig);
      this.trig := trig;
      this.speed := speed;
      this.shift := shift;
      lut := table;
      total := length;
      distance := 0.0;
      position := ctrl[0];
      // the loop variables `begin` and `end` still hold the last leg
      angle := trig.heading(Minus(ToVec(ctrl[|ctrl| - 1]), ToVec(ctrl[|ctrl| - 2])));
    }

    /** `LinearSegmentsTrajectoryProvider(ctrlpoints, ...)`: fewer than two
        control points fail (an IndexError or an unbound `end`). */
    static method Create(ctrl: seq<Point>, speed: real, shift: real, trig: Trig)
      returns (r: Result<LinearSegmentsProvider, TrajectoryError>)
      ensures r.Failure? <==> |ctrl| < 2
      ensures r.Failure? ==> r.error == TooFewControlPoints
      ensures r.Success? ==>
        (fresh(r.value) && r.value.Valid() && Describes(r.value.lut, ctrl, trig) &&
         r.value.distance == 0.0 && r.value.position == ctrl[0] && r.value.speed == speed &&
         r.value.shift == shift && r.value.trig == trig)
    {
      if |ctrl| < 2 {
        return Failure(TooFewControlPoints);
      }
      var p := new LinearSegmentsProvider(ctrl, speed, shift, trig);
      return Success(p);
    }

    /** `update(dt)`: advance the distance, clamp it to the total, then place the
        sprite by interpolating inside the first row that covers the distance.
        `ok` is false when that row has zero width (ZeroDivisionError). */
    method Update(dt: real) returns (ok: bool)
      requires Valid()
      modifies this
      ensures Valid()
      ensures distance == Min(old(distance) + speed * dt, total as real)
      ensures IsFinished() <==> old(distance) + speed * dt >= total as real
      ensures var k := FirstCovering(lut, distance);
        && (ok <==> !(k.Some? && Width(lut[k.value]) == 0))
        && (k.Some? && ok ==>
              var s := lut[k.value];
              position == TruncPoint(VecLerp(s.begin, s.end, (distance - s.initial as real) / Width(s) as real)) &&
              angle == trig.heading(Minus(s.end, s.begin)))
        && (!(k.Some? && ok) ==> position == old(position) && angle == old(angle))
    {
      distance := distance + speed * dt;
      if distance > total as real {
        distance := total as real;
      }
      var k := Locate(lut, distance);
      ok := true;
      if k.Some? {
        var s := lut[k.value];
        if s.final - s.initial == 0 {
          ok := false;
        } else {
          var t := (distance - s.initial as real) / (s.final - s.initial) as real;
          position := TruncPoint(VecLerp(s.begin, s.end, t));
          angle := trig.heading(Minus(s.end, s.begin));
        }
      }
    }

    /** `get_current_position`: the interpolated point, pushed sideways by
        `shift` along the normal of the heading when the shift is non-zero. */
    function GetCurrentPosition(): (p: Point)
      reads this
      ensures shift == 0.0 ==> p == position
    {
      if shift != 0.0 then
        TruncPoint(Plus(ToVec(position), Times(trig.unitAt(90.0 + angle), shift)))
      else position
    }

    predicate IsFinished()
      reads this
    {
      distance >= total as real
    }
  }

  /** Non-negative steps from a non-negative distance keep the distance within
      [0, total] and reach the end exactly when the unclamped sum would pass it. */
  lemma ClampedDistanceInRange(d: real, step: real, total: int)
    requires 0.0 <= d && 0.0 <= step && 0 <= total
    ensures 0.0 <= Min(d + step, total as real) <= total as real
    ensures Min(d + step, total as real) >= total as real <==> d + step >= total as real
  {
  }

  // ---------------------------------------------------------------------------
  // PredefinedTrajectoryProvider (engine.py:151-191)
  // ---------------------------------------------------------------------------

  class PredefinedProvider {
    const positions: seq<Point>
    const angles: seq<real>
    var index: int
    var speed: real

    /** The constructor asserts that both sample lists have the same length. */
    constructor (positions: seq<Point>, angles: seq<real>, speed: real)
      requires |positions| == |angles|
      ensures this.positions == positions && this.angles == angles
      ensures index == 0 && this.speed == speed
    {
      this.positions := positions;
      this.angles := angles;
      index := 0;
      this.speed := speed;
    }

    /** `PredefinedTrajectoryProvider.fixed(coord, angle)`: one sample, speed 0. */
    constructor Fixed(coord: Point, angle: real)
      ensures positions == [coord] && angles == [angle]
      ensures index == 0 && speed == 0.0 && !IsFinished()
    {
      positions := [coord];
      angles := [angle];
      index := 0;
      speed := 0.0;
    }

    /** `update(dt)`: the index moves by the truncated number of samples. */
    method Update(dt: real)
      modifies this`index
      ensures index == old(index) + Trunc(speed * dt)
      ensures speed * dt >= 0.0 ==> index >= old(index)
      ensures -1.0 < speed * dt < 1.0 ==> index == old(index)
    {
      index := index + Trunc(speed * dt);
    }

    method SetSpeed(value: real)
      modifies this`speed
      ensures speed == value
    {
      speed := value;
    }

    method Reset()
      modifies this`index
      ensures index == 0
    {
      index := 0;
    }

    /** `get_current_position`: the sample at the index, clamped to the last
        one; an empty list raises IndexError, and a negative index counts from
        the end as Python does. */
    function GetCurrentPosition(): (r: Option<Point>)
      reads this
      ensures r.None? <==> |positions| == 0 || index < -|positions|
      ensures 0 <= index < |positions| ==> r == Some(positions[index])
      ensures |positions| > 0 && index >= |positions| ==> r == Some(positions[|positions| - 1])
    {
      PyIndex(positions, MinInt(index, |positions| - 1))
    }

    function GetCurrentAngle(): (r: Option<real>)
      reads this
      ensures r.None? <==> |angles| == 0 || index < -|angles|
      ensures 0 <= index < |angles| ==> r == Some(angles[index])
      ensures |angles| > 0 && index >= |angles| ==> r == Some(angles[|angles| - 1])
    {
      PyIndex(angles, MinInt(index, |angles| - 1))
    }

    predicate IsFinished()
      reads this
    {
      index >= |positions|
    }
  }

  // ---------------------------------------------------------------------------
  // SeekingTrajectoryProvider (engine.py:194-243)
  // ---------------------------------------------------------------------------

  /** The single correction of an angle difference by a full turn. */
  function WrapOnce(diff: real): (r: real)
    ensures r == diff || r == diff - 360.0 || r == diff + 360.0
    ensures -540.0 <= diff <= 540.0 ==> -180.0 <= r <= 180.0
    ensures -180.0 <= diff <= 180.0 ==> r == diff
  {
    if diff > 180.0 then diff - 360.0
    else if diff < -180.0 then diff + 360.0
    else diff
  }

  /** The new heading when the mark is alive: turn towards `desired` by the
      wrapped difference, but never by more than `cap` degrees in one update
      (the cap is not scaled by dt). */
  function Steer(angle: real, desired: real, cap: real): (r: real)
    ensures WrapOnce(desired - angle) > cap ==> r == angle + cap
    ensures WrapOnce(desired - angle) < -cap && WrapOnce(desired - angle) <= cap ==> r == angle - cap
    ensures -cap <= WrapOnce(desired - angle) <= cap ==> r == desired
    ensures 0.0 <= cap <= 180.0 ==> -cap <= WrapOnce(r - angle) <= cap
  {
    var diff := WrapOnce(desired - angle);
    if diff > cap then angle + cap
    else if diff < -cap then angle - cap
    else desired
  }

  class SeekingProvider {
    const trig: Trig
    const start: Point
    const speed: real
    const angularSpeed: real
    const length: Option<real>
    var position: Vec
    var direction: Vec
    var angle: real
    var distance: real

    /** The initial direction is the raw vector to the mark, not normalised. */
    constructor (start: Point, angle: real, speed: real, angularSpeed: real, markCenter: Point,
                 length: Option<real>, trig: Trig)
      ensures this.start == start && this.speed == speed && this.angularSpeed == angularSpeed
      ensures this.length == length && this.trig == trig && this.angle == angle
      ensures position == ToVec(start) && direction == Minus(ToVec(markCenter), ToVec(start))
      ensures distance == 0.0
    {
      this.trig := trig;
      this.start := start;
      this.speed := speed;
      this.angularSpeed := angularSpeed;
      this.length := length;
      this.angle := angle;
      position := ToVec(start);
      direction := Minus(ToVec(markCenter), ToVec(start));
      distance := 0.0;
    }

    /** `update(dt)`: while the mark lives, steer towards its centre and take
        the unit vector of the new heading; then always move along the
        direction and count the distance. */
    method Update(dt: real, markAlive: bool, markCenter: Point)
      modifies this
      ensures markAlive ==>
        angle == Steer(old(angle), trig.heading(Minus(ToVec(markCenter), old(position))), angularSpeed) &&
        direction == trig.unitAt(angle)
      ensures !markAlive ==> angle == old(angle) && direction == old(direction)
      ensures position == Plus(old(position), Times(Times(direction, speed), dt))
      ensures distance == old(distance) + speed * dt
    {
      if markAlive {
        var newAngle := trig.heading(Minus(ToVec(markCenter), position));
        angle := Steer(angle, newAngle, angularSpeed);
        direction := trig.unitAt(angle);
      }
      position := Plus(position, Times(Times(direction, speed), dt));
      distance := distance + speed * dt;
    }

    function GetCurrentPosition(): Point
      reads this
    {
      TruncPoint(position)
    }

    /** `is_finished`: a missing or zero length (`not self.length`) never finishes. */
    predicate IsFinished(): (done: bool)
      reads this
      ensures length.None? || length.value == 0.0 ==> !done
      ensures length.Some? && length.value != 0.0 ==> (done <==> distance >= length.value)
    {
      length.Some? && length.value != 0.0 && distance >= length.value
    }
  }

  // ---------------------------------------------------------------------------
  // KeyboardTrajectoryProvider (engine.py:290-375)
  // ---------------------------------------------------------------------------

  /** The `Direction` flags; a set of them is a combined flag value. */
  datatype Direction = Up | Down | Left | Right | CW | CCW

  /** The flags set by the virtual keyboard together with those bound to a
      pressed key, accumulated over the bindings in order. */
  function ActiveFlags(virtualFlags: set<Direction>, bindings: seq<(int, Direction)>, pressed: set<int>)
    : (flags: set<Direction>)
    ensures forall d :: d in flags <==>
      d in virtualFlags || exists i :: 0 <= i < |bindings| && bindings[i].0 in pressed && bindings[i].1 == d
  {
    virtualFlags + set i | 0 <= i < |bindings| && bindings[i].0 in pressed :: bindings[i].1
  }

  /** The loop over `keybindings.items()` that ors in the flag of every pressed key. */
  method CollectFlags(virtualFlags: set<Direction>, bindings: seq<(int, Direction)>, pressed: set<int>)
    returns (flags: set<Direction>)
    ensures flags == ActiveFlags(virtualFlags, bindings, pressed)
  {
    flags := virtualFlags;
    var i := 0;
    while i < |bindings|
      invariant 0 <= i <= |bindings|
      invariant forall d :: d in flags <==>
        d in virtualFlags || exists j :: 0 <= j < i && bindings[j].0 in pressed && bindings[j].1 == d
    {
      if bindings[i].0 in pressed {
        flags := flags + {bindings[i].1};
      }
      i := i + 1;
    }
  }

  function Unit(b: bool): real { if b then 1.0 else 0.0 }

  /** The summed unit moves of the four direction flags. */
  function Translation(flags: set<Direction>): (t: Vec)
    ensures t == Zero <==> ((Up in flags) == (Down in flags) && (Left in flags) == (Right in flags))
    ensures t.x == 1.0 ==> Right in flags && Left !in flags
    ensures t.x == -1.0 ==> Left in flags && Right !in flags
    ensures t.y == 1.0 ==> Down in flags && Up !in flags
    ensures t.y == -1.0 ==> Up in flags && Down !in flags
    ensures -1.0 <= t.x <= 1.0 && -1.0 <= t.y <= 1.0
  {
    Vec(Unit(Right in flags) - Unit(Left in flags), Unit(Down in flags) - Unit(Up in flags))
  }

  /** One axis of the boundary clamp: `if v < lo: lo elif v > hi: hi`. */
  function ClampAxis(v: real, lo: real, hi: real): (r: real)
    ensures lo <= hi ==> lo <= r <= hi
    ensures lo <= v <= hi ==> r == v
  {
    if v < lo then lo else if v > hi then hi else v
  }

  /** The position clamped into the boundary rectangle, right and bottom edges included. */
  function ClampToBoundary(v: Vec, b: Rect): (r: Vec)
    ensures b.left as real <= r.x <= b.Right() as real
    ensures b.top as real <= r.y <= b.Bottom() as real
    ensures b.left as real <= v.x <= b.Right() as real && b.top as real <= v.y <= b.Bottom() as real ==> r == v
  {
    Vec(ClampAxis(v.x, b.left as real, b.Right() as real), ClampAxis(v.y, b.top as real, b.Bottom() as real))
  }

  class KeyboardProvider {
    const trig: Trig
    const boundary: Rect
    const speed: real
    const rotationSpeed: real
    const bindings: seq<(int, Direction)>
    var position: Vec
    var angle: real

    constructor (boundary: Rect, initialPosition: Point, speed: real, rotationSpeed: real,
                 bindings: seq<(int, Direction)>, trig: Trig)
      ensures this.boundary == boundary && this.speed == speed && this.rotationSpeed == rotationSpeed
      ensures this.bindings == bindings && this.trig == trig
      ensures position == ToVec(initialPosition) && angle == 0.0
    {
      this.trig := trig;
      this.boundary := boundary;
      this.speed := speed;
      this.rotationSpeed := rotationSpeed;
      this.bindings := bindings;
      position := ToVec(initialPosition);
      angle := 0.0;
    }

    /** `update(dt)`: the virtual flags and the pressed keys are parameters.
        A non-zero net translation moves the normalised step and clamps into
        the boundary; CW adds and CCW subtracts the rotation step. */
    method Update(dt: real, virtualFlags: set<Direction>, pressed: set<int>)
      modifies this
      ensures var flags := ActiveFlags(virtualFlags, bindings, pressed);
        var t := Translation(flags);
        && (t == Zero ==> position == old(position))
        && (t != Zero ==>
              position == ClampToBoundary(Plus(old(position), Times(Times(trig.normalized(t), speed), dt)), boundary))
        && angle == old(angle) + (if CW in flags then rotationSpeed * dt else 0.0)
                               - (if CCW in flags then rotationSpeed * dt else 0.0)
    {
      var flags := CollectFlags(virtualFlags, bindings, pressed);
      var t := Translation(flags);
      if t != Zero {
        var step := Times(Times(trig.normalized(t), speed), dt);
        var p := Plus(position, step);
        var x := p.x;
        var y := p.y;
        if x < boundary.left as real {
          x := boundary.left as real;
        } else if x > boundary.Right() as real {
          x := boundary.Right() as real;
        }
        if y < boundary.top as real {
          y := boundary.top as real;
        } else if y > boundary.Bottom() as real {
          y := boundary.Bottom() as real;
        }
        position := Vec(x, y);
      }
      var a := angle;
      if CW in flags {
        a := a + rotationSpeed * dt;
      }
      if CCW in flags {
        a := a - rotationSpeed * dt;
      }
      angle := a;
    }

    function GetCurrentPosition(): Point
      reads this
    {
      TruncPoint(position)
    }

    /** The keyboard provider is never finished. */
    predicate IsFinished(): (done: bool)
      reads this
      ensures !done
    {
      false
    }
  }

  // ---------------------------------------------------------------------------
  // MouseTrajectoryProvider (engine.py:378-400)
  // ---------------------------------------------------------------------------

  /** One pointer coordinate brought back to the game's resolution: the
      nearest integer to the window coordinate divided by the scale factor. */
  function Unscale(v: int, scale: real): (r: int)
    requires scale != 0.0
    ensures r as real - 0.5 <= v as real / scale <= r as real + 0.5
    ensures scale == 1.0 ==> r == v
  {
    RoundOfInteger(v);
    RoundHalfEven(v as real / scale)
  }

  class MouseProvider {
    const scale: real
    var position: Point
    var angle: real

    constructor (scale: real, initialPosition: Point)
      ensures this.scale == scale && position == initialPosition && angle == 0.0
    {
      this.scale := scale;
      position := initialPosition;
      angle := 0.0;
    }

    /** `update(dt)`: the pointer position (in window pixels) is a parameter;
        `ok` is false for the ZeroDivisionError of a zero scale factor. */
    method Update(dt: real, pointer: Point) returns (ok: bool)
      modifies this`position
      ensures ok <==> scale != 0.0
      ensures ok ==> position == Point(Unscale(pointer.x, scale), Unscale(pointer.y, scale))
      ensures !ok ==> position == old(position)
    {
      if scale == 0.0 {
        return false;
      }
      position := Point(Unscale(pointer.x, scale), Unscale(pointer.y, scale));
      ok := true;
    }

    /** The mouse provider is never finished. */
    predicate IsFinished(): (done: bool)
      reads this
      ensures !done
    {
      false
    }
  }

  /** Opposite flags cancel: holding both keys of an axis does not move along it. */
  lemma OppositeFlagsCancel(flags: set<Direction>)
    ensures Up in flags && Down in flags ==> Translation(flags).y == 0.0
    ensures Left in flags && Right in flags ==> Translation(flags).x == 0.0
  {
  }
}

=== FILE: game_flow.dfy ===
/** The game director of game_flow.py: the wave parameters that
    `update_difficulty` derives from the difficulty, what each `create_*`
    call sends, the `_wait` timer, and `_game_script` with its bonus round
    as a state machine resumed once per frame. The random draws, the size
    of the enemy group, the player's position and whether the intro course
    is finished are supplied with each frame. */
module Director {
  import opened Prelude
  import opened Numerics
  import opened Geometry
  import opened Engine
  import opened Enemies

  // ---------------------------------------------------------------------------
  // GameState.update_difficulty (game_flow.py:19-181)
  // ---------------------------------------------------------------------------

  const RouteC: seq<Point> :=
    [Point(298, -10), Point(250, 50), Point(200, 100), Point(150, 150), Point(100, 200), Point(50, 250),
     Point(50, 250), Point(100, 200), Point(150, 150), Point(200, 100), Point(250, 50), Point(298, -10)]
  const RouteD: seq<Point> :=
    [Point(-10, 150), Point(50, 100), Point(100, 50), Point(150, 0), Point(200, 50), Point(250, 100),
     Point(250, 200), Point(200, 250), Point(150, 268), Point(100, 250), Point(50, 200), Point(-10, 150)]
  const RouteE: seq<Point> :=
    [Point(150, -10), Point(100, 50), Point(50, 100), Point(0, 150), Point(50, 200), Point(100, 250),
     Point(150, 268), Point(200, 250), Point(250, 200), Point(268, 150), Point(250, 100), Point(200, 50),
     Point(150, -10)]
  const RouteF: seq<Point> :=
    [Point(0, -10), Point(50, 50), Point(100, 100), Point(150, 150), Point(200, 200), Point(250, 250),
     Point(268, 268), Point(250, 250), Point(200, 200), Point(150, 150), Point(100, 100), Point(50, 50),
     Point(0, -10)]
  const RouteG: seq<Point> :=
    [Point(10, -10), Point(50, 50), Point(100, 100), Point(150, 150), Point(200, 200), Point(250, 250),
     Point(270, 270), Point(250, 250), Point(200, 200), Point(150, 150), Point(100, 100), Point(50, 50),
     Point(10, -10)]
  const RouteH: seq<Point> :=
    [Point(-10, 20), Point(60, 60), Point(110, 110), Point(160, 160), Point(210, 210), Point(260, 260),
     Point(280, 280), Point(260, 260), Point(210, 210), Point(160, 160), Point(110, 110), Point(60, 60),
     Point(-10, 20)]

  /** The six routes only the director uses. */
  function ExtraRoutes(): (routes: seq<seq<Point>>)
    ensures |routes| == 6
    ensures |routes[0]| == 12 && |routes[1]| == 12
    ensures |routes[2]| == 13 && |routes[3]| == 13 && |routes[4]| == 13 && |routes[5]| == 13
  {
    [RouteC, RouteD, RouteE, RouteF, RouteG, RouteH]
  }

  /** `available_ctrlpoints`: the spawner's four routes and six more. */
  function FlowRoutes(): (routes: seq<seq<Point>>)
    ensures |routes| == 10
    ensures routes[..4] == SpawnerRoutes() && routes[4..] == ExtraRoutes()
  {
    SpawnerRoutes() + ExtraRoutes()
  }

  /** Every route can be flown by a linear-segments provider. */
  lemma FlowRoutesLongEnough(i: nat)
    requires i < 10
    ensures |FlowRoutes()[i]| >= 2
  {
    var routes := FlowRoutes();
    if i < 4 {
      assert routes[i] == routes[..4][i];
    } else {
      assert routes[i] == routes[4..][i - 4];
    }
  }

  /** The wave parameters (`GameState`'s fields). */
  datatype WaveParams = WaveParams(
    difficulty: int, route: nat, insectSpeed: real, spawnTimer: real, shotSpeed: real,
    cannonTimer: real, double: real, squadronSize: int, insectSurf: nat)

  /** `min(max(value / 100, 0.0), 1.0)`. */
  function Factor(value: int): (f: real)
    ensures 0.0 <= f <= 1.0
    ensures value <= 0 ==> f == 0.0
    ensures value >= 100 ==> f == 1.0
    ensures 0 <= value <= 100 ==> f == value as real / 100.0
  {
    Clamp(value as real / 100.0, 0.0, 1.0)
  }

  lemma FactorMonotone(v: int, w: int)
    requires v <= w
    ensures Factor(v) <= Factor(w)
  {
  }

  /** `update_difficulty(value)`: the clamped factor interpolates the insect
      speed from 50 to 120, the shot speed from 80 to 160, the reload time
      from 2.0 down to 0.5 and the squadron size from 5 to 15 (rounded half
      to even); it is also the chance of a double squadron. The route and
      the insect picture are random choices. */
  function UpdateDifficulty(value: int, route: nat, surf: nat): (p: WaveParams)
    ensures p.difficulty == value && p.route == route && p.insectSurf == surf
    ensures 50.0 <= p.insectSpeed <= 120.0 && 80.0 <= p.shotSpeed <= 160.0
    ensures 0.5 <= p.cannonTimer <= 2.0 && 0.0 <= p.double <= 1.0
    ensures 5 <= p.squadronSize <= 15
    ensures p.spawnTimer == 20.0 / p.insectSpeed && p.spawnTimer > 0.0
    ensures value >= 100 ==>
      p.insectSpeed == 120.0 && p.shotSpeed == 160.0 && p.cannonTimer == 0.5 && p.double == 1.0 &&
      p.squadronSize == 15
    ensures value <= 0 ==>
      p.insectSpeed == 50.0 && p.shotSpeed == 80.0 && p.cannonTimer == 2.0 && p.double == 0.0 &&
      p.squadronSize == 5
  {
    var f := Factor(value);
    LerpBetween(50.0, 120.0, f);
    LerpBetween(80.0, 160.0, f);
    LerpBetween(2.0, 0.5, f);
    LerpBetween(5.0, 15.0, f);
    var speed := Lerp(50.0, 120.0, f);
    RoundOfInteger(5);
    RoundOfInteger(15);
    WaveParams(value, route, speed, 20.0 / speed, Lerp(80.0, 160.0, f), Lerp(2.0, 0.5, f), f,
               RoundHalfEven(Lerp(5.0, 15.0, f)), surf)
  }

  /** A higher difficulty never makes a wave easier: insects and shots are
      no slower, squadrons no smaller and no less often doubled, and reloads
      no longer. */
  lemma DifficultyMonotone(v: int, w: int, route: nat, surf: nat)
    requires v <= w
    ensures var p, q := UpdateDifficulty(v, route, surf), UpdateDifficulty(w, route, surf);
      p.insectSpeed <= q.insectSpeed && p.shotSpeed <= q.shotSpeed && q.cannonTimer <= p.cannonTimer &&
      p.double <= q.double && p.squadronSize <= q.squadronSize
  {
    var f, g := Factor(v), Factor(w);
    FactorMonotone(v, w);
    LerpMonotone(50.0, 120.0, f, g);
    LerpMonotone(80.0, 160.0, f, g);
    LerpMonotone(2.0, 0.5, f, g);
    LerpMonotone(5.0, 15.0, f, g);
    RoundHalfEvenMonotone(Lerp(5.0, 15.0, f), Lerp(5.0, 15.0, g));
  }

  // ---------------------------------------------------------------------------
  // create_insect_enemy, create_bonus_red_enemy, create_boss (game_flow.py:202-410)
  // ---------------------------------------------------------------------------

  /** The lateral shifts of one `create_insect_enemy` call: two insects side
      by side when the draw falls under the double-squadron chance, one on
      the route otherwise. */
  function InsectShifts(draw: real, double: real): (shifts: seq<int>)
    ensures |shifts| == 2 <==> draw < double
    ensures |shifts| == 1 <==> double <= draw
    ensures |shifts| == 2 ==> shifts == [-8, 8]
    ensures |shifts| == 1 ==> shifts == [0]
  {
    if draw < double then [-8, 8] else [0]
  }

  /** With the draw in [0, 1), the easiest setting never doubles and the
      hardest always does. */
  lemma SquadronSplitExtremes(draw: real)
    requires 0.0 <= draw < 1.0
    ensures |InsectShifts(draw, UpdateDifficulty(0, 0, 0).double)| == 1
    ensures |InsectShifts(draw, UpdateDifficulty(100, 0, 0).double)| == 2
  {
  }

  /** The insects one `create_insect_enemy` call sends: one linear-segments
      provider per shift, all with the same route, speed and settings. */
  datatype SquadronOrder = SquadronOrder(
    route: seq<Point>, speed: real, shifts: seq<int>, shotSpeed: real, cannonTimer: real, surf: nat)

  function Squadron(p: WaveParams, draw: real): (o: SquadronOrder)
    requires p.route < 10
    ensures o.route == FlowRoutes()[p.route] && |o.route| >= 2
    ensures o.shifts == InsectShifts(draw, p.double)
    ensures o.speed == p.insectSpeed && o.shotSpeed == p.shotSpeed && o.cannonTimer == p.cannonTimer
  {
    FlowRoutesLongEnough(p.route);
    SquadronOrder(FlowRoutes()[p.route], p.insectSpeed, InsectShifts(draw, p.double), p.shotSpeed,
                  p.cannonTimer, p.insectSurf)
  }

  /** `create_bonus_red_enemy` at the drawn x: straight down the screen at 160. */
  function BonusRed(screen: Rect, x: int): (o: RedOrder)
    ensures o.start.x == o.end.x == x as real && o.speed == 160.0
    ensures o.end.y - o.start.y == (screen.height + 2 * OffScreen) as real
  {
    RedOrder(Vec(x as real, (screen.top - OffScreen) as real),
             Vec(x as real, (screen.Bottom() + OffScreen) as real), 160.0)
  }

  /** A bonus red enemy's course always has a direction, so its provider builds. */
  lemma BonusRedBuilds(screen: Rect, x: int, trig: Trig)
    ensures var o := BonusRed(screen, x); PlanStraight(o.start, Some(o.end), None, trig).Success?
  {
  }

  /** `create_red_enemy`: the red enemy's course at speed 120, or `None`
      for the division by zero of a player on its entry height. */
  function WaveRed(screen: Rect, player: Option<Point>): (o: Option<RedOrder>)
    ensures o.Some? <==> RedEnemyEnd(screen, player).Some?
    ensures o.Some? ==> o.value == RedOrder(RedEnemyStart(screen), RedEnemyEnd(screen, player).value, 120.0)
  {
    var end := RedEnemyEnd(screen, player);
    if end.None? then None else Some(RedOrder(RedEnemyStart(screen), end.value, 120.0))
  }

  const BossSpeed: real := 20.0
  const BossTurn: real := 2.0

  /** `create_boss`: where the bosses start, one seeking provider each (angle
      0, speed 20, turn 2, aimed at the player). More difficulty, more bosses:
      one up to 20, two up to 40, three up to 60, four beyond. */
  function BossAnchors(difficulty: int): (anchors: seq<Point>)
    ensures difficulty <= 20 ==> |anchors| == 1
    ensures 20 < difficulty <= 40 ==> |anchors| == 2
    ensures 40 < difficulty <= 60 ==> |anchors| == 3
    ensures 60 < difficulty ==> |anchors| == 4
    ensures forall i, j :: 0 <= i < j < |anchors| ==> anchors[i] != anchors[j]
  {
    if difficulty <= 20 then [Point(144, 288)]
    else if difficulty <= 40 then [Point(-20, 144), Point(288, 144)]
    else if difficulty <= 60 then [Point(144, 288), Point(-20, 144), Point(288, 144)]
    else [Point(144, 288), Point(144, -20), Point(-20, 144), Point(288, 144)]
  }

  // ---------------------------------------------------------------------------
  // _wait (game_flow.py:412-416)
  // ---------------------------------------------------------------------------

  /** One resumption of `_wait`: subtract dt; the wait goes on (with the new
      timer) while the timer stays positive. A wait entered with a
      non-positive duration never suspends at all. */
  function WaitStep(timer: real, dt: real): (r: Option<real>)
    ensures r.Some? <==> timer - dt > 0.0
    ensures r.Some? ==> r.value == timer - dt
  {
    if timer - dt > 0.0 then Some(timer - dt) else None
  }

  /** Whether a suspended wait completes within the resumptions `dts`. */
  function WaitCompletes(timer: real, dts: seq<real>): bool
    decreases |dts|
  {
    if dts == [] then false
    else
      match WaitStep(timer, dts[0])
      case None => true
      case Some(t) => WaitCompletes(t, dts[1..])
  }

  /** A suspended wait completes exactly once the frame times it received
      add up to its duration (for non-negative frame times). */
  lemma {:induction false} WaitCompletesOnceEnoughTime(timer: real, dts: seq<real>)
    requires timer > 0.0
    requires forall i :: 0 <= i < |dts| ==> 0.0 <= dts[i]
    ensures WaitCompletes(timer, dts) <==> Sum(dts) >= timer
    decreases |dts|
  {
    if dts != [] {
      assert forall i :: 0 <= i < |dts[1..]| ==> 0.0 <= dts[1..][i] by {
        forall i | 0 <= i < |dts[1..]| ensures 0.0 <= dts[1..][i] {
          assert dts[1..][i] == dts[i + 1];
        }
      }
      match WaitStep(timer, dts[0])
      case None =>
        SumNonNegative(dts[1..]);
      case Some(t) =>
        WaitCompletesOnceEnoughTime(t, dts[1..]);
    }
  }

  /** A frame time of zero never brings a wait closer to its end. */
  lemma ZeroFrameTimeMakesNoProgress(timer: real)
    requires timer > 0.0
    ensures WaitStep(timer, 0.0) == Some(timer)
  {
  }

  // ---------------------------------------------------------------------------
  // _game_script, _bonus_round and update (game_flow.py:183-200, 418-478)
  // ---------------------------------------------------------------------------

  /** Where `_game_script` is suspended. The timers are those of the `_wait`
      in progress; `spawned` counts the insect or bonus spawns of the wave. */
  datatype Pc =
    | Intro                                        // while not is_finished(): yield
    | GoBanner(t: real)                            // "GO! GO! GO!", wait(1.0)
    | GoPause(t: real)                             // wait(0.5)
    | SquadronWait(wave: nat, spawned: nat, t: real) // wait(insect_spawn_timer)
    | WaveClear(wave: nat)                         // while enemy_group: yield
    | BonusBanner(t: real)                         // "Bonus round", wait(1.0)
    | BonusPause(t: real)                          // wait(0.5)
    | BonusSpawnWait(spawned: nat, t: real)        // wait(1.0) after a bonus enemy
    | BonusClear                                   // while enemy_group: yield
    | BonusDoneBanner(t: real)                     // "Bonus round completed", wait(1.0)
    | BonusDonePause(t: real)                      // wait(0.5)
    | BossFight                                    // while enemy_group: yield
    | Victory(t: real)                             // "You did it!", wait(5.0)
    | Finished                                     // the generator is exhausted (or closed)

  /** What one resumption asks the game to do. */
  datatype Event =
    | SpawnRed(red: RedOrder)
    | SpawnInsects(squadron: SquadronOrder)
    | SpawnBosses(anchors: seq<Point>)
    | KillPlayer

  /** Which provider flies the player ship. */
  datatype PlayerPath = Keyboard | IntroCourse(start: Vec, end: Vec, speed: real)

  /** What the game reports on each frame. */
  datatype Frame = Frame(
    dt: real, enemyCount: nat, introDone: bool, player: Option<Point>,
    splitDraw: real, bonusX: int, routeDraw: nat, surfDraw: nat)

  const Waves: nat := 10
  const BonusWave: nat := 5
  const BonusEnemies: nat := 10
  const DifficultyStep: int := 2
  const MaxDifficulty: int := 100

  /** The regular waves of the current round finished before wave w. */
  function DoneBefore(w: nat): nat {
    if w <= BonusWave then w else w - 1
  }

  /** Within a round: each finished regular wave added 2 to the difficulty,
      each of the `rounds` finished rounds 18, and the round was entered at a
      difficulty of at most 100. */
  ghost predicate InRound(rounds: nat, p: WaveParams, done: nat) {
    p.difficulty == 18 * rounds + DifficultyStep * done && 18 * rounds <= MaxDifficulty
  }

  /** After the last round: the loop condition failed for the first time. */
  ghost predicate Ended(rounds: nat, p: WaveParams) {
    rounds >= 1 && p.difficulty == 18 * rounds && p.difficulty > MaxDifficulty &&
    18 * (rounds - 1) <= MaxDifficulty
  }

  /** Parameters as `update_difficulty` leaves them, with a route drawn from the ten. */
  ghost predicate Settled(p: WaveParams) {
    p.route < 10 && p == UpdateDifficulty(p.difficulty, p.route, p.insectSurf)
  }

  /** The script's invariant: where it is suspended fixes how far the
      difficulty has come, and every suspended wait has time left. */
  ghost predicate Script(pc: Pc, rounds: nat, p: WaveParams) {
    match pc
    case Intro => rounds == 0 && p.difficulty == 0
    case GoBanner(t) => rounds == 0 && p.difficulty == 0 && t > 0.0
    case GoPause(t) => rounds == 0 && p.difficulty == 0 && t > 0.0
    case SquadronWait(w, k, t) =>
      w < Waves && w != BonusWave && 1 <= k <= p.squadronSize && t > 0.0 && InRound(rounds, p, DoneBefore(w))
    case WaveClear(w) => w < Waves && w != BonusWave && InRound(rounds, p, DoneBefore(w))
    case BonusBanner(t) => t > 0.0 && InRound(rounds, p, BonusWave)
    case BonusPause(t) => t > 0.0 && InRound(rounds, p, BonusWave)
    case BonusSpawnWait(k, t) => 1 <= k <= BonusEnemies && t > 0.0 && InRound(rounds, p, BonusWave)
    case BonusClear => InRound(rounds, p, BonusWave)
    case BonusDoneBanner(t) => t > 0.0 && InRound(rounds, p, BonusWave)
    case BonusDonePause(t) => t > 0.0 && InRound(rounds, p, BonusWave)
    case BossFight => InRound(rounds, p, Waves - 1)
    case Victory(t) => t > 0.0 && Ended(rounds, p)
    case Finished => true
  }

  /** Whether the script is suspended in a `_wait` (its `t` is the time left). */
  predicate Waiting(pc: Pc) {
    pc.GoBanner? || pc.GoPause? || pc.SquadronWait? || pc.BonusBanner? || pc.BonusPause? ||
    pc.BonusSpawnWait? || pc.BonusDoneBanner? || pc.BonusDonePause? || pc.Victory?
  }

  /** The part of `_bonus_round` before its last enemy is gone. */
  predicate InBonusSpawns(pc: Pc) {
    (pc.BonusBanner? || pc.BonusPause? || pc.BonusSpawnWait? || pc.BonusClear?) &&
    (pc.BonusSpawnWait? ==> pc.spawned <= BonusEnemies)
  }

  /** The bonus reds sent so far in the current bonus round, by where the script is. */
  function BonusSent(pc: Pc): nat {
    match pc
    case BonusSpawnWait(k, _) => k
    case BonusClear => BonusEnemies
    case BonusDoneBanner(_) => BonusEnemies
    case _ => 0
  }

  /** One resumption of `_bonus_round` before its enemies are gone: where the
      script stops next and how many bonus reds it sends on the way. The
      `for _ in range(10)` loop sends one red before each 1.0 s wait. */
  function BonusStep(pc: Pc, dt: real, enemyCount: nat): (r: (Pc, nat))
    requires InBonusSpawns(pc)
    ensures r.1 <= 1
    ensures BonusSent(r.0) == BonusSent(pc) + r.1
    ensures InBonusSpawns(r.0) || r.0 == BonusDoneBanner(1.0)
  {
    match pc
    case BonusBanner(t) =>
      (match WaitStep(t, dt) case Some(t') => BonusBanner(t') case None => BonusPause(0.5), 0)
    case BonusPause(t) =>
      (match WaitStep(t, dt) case Some(t') => (BonusPause(t'), 0) case None => (BonusSpawnWait(1, 1.0), 1))
    case BonusSpawnWait(k, t) =>
      (match WaitStep(t, dt)
       case Some(t') => (BonusSpawnWait(k, t'), 0)
       case None =>
         if k < BonusEnemies then (BonusSpawnWait(k + 1, 1.0), 1)
         else if enemyCount > 0 then (BonusClear, 0)
         else (BonusDoneBanner(1.0), 0))
    case BonusClear =>
      (if enemyCount > 0 then BonusClear else BonusDoneBanner(1.0), 0)
  }

  /** The bonus round's spawning over a sequence of frames, up to the frame
      that leaves it: where the script stops and the bonus reds sent. */
  function BonusRun(pc: Pc, frames: seq<Frame>): (Pc, nat)
    requires InBonusSpawns(pc) || pc == BonusDoneBanner(1.0)
    decreases |frames|
  {
    if frames == [] || !InBonusSpawns(pc) then (pc, 0)
    else
      var (next, reds) := BonusStep(pc, frames[0].dt, frames[0].enemyCount);
      var (end, more) := BonusRun(next, frames[1..]);
      (end, reds + more)
  }

  /** Every frame of the spawning adds to the count exactly the reds it sends. */
  lemma {:induction false} BonusRunCounts(pc: Pc, frames: seq<Frame>)
    requires InBonusSpawns(pc) || pc == BonusDoneBanner(1.0)
    ensures var (end, reds) := BonusRun(pc, frames);
      BonusSent(end) == BonusSent(pc) + reds && (InBonusSpawns(end) || end == BonusDoneBanner(1.0))
    decreases |frames|
  {
    if frames != [] && InBonusSpawns(pc) {
      var (next, reds) := BonusStep(pc, frames[0].dt, frames[0].enemyCount);
      BonusRunCounts(next, frames[1..]);
    }
  }

  /** A bonus round sends exactly ten reds: never more while it runs, and
      all ten by the time it reaches "Bonus round completed". */
  lemma BonusRoundSendsExactlyTen(frames: seq<Frame>)
    ensures var (end, reds) := BonusRun(BonusBanner(1.0), frames);
      reds <= BonusEnemies && (end == BonusDoneBanner(1.0) ==> reds == BonusEnemies)
  {
    BonusRunCounts(BonusBanner(1.0), frames);
  }

  /** The campaign lasts exactly six rounds: it is won at difficulty 108. */
  lemma VictoryAfterSixRounds(t: real, rounds: nat, p: WaveParams)
    requires Script(Victory(t), rounds, p)
    ensures rounds == 6 && p.difficulty == 108
  {
  }

  /** The bosses of the six rounds: one, two, three, then four each time. */
  lemma BossesPerRound(rounds: nat, p: WaveParams)
    requires Script(BossFight, rounds, p)
    ensures rounds <= 5
    ensures |BossAnchors(p.difficulty)| == if rounds < 3 then rounds + 1 else 4
  {
  }

  /** The intro course: from below the screen, straight up to where the
      keyboard provider holds the ship, at speed 80. */
  function IntroPath(screen: Rect, ship: Vec): (path: PlayerPath)
    ensures path.IntroCourse? && path.start.x == path.end.x == ship.x && path.end == ship
    ensures path.start.y == (screen.height + OffScreen) as real
  {
    IntroCourse(Vec(ship.x, (screen.height + OffScreen) as real), ship, 80.0)
  }

  /** The ship is kept on the screen, so the intro course has a direction. */
  lemma IntroPathBuilds(screen: Rect, ship: Vec, trig: Trig)
    requires ship.y <= screen.height as real
    ensures var path := IntroPath(screen, ship); PlanStraight(path.start, Some(path.end), None, trig).Success?
  {
  }

  class GameFlow {
    const screen: Rect
    var pc: Pc
    var params: WaveParams
    var messages: seq<string>
    var playerPath: PlayerPath
    /** Rounds completed (each ten waves and a boss). */
    ghost var rounds: nat
    /** The generator was closed by an exception rather than by finishing. */
    ghost var crashed: bool

    ghost predicate Valid()
      reads this
    {
      Settled(params) &&
      Script(pc, rounds, params) &&
      (pc == Finished && !crashed ==> Ended(rounds, params))
    }

    /** `GameFlow(game)`: the first `next` creates the state at difficulty 0,
        greets the player and flies the ship in from below the screen; a fresh
        course has covered no distance, so the script stops in the intro loop. */
    constructor (screen: Rect, ship: Vec, routeDraw: nat, surfDraw: nat)
      requires routeDraw < 10
      ensures Valid() && this.screen == screen && pc == Intro
      ensures params == UpdateDifficulty(0, routeDraw, surfDraw)
      ensures messages == ["Get ready!", "", ""] && playerPath == IntroPath(screen, ship)
    {
      this.screen := screen;
      params := UpdateDifficulty(0, routeDraw, surfDraw);
      messages := ["Get ready!", "", ""];
      playerPath := IntroPath(screen, ship);
      pc := Intro;
      rounds := 0;
      crashed := false;
    }

    /** The state in which helper steps leave a resumption. */
    twostate predicate Progressed(events: seq<Event>, ok: bool)
      reads this
    {
      Valid() && KillPlayer !in events && |events| <= 2 && playerPath == old(playerPath) &&
      (ok <==> pc != Finished) && (!ok ==> crashed && events == []) &&
      rounds >= old(rounds) && params.difficulty >= old(params.difficulty)
    }

    /** A `_wait` that goes on: the timer drops by dt and nothing else happens. */
    twostate predicate Ticked(f: Frame, events: seq<Event>, ok: bool)
      reads this
    {
      Waiting(old(pc)) && pc == old(pc).(t := old(pc).t - f.dt) && events == [] && ok &&
      messages == old(messages) && params == old(params) && rounds == old(rounds)
    }

    /** The start of wave w: the bonus round's banner at index 5; otherwise
        the red enemy and the first insects, then the first spawn wait, or
        the crash when the red enemy's course divides by zero. */
    twostate predicate WaveOpened(w: nat, f: Frame, events: seq<Event>, ok: bool)
      reads this
    {
      if w == BonusWave then
        pc == BonusBanner(1.0) && messages == ["Bonus round"] && events == [] && ok
      else
        && messages == old(messages)
        && (ok <==> WaveRed(screen, f.player).Some?)
        && (ok ==> params.route < 10 && pc == SquadronWait(w, 1, params.spawnTimer) &&
                   events == [SpawnRed(WaveRed(screen, f.player).value), SpawnInsects(Squadron(params, f.splitDraw))])
        && (!ok ==> pc == Finished && crashed && events == [])
    }

    /** The top of the round loop: wave 0 of another round, or the victory
        message and its 5.0 s wait once the difficulty is past 100. */
    twostate predicate RoundStarted(f: Frame, events: seq<Event>, ok: bool)
      reads this
    {
      && (params.difficulty > MaxDifficulty ==>
            pc == Victory(5.0) && ok && events == [] &&
            messages == ["You did it!", "You defeated the enemy!", "Congratulations!!!"])
      && (params.difficulty <= MaxDifficulty ==> WaveOpened(0, f, events, ok))
    }

    /** The end of regular wave w: two difficulty points, then the next wave,
        or the bosses after the last one. */
    twostate predicate WaveEnded(w: nat, f: Frame, events: seq<Event>, ok: bool)
      reads this
    {
      && params == UpdateDifficulty(old(params.difficulty) + DifficultyStep, f.routeDraw, f.surfDraw)
      && rounds == old(rounds)
      && (w + 1 == Waves ==>
            ok && pc == BossFight && events == [SpawnBosses(BossAnchors(params.difficulty))] &&
            messages == old(messages))
      && (w + 1 < Waves ==> WaveOpened(w + 1, f, events, ok))
    }

    /** One resumption in the opening banner or pause. */
    twostate predicate OpeningResumed(f: Frame, events: seq<Event>, ok: bool)
      reads this
    {
      match old(pc)
      case GoBanner(t) =>
        if WaitStep(t, f.dt).Some? then Ticked(f, events, ok)
        else pc == GoPause(0.5) && messages == [] && events == [] && ok &&
             params == old(params) && rounds == old(rounds)
      case GoPause(t) =>
        if WaitStep(t, f.dt).Some? then Ticked(f, events, ok)
        else params == old(params) && rounds == old(rounds) && RoundStarted(f, events, ok)
      case _ => false
    }

    /** One resumption during a regular wave or the boss fight. */
    twostate predicate WaveResumed(f: Frame, events: seq<Event>, ok: bool)
      reads this
    {
      match old(pc)
      case SquadronWait(w, k, t) =>
        if WaitStep(t, f.dt).Some? then Ticked(f, events, ok)
        else if k < old(params.squadronSize) then
          ok && pc == SquadronWait(w, k + 1, params.spawnTimer) && params == old(params) && rounds == old(rounds) &&
          params.route < 10 && events == [SpawnInsects(Squadron(params, f.splitDraw))] &&
          messages == old(messages)
        else if f.enemyCount > 0 then
          ok && pc == WaveClear(w) && events == [] && params == old(params) && messages == old(messages) &&
          rounds == old(rounds)
        else WaveEnded(w, f, events, ok)
      case WaveClear(w) =>
        if f.enemyCount > 0 then
          ok && pc == old(pc) && events == [] && params == old(params) && messages == old(messages) &&
          rounds == old(rounds)
        else WaveEnded(w, f, events, ok)
      case BossFight =>
        if f.enemyCount > 0 then
          ok && pc == old(pc) && events == [] && rounds == old(rounds) && params == old(params) &&
          messages == old(messages)
        else rounds == old(rounds) + 1 && params == old(params) && RoundStarted(f, events, ok)
      case _ => false
    }

    /** One resumption of the bonus round before its enemies are gone: the
        script moves as `BonusStep` says and every event is a bonus red. */
    twostate predicate BonusResumed(f: Frame, events: seq<Event>)
      reads this
    {
      && InBonusSpawns(old(pc))
      && (pc, |events|) == BonusStep(old(pc), f.dt, f.enemyCount)
      && (forall e | e in events :: e == SpawnRed(BonusRed(screen, f.bonusX)))
      && params == old(params) && rounds == old(rounds)
      && messages == (if pc == BonusDoneBanner(1.0) then ["Bonus round completed"]
                      else if old(pc).BonusBanner? && pc.BonusPause? then []
                      else old(messages))
    }

    /** One resumption after the bonus round's enemies are gone. */
    twostate predicate BonusEndResumed(f: Frame, events: seq<Event>, ok: bool)
      reads this
    {
      match old(pc)
      case BonusDoneBanner(t) =>
        if WaitStep(t, f.dt).Some? then Ticked(f, events, ok)
        else pc == BonusDonePause(0.5) && messages == [] && events == [] && ok &&
             params == old(params) && rounds == old(rounds)
      case BonusDonePause(t) =>
        if WaitStep(t, f.dt).Some? then Ticked(f, events, ok)
        else params == old(params) && rounds == old(rounds) && WaveOpened(BonusWave + 1, f, events, ok)
      case _ => false
    }

    /** The top of the `while state.difficulty <= 100` loop: another round,
        or the victory message and the final wait. */
    method StartRound(f: Frame) returns (events: seq<Event>, ok: bool)
      requires f.routeDraw < 10
      requires Settled(params)
      requires params.difficulty == 18 * rounds && (rounds == 0 || 18 * (rounds - 1) <= MaxDifficulty)
      modifies this
      ensures Progressed(events, ok)
      ensures params == old(params) && rounds == old(rounds)
      ensures RoundStarted(f, events, ok)
    {
      if params.difficulty <= MaxDifficulty {
        events, ok := StartWave(f, 0);
      } else {
        messages := ["You did it!", "You defeated the enemy!", "Congratulations!!!"];
        pc := Victory(5.0);
        events, ok := [], true;
      }
    }

    /** The body of `for wave in range(10)`: the bonus round at index 5,
        otherwise the red enemy and the first insects of the squadron. */
    method StartWave(f: Frame, w: nat) returns (events: seq<Event>, ok: bool)
      requires w < Waves
      requires Settled(params)
      requires InRound(rounds, params, DoneBefore(w))
      modifies this`messages, this`pc, this`crashed
      ensures Progressed(events, ok)
      ensures WaveOpened(w, f, events, ok)
    {
      if w == BonusWave {
        OpenBonus();
        events, ok := [], true;
      } else {
        events, ok := StartRegularWave(f, w);
      }
    }

    /** `create_red_enemy`, then the first `create_insect_enemy` call. */
    method StartRegularWave(f: Frame, w: nat) returns (events: seq<Event>, ok: bool)
      requires w < Waves && w != BonusWave
      requires Settled(params)
      requires InRound(rounds, params, DoneBefore(w))
      modifies this`pc, this`crashed
      ensures Valid() && (ok <==> pc != Finished) && (!ok ==> crashed && events == [])
      ensures ok <==> WaveRed(screen, f.player).Some?
      ensures ok ==>
        pc == SquadronWait(w, 1, params.spawnTimer) &&
        events == [SpawnRed(WaveRed(screen, f.player).value), SpawnInsects(Squadron(params, f.splitDraw))]
    {
      var red := WaveRed(screen, f.player);
      if red.None? {
        Crash();
        return [], false;
      }
      var first := SpawnNext(f, w, 0);
      events, ok := [SpawnRed(red.value)] + first, true;
    }

    /** The bonus round's banner and its wait. */
    method OpenBonus()
      requires Settled(params) && InRound(rounds, params, BonusWave)
      modifies this`messages, this`pc
      ensures Valid() && pc == BonusBanner(1.0) && messages == ["Bonus round"]
    {
      messages := ["Bonus round"];
      pc := BonusBanner(1.0);
    }

    /** An exception out of the script: the generator is closed. */
    method Crash()
      modifies this`pc, this`crashed
      ensures pc == Finished && crashed
      ensures Valid() <==> old(Settled(params))
    {
      pc := Finished;
      crashed := true;
    }

    /** One `create_insect_enemy` call and the wait for the next one. */
    method SpawnNext(f: Frame, w: nat, spawned: nat) returns (events: seq<Event>)
      requires w < Waves && w != BonusWave && spawned < params.squadronSize
      requires Settled(params)
      requires InRound(rounds, params, DoneBefore(w))
      modifies this`pc
      ensures Valid() && pc == SquadronWait(w, spawned + 1, params.spawnTimer)
      ensures events == [SpawnInsects(Squadron(params, f.splitDraw))]
    {
      events := [SpawnInsects(Squadron(params, f.splitDraw))];
      pc := SquadronWait(w, spawned + 1, params.spawnTimer);
    }

    /** `while state.enemy_group: yield` at the end of a regular wave. */
    method AwaitClear(w: nat)
      requires w < Waves && w != BonusWave && Settled(params) && InRound(rounds, params, DoneBefore(w))
      modifies this`pc
      ensures Valid() && pc == WaveClear(w)
    {
      pc := WaveClear(w);
    }

    /** The squadron loop after `spawned` insect calls: another call and its
        wait, or the wait for an empty enemy group. */
    method NextInsects(f: Frame, w: nat, spawned: nat) returns (events: seq<Event>, ok: bool)
      requires f.routeDraw < 10 && w < Waves && w != BonusWave
      requires Settled(params)
      requires InRound(rounds, params, DoneBefore(w)) && spawned <= params.squadronSize
      modifies this
      ensures Progressed(events, ok)
      ensures spawned < old(params.squadronSize) ==>
        ok && pc == SquadronWait(w, spawned + 1, params.spawnTimer) && params == old(params) &&
        events == [SpawnInsects(Squadron(params, f.splitDraw))] && messages == old(messages)
      ensures spawned == old(params.squadronSize) && f.enemyCount > 0 ==>
        ok && pc == WaveClear(w) && events == [] && params == old(params) && messages == old(messages)
      ensures spawned == old(params.squadronSize) && f.enemyCount == 0 ==> WaveEnded(w, f, events, ok)
    {
      if spawned < params.squadronSize {
        events := SpawnNext(f, w, spawned);
        ok := true;
      } else if f.enemyCount > 0 {
        AwaitClear(w);
        events, ok := [], true;
      } else {
        events, ok := EndWave(f, w);
      }
    }

    /** A regular wave is over: two more difficulty points (with new random
        choices), then the next wave, or the boss after the last one. */
    method EndWave(f: Frame, w: nat) returns (events: seq<Event>, ok: bool)
      requires f.routeDraw < 10 && w < Waves && w != BonusWave
      requires InRound(rounds, params, DoneBefore(w))
      modifies this
      ensures Progressed(events, ok)
      ensures WaveEnded(w, f, events, ok)
    {
      params := UpdateDifficulty(params.difficulty + DifficultyStep, f.routeDraw, f.surfDraw);
      if w + 1 < Waves {
        events, ok := StartWave(f, w + 1);
      } else {
        events := [SpawnBosses(BossAnchors(params.difficulty))];
        pc := BossFight;
        ok := true;
      }
    }

    /** The end of the bonus round's enemies: the completion message and its wait. */
    method BonusCompleted()
      requires Settled(params)
      requires InRound(rounds, params, BonusWave)
      modifies this`messages, this`pc
      ensures Valid() && pc == BonusDoneBanner(1.0) && messages == ["Bonus round completed"]
    {
      messages := ["Bonus round completed"];
      pc := BonusDoneBanner(1.0);
    }

    /** A frame during the opening banner and pause. */
    method ResumeOpening(f: Frame) returns (events: seq<Event>, ok: bool)
      requires Valid() && f.routeDraw < 10 && (pc.GoBanner? || pc.GoPause?)
      modifies this
      ensures Progressed(events, ok)
      ensures OpeningResumed(f, events, ok)
    {
      events, ok := [], true;
      match pc {
        case GoBanner(t) =>
          match WaitStep(t, f.dt) {
            case Some(t') => pc := GoBanner(t');
            case None =>
              messages := [];
              pc := GoPause(0.5);
          }
        case GoPause(t) =>
          match WaitStep(t, f.dt) {
            case Some(t') => pc := GoPause(t');
            case None => events, ok := StartRound(f);
          }
      }
    }

    /** A frame during the wait after a squadron's insects. */
    method ResumeSquadron(f: Frame) returns (events: seq<Event>, ok: bool)
      requires Valid() && f.routeDraw < 10 && pc.SquadronWait?
      modifies this
      ensures Progressed(events, ok)
      ensures WaveResumed(f, events, ok)
    {
      var w, k := pc.wave, pc.spawned;
      match WaitStep(pc.t, f.dt) {
        case Some(t') =>
          pc := SquadronWait(w, k, t');
          events, ok := [], true;
        case None =>
          events, ok := NextInsects(f, w, k);
      }
    }

    /** A frame during a regular wave or the boss fight. */
    method ResumeWave(f: Frame) returns (events: seq<Event>, ok: bool)
      requires Valid() && f.routeDraw < 10 && (pc.SquadronWait? || pc.WaveClear? || pc.BossFight?)
      modifies this
      ensures Progressed(events, ok)
      ensures WaveResumed(f, events, ok)
    {
      events, ok := [], true;
      match pc {
        case SquadronWait(w, k, t) =>
          events, ok := ResumeSquadron(f);
        case WaveClear(w) =>
          if f.enemyCount == 0 {
            events, ok := EndWave(f, w);
          }
        case BossFight =>
          if f.enemyCount == 0 {
            rounds := rounds + 1;
            events, ok := StartRound(f);
          }
      }
    }

    /** A frame during the bonus round before its last enemy is gone. */
    method ResumeBonusSpawns(f: Frame) returns (events: seq<Event>)
      requires Valid() && (pc.BonusBanner? || pc.BonusPause? || pc.BonusSpawnWait? || pc.BonusClear?)
      modifies this`messages, this`pc
      ensures Valid() && pc != Finished
      ensures BonusResumed(f, events)
    {
      events := [];
      match pc {
        case BonusBanner(t) =>
          match WaitStep(t, f.dt) {
            case Some(t') => pc := BonusBanner(t');
            case None =>
              messages := [];
              pc := BonusPause(0.5);
          }
        case BonusPause(t) =>
          match WaitStep(t, f.dt) {
            case Some(t') => pc := BonusPause(t');
            case None =>
              events := [SpawnRed(BonusRed(screen, f.bonusX))];
              pc := BonusSpawnWait(1, 1.0);
          }
        case BonusSpawnWait(k, t) =>
          match WaitStep(t, f.dt) {
            case Some(t') => pc := BonusSpawnWait(k, t');
            case None =>
              if k < BonusEnemies {
                events := [SpawnRed(BonusRed(screen, f.bonusX))];
                pc := BonusSpawnWait(k + 1, 1.0);
              } else if f.enemyCount > 0 {
                pc := BonusClear;
              } else {
                BonusCompleted();
              }
          }
        case BonusClear =>
          if f.enemyCount == 0 {
            BonusCompleted();
          }
      }
    }

    /** A frame after the bonus round's enemies are gone. */
    method ResumeBonusEnd(f: Frame) returns (events: seq<Event>, ok: bool)
      requires Valid() && f.routeDraw < 10 && (pc.BonusDoneBanner? || pc.BonusDonePause?)
      modifies this
      ensures Progressed(events, ok)
      ensures BonusEndResumed(f, events, ok)
    {
      events, ok := [], true;
      match pc {
        case BonusDoneBanner(t) =>
          match WaitStep(t, f.dt) {
            case Some(t') => pc := BonusDoneBanner(t');
            case None =>
              messages := [];
              pc := BonusDonePause(0.5);
          }
        case BonusDonePause(t) =>
          match WaitStep(t, f.dt) {
            case Some(t') => pc := BonusDonePause(t');
            case None => events, ok := StartWave(f, BonusWave + 1);
          }
      }
    }

    /** `update(dt)`: one `send(dt)` to the script. An exhausted script
        raises StopIteration, which kills the player (on every later frame
        too); an exception from the script (`ok` false) closes it. */
    method Update(f: Frame) returns (events: seq<Event>, ok: bool)
      requires Valid() && f.routeDraw < 10
      modifies this
      ensures Valid()
      ensures old(pc) == Finished ==>
        events == [KillPlayer] && ok && pc == Finished &&
        messages == old(messages) && params == old(params) && rounds == old(rounds)
      ensures ok ==> (KillPlayer in events <==> pc == Finished)
      ensures !ok ==> pc == Finished && crashed && events == []
      ensures |events| <= 2
      ensures rounds >= old(rounds) && params.difficulty >= old(params.difficulty)
      ensures old(pc) == Intro && !f.introDone ==>
        pc == Intro && events == [] && messages == old(messages) && playerPath == old(playerPath)
      ensures old(pc) == Intro && f.introDone ==>
        pc == GoBanner(1.0) && playerPath == Keyboard && messages == ["GO! GO! GO!", "", ""]
      ensures old(pc) == Intro ==> params == old(params) && rounds == old(rounds)
      ensures old(pc) != Intro ==> playerPath == old(playerPath)
      ensures old(pc).Victory? && WaitStep(old(pc).t, f.dt).Some? ==> Ticked(f, events, ok)
      ensures old(pc).Victory? && WaitStep(old(pc).t, f.dt).None? ==>
        pc == Finished && messages == [] && events == [KillPlayer] && ok &&
        params == old(params) && rounds == old(rounds)
      ensures old(pc).GoBanner? || old(pc).GoPause? ==> OpeningResumed(f, events, ok)
      ensures old(pc).SquadronWait? || old(pc).WaveClear? || old(pc).BossFight? ==> WaveResumed(f, events, ok)
      ensures InBonusSpawns(old(pc)) ==> BonusResumed(f, events) && ok
      ensures old(pc).BonusDoneBanner? || old(pc).BonusDonePause? ==> BonusEndResumed(f, events, ok)
    {
      events, ok := [], true;
      if pc == Finished {
        events := [KillPlayer];
      } else if pc == Intro {
        if f.introDone {
          playerPath := Keyboard;
          messages := ["GO! GO! GO!", "", ""];
          pc := GoBanner(1.0);
        }
      } else if pc.Victory? {
        events := ResumeVictory(f);
      } else {
        events, ok := Resume(f);
      }
    }

    /** A frame during the victory message's wait; when it ends the script
        is exhausted, which kills the player. */
    method ResumeVictory(f: Frame) returns (events: seq<Event>)
      requires Valid() && pc.Victory?
      modifies this`messages, this`pc
      ensures Valid()
      ensures WaitStep(old(pc).t, f.dt).Some? ==> Ticked(f, events, true)
      ensures WaitStep(old(pc).t, f.dt).None? ==> pc == Finished && messages == [] && events == [KillPlayer]
    {
      events := [];
      match WaitStep(pc.t, f.dt) {
        case Some(t') => pc := Victory(t');
        case None =>
          messages := [];
          pc := Finished;
          events := [KillPlayer];
      }
    }

    /** A resumption inside the rounds: dispatch on where the script waits. */
    method Resume(f: Frame) returns (events: seq<Event>, ok: bool)
      requires Valid() && f.routeDraw < 10 && pc != Finished && pc != Intro && !pc.Victory?
      modifies this
      ensures Valid()
      ensures ok ==> KillPlayer !in events && pc != Finished
      ensures !ok ==> pc == Finished && crashed && events == []
      ensures |events| <= 2 && playerPath == old(playerPath)
      ensures rounds >= old(rounds) && params.difficulty >= old(params.difficulty)
      ensures old(pc).GoBanner? || old(pc).GoPause? ==> OpeningResumed(f, events, ok)
      ensures old(pc).SquadronWait? || old(pc).WaveClear? || old(pc).BossFight? ==> WaveResumed(f, events, ok)
      ensures InBonusSpawns(old(pc)) ==> BonusResumed(f, events) && ok
      ensures old(pc).BonusDoneBanner? || old(pc).BonusDonePause? ==> BonusEndResumed(f, events, ok)
    {
      if pc.GoBanner? || pc.GoPause? {
        events, ok := ResumeOpening(f);
      } else if pc.SquadronWait? || pc.WaveClear? || pc.BossFight? {
        events, ok := ResumeWave(f);
      } else if pc.BonusDoneBanner? || pc.BonusDonePause? {
        events, ok := ResumeBonusEnd(f);
      } else {
        events := ResumeBonusSpawns(f);
        ok := true;
      }
    }
  }
}

=== FILE: geometry.dfy ===
/** Plane geometry as the game uses it: real vectors (pygame's `Vector2`),
    integer points (rectangle centres and pixel coordinates), rectangles,
    and the trigonometric primitives of `Vector2`, which are kept abstract. */
module Geometry {
  import opened Numerics

  datatype Vec = Vec(x: real, y: real)

  const Zero := Vec(0.0, 0.0)

  function Plus(a: Vec, b: Vec): Vec { Vec(a.x + b.x, a.y + b.y) }

  function Minus(a: Vec, b: Vec): Vec { Vec(a.x - b.x, a.y - b.y) }

  function Times(a: Vec, k: real): Vec { Vec(a.x * k, a.y * k) }

  /** An integer coordinate pair, such as `rect.center` or a control point. */
  datatype Point = Point(x: int, y: int)

  function ToVec(p: Point): Vec { Vec(p.x as real, p.y as real) }

  /** `(int(v.x), int(v.y))`: each coordinate moves toward zero by less than
      one and keeps its sign. */
  function TruncPoint(v: Vec): (p: Point)
    ensures 0.0 <= v.x ==> 0 <= p.x && p.x as real <= v.x < p.x as real + 1.0
    ensures v.x < 0.0 ==> p.x <= 0 && p.x as real - 1.0 < v.x <= p.x as real
    ensures 0.0 <= v.y ==> 0 <= p.y && p.y as real <= v.y < p.y as real + 1.0
    ensures v.y < 0.0 ==> p.y <= 0 && p.y as real - 1.0 < v.y <= p.y as real
  {
    Point(Trunc(v.x), Trunc(v.y))
  }

  /** A point with whole coordinates is left where it is. */
  lemma TruncPointOfPoint(q: Point)
    ensures TruncPoint(ToVec(q)) == q
  {
    TruncOfInteger(q.x);
    TruncOfInteger(q.y);
  }

  /** A `pygame.Rect` with a non-negative size. */
  datatype Rect = Rect(left: int, top: int, width: nat, height: nat)
  {
    function Right(): int { left + width }
    function Bottom(): int { top + height }
    /** pygame computes `x + w / 2` in C, which for a non-negative width is floor division. */
    function CenterX(): int { left + width / 2 }
  }

  /** The trigonometric primitives of `pygame.Vector2`, left uninterpreted:
      - `heading(v)` is `-v.angle_to(Vector2(1, 0))`, the direction of v in degrees;
      - `unitAt(a)` is `Vector2(1, 0).rotate(a)`;
      - `length(v)` is `v.length()` (so `a.distance_to(b)` is `length(a - b)`);
      - `normalized(v)` is v after `normalize_ip()` (defined only for non-zero v). */
  datatype Trig = Trig(
    heading: Vec -> real,
    unitAt: real -> Vec,
    length: Vec -> real,
    normalized: Vec -> Vec)
  {
    /** The one fact about lengths the model relies on. */
    ghost predicate Sane() {
      forall v :: length(v) >= 0.0
    }
  }
}

=== FILE: numerics.dfy ===
/** The numeric built-ins the game relies on, written out over `real` and `int`:
    `int()` truncates toward zero, `round()` rounds half to even, and
    `pygame.math.lerp` interpolates linearly. */
module Numerics {

  function Min(a: real, b: real): real { if a <= b then a else b }

  function Max(a: real, b: real): real { if a >= b then a else b }

  function MinInt(a: int, b: int): int { if a <= b then a else b }

  /** Python's `int(x)` on a float: truncation toward zero. */
  function Trunc(x: real): (n: int)
    ensures 0.0 <= x ==> 0 <= n && n as real <= x < n as real + 1.0
    ensures x < 0.0 ==> n <= 0 && n as real - 1.0 < x <= n as real
  {
    if x >= 0.0 then x.Floor else -((-x).Floor)
  }

  lemma TruncOfInteger(k: int)
    ensures Trunc(k as real) == k
  {
    if k < 0 {
      assert (-(k as real)).Floor == -k;
    }
  }

  /** Python's `round(x)` on a float: the nearest integer, ties to the even one. */
  function RoundHalfEven(x: real): (n: int)
    ensures n as real - 0.5 <= x <= n as real + 0.5
    ensures x == n as real - 0.5 || x == n as real + 0.5 ==> n % 2 == 0
  {
    var f := x.Floor;
    var frac := x - f as real;
    if frac < 0.5 then f
    else if frac > 0.5 then f + 1
    else if f % 2 == 0 then f
    else f + 1
  }

  lemma RoundHalfEvenMonotone(x: real, y: real)
    requires x <= y
    ensures RoundHalfEven(x) <= RoundHalfEven(y)
  {
  }

  lemma RoundOfInteger(k: int)
    ensures RoundHalfEven(k as real) == k
  {
  }

  /** A product of two non-negative reals is non-negative. */
  lemma ProductNonNegative(u: real, v: real)
    requires 0.0 <= u && 0.0 <= v
    ensures 0.0 <= u * v
  {
  }

  /** `pygame.math.lerp(a, b, t)`: the value a fraction t of the way from a to b. */
  function Lerp(a: real, b: real, t: real): real
  {
    a + (b - a) * t
  }

  /** Interpolation stays between its end points for a fraction in [0, 1]. */
  lemma LerpBetween(a: real, b: real, t: real)
    requires 0.0 <= t <= 1.0
    ensures a <= b ==> a <= Lerp(a, b, t) <= b
    ensures b <= a ==> b <= Lerp(a, b, t) <= a
  {
    var d := b - a;
    ScaledBetween(d, t);
    assert Lerp(a, b, t) == a + d * t;
  }

  /** Scaling d by a fraction t in [0, 1] lands between 0 and d. */
  lemma ScaledBetween(d: real, t: real)
    requires 0.0 <= t <= 1.0
    ensures 0.0 <= d ==> 0.0 <= d * t <= d
    ensures d <= 0.0 ==> d <= d * t <= 0.0
  {
    if 0.0 <= d {
      ProductNonNegative(d, t);
      ProductNonNegative(d, 1.0 - t);
      assert d * t + d * (1.0 - t) == d;
    } else {
      ProductNonNegative(-d, t);
      ProductNonNegative(-d, 1.0 - t);
      assert (-d) * t + (-d) * (1.0 - t) == -d;
    }
  }

  lemma LerpMonotone(a: real, b: real, s: real, t: real)
    requires s <= t
    ensures a <= b ==> Lerp(a, b, s) <= Lerp(a, b, t)
    ensures b <= a ==> Lerp(a, b, t) <= Lerp(a, b, s)
  {
    assert Lerp(a, b, t) - Lerp(a, b, s) == (b - a) * (t - s);
    if a <= b { ProductNonNegative(b - a, t - s); } else { ProductNonNegative(a - b, t - s); }
  }

  /** The total of a run of frame times. */
  function Sum(dts: seq<real>): real {
    if dts == [] then 0.0 else dts[0] + Sum(dts[1..])
  }

  /** Frame times are never negative, so neither is their total. */
  lemma {:induction false} SumNonNegative(dts: seq<real>)
    requires forall i :: 0 <= i < |dts| ==> 0.0 <= dts[i]
    ensures 0.0 <= Sum(dts)
    decreases |dts|
  {
    if dts != [] {
      assert forall i :: 0 <= i < |dts[1..]| ==> 0.0 <= dts[1..][i] by {
        forall i | 0 <= i < |dts[1..]| ensures 0.0 <= dts[1..][i] {
          assert dts[1..][i] == dts[i + 1];
        }
      }
      SumNonNegative(dts[1..]);
    }
  }

  /** `min(max(x, lo), hi)`. */
  function Clamp(x: real, lo: real, hi: real): (r: real)
    requires lo <= hi
    ensures lo <= r <= hi
    ensures lo <= x <= hi ==> r == x
  {
    Min(Max(x, lo), hi)
  }

  lemma {:induction false} MulAtLeast(d: nat, c: int)
    requires c > 0 && d >= 1
    ensures d * c >= c
    decreases d
  {
    if d > 1 {
      MulAtLeast(d - 1, c);
      assert d * c == (d - 1) * c + c;
    }
  }

  /** Euclidean remainders are unique: x == k * c + r with 0 <= r < c fixes r. */
  lemma ModuloUnique(x: int, c: int, k: int, r: int)
    requires c > 0 && 0 <= r < c && x == k * c + r
    ensures x % c == r
  {
    var k0 := x / c;
    assert x == k0 * c + x % c;
    if k > k0 {
      MulAtLeast(k - k0, c);
    } else if k < k0 {
      MulAtLeast(k0 - k, c);
    }
  }
}

=== FILE: player.dfy ===
/** The player's equipment (player.py): a power source bounded to [0, 100],
    weapons with a cooldown timer, an upgrade path and a per-kind volley
    rule, a shield that trades power for damage, and the per-tick part of
    `Player._main_loop`. Shots are returned as `Launch` records, the
    arguments of the `StraightTrajectoryProvider` each shot is built on. */
module Equipment {
  import opened Numerics
  import opened Geometry

  // ---------------------------------------------------------------------------
  // PowerSource (player.py:234-249)
  // ---------------------------------------------------------------------------

  const MaxPower: real := 100.0

  /** `min(power + amount, 100.0)`: charging never exceeds the cap, and a
      non-negative charge never loses power. */
  function Charged(power: real, amount: real): (r: real)
    ensures r <= MaxPower
    ensures power + amount <= MaxPower ==> r == power + amount
    ensures 0.0 <= amount && power <= MaxPower ==> power <= r
    ensures 0.0 <= power && 0.0 <= amount ==> 0.0 <= r
  {
    Min(power + amount, MaxPower)
  }

  /** `max(power - amount, 0.0)`: draining never goes below zero, takes exactly
      the amount when that much is there, and a non-negative drain never adds. */
  function Drained(power: real, amount: real): (r: real)
    ensures 0.0 <= r
    ensures amount <= power ==> r == power - amount
    ensures 0.0 <= amount && 0.0 <= power ==> r <= power
  {
    Max(power - amount, 0.0)
  }

  class PowerSource {
    var power: real
    const regen: real := 10.0

    predicate InRange()
      reads this
    {
      0.0 <= power <= MaxPower
    }

    constructor ()
      ensures power == MaxPower && regen == 10.0 && InRange()
    {
      power := MaxPower;
    }

    method Charge(dt: real)
      modifies this
      ensures power == Charged(old(power), regen * dt)
      ensures old(InRange()) && 0.0 <= dt ==> InRange()
    {
      if 0.0 <= dt { ProductNonNegative(regen, dt); }
      power := Min(power + regen * dt, MaxPower);
    }

    method Consume(amount: real)
      modifies this
      ensures power == Drained(old(power), amount)
      ensures old(InRange()) && 0.0 <= amount ==> InRange()
    {
      power := Max(power - amount, 0.0);
    }

    predicate Available(amount: real)
      reads this
    {
      power >= amount
    }

    /** `charge_from(capsule)`, given the capsule's power. */
    method ChargeFrom(capsulePower: real)
      modifies this
      ensures power == Charged(old(power), capsulePower)
      ensures old(InRange()) && 0.0 <= capsulePower ==> InRange()
    {
      power := Min(power + capsulePower, MaxPower);
    }
  }

  // ---------------------------------------------------------------------------
  // Cannon, TurboLaser, Turret, Minigun, FlakCannon (player.py:15-208)
  // ---------------------------------------------------------------------------

  /** The five weapon classes; the first two are mounted as the cannon, the
      other three as the turret. */
  datatype WeaponKind = PlainCannon | TurboLaser | PlainTurret | Minigun | FlakCannon
  {
    predicate IsCannon() { this == PlainCannon || this == TurboLaser }
  }

  /** One entry of `_upgrade_path`: `(refresh_time, power_consumption)`. */
  datatype Stage = Stage(refresh: real, consumption: real)

  function UpgradePath(kind: WeaponKind): (path: seq<Stage>)
    ensures |path| >= 1
    ensures forall s :: s in path ==> s.refresh > 0.0 && s.consumption > 0.0
  {
    match kind
    case PlainCannon => [Stage(0.25, 10.0)]
    case TurboLaser =>
      [Stage(0.1, 2.0), Stage(0.07, 1.5), Stage(0.05, 1.0),
       Stage(0.05, 0.5), Stage(0.05, 0.5), Stage(0.05, 0.5)]
    case PlainTurret => [Stage(0.2, 10.0)]
    case Minigun => [Stage(0.05, 5.0), Stage(0.035, 1.5), Stage(0.025, 1.0), Stage(0.01, 0.5)]
    case FlakCannon =>
      [Stage(0.5, 20.0), Stage(0.3, 15.0), Stage(0.2, 10.0), Stage(0.2, 5.0), Stage(0.2, 2.5)]
  }

  /** A shot: `StraightTrajectoryProvider(origin, None, angle, speed)`. */
  datatype Launch = Launch(origin: Point, angle: real, speed: real)

  const CannonAngle: real := -90.0
  const CannonShotSpeed: real := 600.0
  const TurretShotSpeed: real := 300.0
  /** The horizontal offset of the TurboLaser's wing cannons. */
  const WingOffset: int := 8

  /** `_fire`: the shots of one volley. Cannons fire straight up (angle -90)
      and ignore the direction; the TurboLaser fires one shot up to level 3,
      alternates one and two wing shots at level 4 and fires three above it;
      the FlakCannon fans five shots out over +-30 degrees. */
  function Volley(kind: WeaponKind, level: nat, wing: bool, origin: Point, direction: real): (r: seq<Launch>)
    ensures 1 <= |r| <= 5
    ensures kind.IsCannon() ==>
      forall s :: s in r ==>
        s.angle == CannonAngle && s.speed == CannonShotSpeed && s.origin.y == origin.y &&
        origin.x - WingOffset <= s.origin.x <= origin.x + WingOffset
    ensures !kind.IsCannon() ==>
      forall s :: s in r ==>
        s.origin == origin && s.speed == TurretShotSpeed && direction - 30.0 <= s.angle <= direction + 30.0
    ensures |r| == 5 <==> kind == FlakCannon
    ensures kind == TurboLaser ==> |r| <= 3 && (|r| == 2 <==> level == 4 && wing) && (|r| == 3 <==> level > 4)
    ensures kind != TurboLaser && kind != FlakCannon ==> |r| == 1
    ensures kind == FlakCannon ==>
      (set s | s in r :: s.angle) ==
      {direction, direction - 15.0, direction + 15.0, direction - 30.0, direction + 30.0}
    ensures kind == PlainCannon || (kind == TurboLaser && (level <= 3 || (level == 4 && !wing))) ==>
      r == [Launch(origin, CannonAngle, CannonShotSpeed)]
    ensures kind == PlainTurret || kind == Minigun ==> r == [Launch(origin, direction, TurretShotSpeed)]
    ensures kind == TurboLaser && level == 4 && wing ==>
      (set s | s in r :: s.origin.x - origin.x) == {-WingOffset, WingOffset}
    ensures kind == TurboLaser && level > 4 ==>
      (set s | s in r :: s.origin.x - origin.x) == {-WingOffset, 0, WingOffset}
  {
    var up := Launch(origin, CannonAngle, CannonShotSpeed);
    var left := Launch(Point(origin.x - WingOffset, origin.y), CannonAngle, CannonShotSpeed);
    var right := Launch(Point(origin.x + WingOffset, origin.y), CannonAngle, CannonShotSpeed);
    match kind
    case PlainCannon => [up]
    case TurboLaser =>
      if level <= 3 then [up]
      else if level == 4 then (if wing then [left, right] else [up])
      else [left, right, up]
    case PlainTurret => [Launch(origin, direction, TurretShotSpeed)]
    case Minigun => [Launch(origin, direction, TurretShotSpeed)]
    case FlakCannon =>
      [Launch(origin, direction, TurretShotSpeed),
       Launch(origin, direction - 15.0, TurretShotSpeed),
       Launch(origin, direction + 15.0, TurretShotSpeed),
       Launch(origin, direction - 30.0, TurretShotSpeed),
       Launch(origin, direction + 30.0, TurretShotSpeed)]
  }

  /** `max(timer - dt, 0.0)`: a cooldown that never goes negative, counts
      down by exactly dt while it can, and never grows for a non-negative dt. */
  function Cooled(timer: real, dt: real): (r: real)
    ensures 0.0 <= r
    ensures dt <= timer ==> r == timer - dt
    ensures timer <= dt ==> r == 0.0
    ensures 0.0 <= dt && 0.0 <= timer ==> r <= timer
  {
    Max(timer - dt, 0.0)
  }

  /** A cooldown timer after one `update` per element of `dts`. */
  function CooledOver(timer: real, dts: seq<real>): real
    decreases |dts|
  {
    if dts == [] then timer else CooledOver(Cooled(timer, dts[0]), dts[1..])
  }

  /** Cooling over several non-negative frame times is cooling once by their
      total: a weapon that just fired at refresh time r can fire again only
      once at least r seconds of frame time have passed. */
  lemma {:induction false} CooledOverTotal(timer: real, dts: seq<real>)
    requires 0.0 <= timer
    requires forall i :: 0 <= i < |dts| ==> 0.0 <= dts[i]
    ensures CooledOver(timer, dts) == Cooled(timer, Sum(dts))
    ensures CooledOver(timer, dts) <= 0.0 <==> Sum(dts) >= timer
    decreases |dts|
  {
    if dts != [] {
      assert forall i :: 0 <= i < |dts[1..]| ==> 0.0 <= dts[1..][i] by {
        forall i | 0 <= i < |dts[1..]| ensures 0.0 <= dts[1..][i] {
          assert dts[1..][i] == dts[i + 1];
        }
      }
      CooledOverTotal(Cooled(timer, dts[0]), dts[1..]);
      SumNonNegative(dts[1..]);
    }
  }

  /** The TurboLaser's wing flag after n level-4 volleys starting from w. */
  function WingAfter(w: bool, n: nat): bool {
    if n == 0 then w else !WingAfter(w, n - 1)
  }

  lemma {:induction false} WingAfterParity(n: nat)
    ensures WingAfter(false, n) <==> n % 2 == 1
  {
    if n > 0 {
      WingAfterParity(n - 1);
    }
  }

  /** At level 4 a fresh TurboLaser's volleys alternate 1, 2, 1, 2, ...:
      the n-th volley (from 0) has two shots exactly when n is odd. */
  lemma TurboLaserAlternates(n: nat, origin: Point, direction: real)
    ensures |Volley(TurboLaser, 4, WingAfter(false, n), origin, direction)| == if n % 2 == 0 then 1 else 2
  {
    WingAfterParity(n);
  }

  /** A weapon: the shared state of `Cannon` and `Turret` and their subclasses. */
  class Weapon {
    const kind: WeaponKind
    var timer: real
    var powerSource: PowerSource?
    var level: nat
    var refresh: real
    var consumption: real
    /** `_wing_cannon` (only the TurboLaser reads it). */
    var wing: bool

    /** The level indexes the upgrade path and the stage was loaded from it. */
    ghost predicate Valid()
      reads this`level, this`refresh, this`consumption
    {
      level < |UpgradePath(kind)| && Stage(refresh, consumption) == UpgradePath(kind)[level]
    }

    constructor (kind: WeaponKind, powerSource: PowerSource?)
      ensures Valid() && this.kind == kind && this.powerSource == powerSource
      ensures timer == 0.0 && level == 0 && !wing
    {
      this.kind := kind;
      this.powerSource := powerSource;
      timer := 0.0;
      level := 0;
      refresh := UpgradePath(kind)[0].refresh;
      consumption := UpgradePath(kind)[0].consumption;
      wing := false;
    }

    /** `update(dt)`. */
    method Update(dt: real)
      modifies this`timer
      ensures timer == Cooled(old(timer), dt)
    {
      timer := Max(timer - dt, 0.0);
    }

    /** `upgrade()`: one level up, clamped to the end of the path, and the
        stage reloaded; at the last level nothing changes. */
    method Upgrade()
      requires Valid()
      modifies this`level, this`refresh, this`consumption
      ensures Valid()
      ensures old(level) < |UpgradePath(kind)| - 1 ==> level == old(level) + 1
      ensures old(level) == |UpgradePath(kind)| - 1 ==>
        level == old(level) && refresh == old(refresh) && consumption == old(consumption)
    {
      level := MinInt(level + 1, |UpgradePath(kind)| - 1);
      refresh := UpgradePath(kind)[level].refresh;
      consumption := UpgradePath(kind)[level].consumption;
    }

    /** Whether `shoot` fires: the cooldown is over and the power source can
        pay the consumption. */
    predicate CanFire()
      reads this, powerSource
    {
      timer <= 0.0 && powerSource != null && powerSource.Available(consumption)
    }

    /** `shoot(initial_pos[, direction])`: when it can fire, restart the
        cooldown, pay exactly the consumption and launch a volley (the
        TurboLaser flips its wing flag at level 4); otherwise nothing. */
    method Shoot(origin: Point, direction: real) returns (shots: seq<Launch>)
      modifies this`timer, this`wing, powerSource
      ensures old(CanFire()) ==>
        timer == refresh && powerSource.power == old(powerSource.power) - consumption &&
        shots == Volley(kind, level, old(wing), origin, direction) &&
        wing == (if kind == TurboLaser && level == 4 then !old(wing) else old(wing))
      ensures !old(CanFire()) ==>
        shots == [] && timer == old(timer) && wing == old(wing) &&
        (powerSource != null ==> powerSource.power == old(powerSource.power))
      ensures |shots| > 0 <==> old(CanFire())
    {
      if timer > 0.0 {
        return [];
      }
      if powerSource == null || !powerSource.Available(consumption) {
        return [];
      }
      timer := refresh;
      powerSource.Consume(consumption);
      shots := Volley(kind, level, wing, origin, direction);
      if kind == TurboLaser && level == 4 {
        wing := !wing;
      }
    }
  }

  // ---------------------------------------------------------------------------
  // Shield (player.py:211-231)
  // ---------------------------------------------------------------------------

  /** Damage absorbed per unit of power: 10 of damage for 20 of power. */
  const Efficiency: real := 10.0 / 20.0

  class Shield {
    var powerSource: PowerSource?

    constructor (powerSource: PowerSource?)
      ensures this.powerSource == powerSource
    {
      this.powerSource := powerSource;
    }

    /** `absorb(damage)`: pay `damage / 0.5` if that much power is there. */
    method Absorb(damage: real) returns (absorbed: bool)
      modifies powerSource
      ensures absorbed <==> powerSource != null && old(powerSource.power) >= 2.0 * damage
      ensures absorbed ==> powerSource.power == old(powerSource.power) - 2.0 * damage
      ensures !absorbed && powerSource != null ==> powerSource.power == old(powerSource.power)
    {
      var needed := damage / Efficiency;
      if powerSource != null && powerSource.Available(needed) {
        powerSource.Consume(needed);
        return true;
      }
      return false;
    }
  }

  // ---------------------------------------------------------------------------
  // Player (player.py:252-392)
  // ---------------------------------------------------------------------------

  /** Which way the ship leans, chosen from the arrow keys. */
  datatype Lean = LeanLeft | Neutral | LeanRight

  /** Left alone leans left, right alone leans right, anything else is neutral. */
  function ChooseLean(left: bool, right: bool): (l: Lean)
    ensures l == LeanLeft <==> left && !right
    ensures l == LeanRight <==> right && !left
    ensures l == Neutral <==> left == right
  {
    if left && !right then LeanLeft
    else if right && !left then LeanRight
    else Neutral
  }

  /** The animation the main loop selects: the lean, white or not. */
  datatype Look = Look(lean: Lean, whitedOut: bool)

  /** The input the main loop polls: arrow keys, space, the first mouse
      button, and the pointer already divided by the scale factor. */
  datatype Controls = Controls(left: bool, right: bool, fire: bool, button: bool, pointer: Vec)

  /** The aim of the turret: from the ship's centre to the pointer, with a
      zero vector replaced by (1, 0). */
  function AimVector(pointer: Vec, center: Point): (v: Vec)
    ensures v != Zero
    ensures Minus(pointer, ToVec(center)) != Zero ==> v == Minus(pointer, ToVec(center))
  {
    var aim := Minus(pointer, ToVec(center));
    if aim == Zero then Vec(1.0, 0.0) else aim
  }

  class Player {
    const trig: Trig
    var powerSource: PowerSource
    var cannon: Weapon?
    var turret: Weapon?
    var shield: Shield?
    var controlsEnabled: bool
    var whiteOut: real
    var look: Look

    /** Every equipped component draws on the player's power source. */
    predicate Wired()
      reads this, cannon, turret, shield
    {
      (cannon != null ==> cannon.powerSource == powerSource) &&
      (turret != null ==> turret.powerSource == powerSource) &&
      (shield != null ==> shield.powerSource == powerSource)
    }

    ghost predicate Valid()
      reads this, cannon, turret, shield
    {
      Wired() &&
      (cannon != null ==> cannon.Valid() && cannon.kind.IsCannon()) &&
      (turret != null ==> turret.Valid() && !turret.kind.IsCannon())
    }

    /** The constructor equips a fresh power source and nothing else. */
    constructor (trig: Trig)
      ensures Valid() && fresh(powerSource) && powerSource.power == MaxPower && powerSource.InRange()
      ensures cannon == null && turret == null && shield == null
      ensures controlsEnabled && whiteOut == 0.0 && look == Look(Neutral, false)
    {
      this.trig := trig;
      powerSource := new PowerSource();
      cannon := null;
      turret := null;
      shield := null;
      controlsEnabled := true;
      whiteOut := 0.0;
      look := Look(Neutral, false);
    }

    /** `equip(...)`: a new power source is handed to everything equipped,
        and every newly equipped component gets the player's power source. */
    method Equip(ps: PowerSource?, c: Weapon?, t: Weapon?, s: Shield?)
      requires Valid()
      requires c != null ==> c.Valid() && c.kind.IsCannon()
      requires t != null ==> t.Valid() && !t.kind.IsCannon()
      modifies this`powerSource, this`cannon, this`turret, this`shield
      modifies ({cannon, turret, c, t} - {null})`powerSource, ({shield, s} - {null})`powerSource
      ensures Valid()
      ensures powerSource == if ps != null then ps else old(powerSource)
      ensures cannon == (if c != null then c else old(cannon))
      ensures turret == (if t != null then t else old(turret))
      ensures shield == (if s != null then s else old(shield))
      ensures controlsEnabled == old(controlsEnabled) && whiteOut == old(whiteOut) && look == old(look)
    {
      if ps != null {
        SetPowerSource(ps);
      }
      MountAll(c, t, s);
    }

    /** The second half of `equip`: each new component is wired to the
        player's power source and mounted. */
    method MountAll(c: Weapon?, t: Weapon?, s: Shield?)
      requires Valid()
      requires c != null ==> c.Valid() && c.kind.IsCannon()
      requires t != null ==> t.Valid() && !t.kind.IsCannon()
      modifies this`cannon, this`turret, this`shield, ({c, t} - {null})`powerSource, ({s} - {null})`powerSource
      ensures Valid()
      ensures cannon == (if c != null then c else old(cannon))
      ensures turret == (if t != null then t else old(turret))
      ensures shield == (if s != null then s else old(shield))
    {
      if c != null {
        MountCannon(c);
      }
      if t != null {
        MountTurret(t);
      }
      if s != null {
        MountShield(s);
      }
    }

    method SetPowerSource(ps: PowerSource)
      requires Valid()
      modifies this`powerSource, ({cannon, turret} - {null})`powerSource, ({shield} - {null})`powerSource
      ensures Valid() && powerSource == ps
    {
      powerSource := ps;
      if cannon != null { cannon.powerSource := ps; }
      if turret != null { turret.powerSource := ps; }
      if shield != null { shield.powerSource := ps; }
    }

    method MountCannon(c: Weapon)
      requires Valid() && c.Valid() && c.kind.IsCannon()
      modifies this`cannon, c`powerSource
      ensures Valid() && cannon == c
    {
      c.powerSource := powerSource;
      cannon := c;
    }

    method MountTurret(t: Weapon)
      requires Valid() && t.Valid() && !t.kind.IsCannon()
      modifies this`turret, t`powerSource
      ensures Valid() && turret == t
    {
      t.powerSource := powerSource;
      turret := t;
    }

    method MountShield(s: Shield)
      requires Valid()
      modifies this`shield, s`powerSource
      ensures Valid() && shield == s
    {
      s.powerSource := powerSource;
      shield := s;
    }

    /** `hit(damage)`: the ship is hurt unless a shield absorbs the damage;
        an absorbed hit whites the ship out for 0.1 s. */
    method Hit(damage: real) returns (hurt: bool)
      requires Wired()
      modifies this`whiteOut, powerSource
      ensures hurt <==> !(shield != null && old(powerSource.power) >= 2.0 * damage)
      ensures !hurt ==> whiteOut == 0.1 && powerSource.power == old(powerSource.power) - 2.0 * damage
      ensures hurt ==> whiteOut == old(whiteOut) && powerSource.power == old(powerSource.power)
      ensures old(powerSource.InRange()) && 0.0 <= damage ==> powerSource.InRange()
    {
      if shield != null {
        var absorbed := shield.Absorb(damage);
        if absorbed {
          whiteOut := 0.1;
          return false;
        }
      }
      return true;
    }

    /** Space fires the cannon, if one is mounted. */
    method FireCannon(fire: bool, center: Point) returns (shots: seq<Launch>)
      requires Valid()
      modifies cannon, powerSource
      ensures Valid()
      ensures |shots| > 0 <==> fire && cannon != null && old(cannon.CanFire())
      ensures |shots| > 0 ==> shots == Volley(cannon.kind, cannon.level, old(cannon.wing), center, CannonAngle)
      ensures cannon != null ==>
        cannon.wing == (if |shots| > 0 && cannon.kind == TurboLaser && cannon.level == 4 then !old(cannon.wing) else old(cannon.wing))
      ensures cannon != null ==>
        cannon.level == old(cannon.level) && cannon.refresh == old(cannon.refresh) &&
        cannon.consumption == old(cannon.consumption)
      ensures |shots| > 0 ==> cannon.timer == cannon.refresh && powerSource.power == old(powerSource.power) - cannon.consumption
      ensures |shots| == 0 ==> powerSource.power == old(powerSource.power) && (cannon != null ==> cannon.timer == old(cannon.timer))
      ensures turret != null ==> unchanged(turret)
      ensures old(powerSource.InRange()) ==> powerSource.InRange()
    {
      shots := [];
      if fire && cannon != null {
        shots := cannon.Shoot(center, CannonAngle);
      }
    }

    /** The mouse button fires the turret, if one is mounted, towards the pointer. */
    method FireTurret(button: bool, pointer: Vec, center: Point) returns (shots: seq<Launch>)
      requires Valid()
      modifies turret, powerSource
      ensures Valid()
      ensures |shots| > 0 <==> button && turret != null && old(turret.CanFire())
      ensures |shots| > 0 ==>
        shots == Volley(turret.kind, turret.level, old(turret.wing), center, trig.heading(AimVector(pointer, center)))
      ensures turret != null ==> turret.wing == old(turret.wing)
      ensures turret != null ==>
        turret.level == old(turret.level) && turret.refresh == old(turret.refresh) &&
        turret.consumption == old(turret.consumption)
      ensures |shots| > 0 ==> turret.timer == turret.refresh && powerSource.power == old(powerSource.power) - turret.consumption
      ensures |shots| == 0 ==> powerSource.power == old(powerSource.power) && (turret != null ==> turret.timer == old(turret.timer))
      ensures cannon != null ==> unchanged(cannon)
      ensures old(powerSource.InRange()) ==> powerSource.InRange()
    {
      shots := [];
      if button && turret != null {
        var angle := trig.heading(AimVector(pointer, center));
        shots := turret.Shoot(center, angle);
      }
    }

    /** The end of the loop body: recharge, then cool the cannon, the turret
        and the white-out timer; a missing weapon raises in its `update`. */
    method CoolDown(dt: real) returns (ok: bool)
      requires Valid()
      modifies this`whiteOut, cannon, turret, powerSource
      ensures Valid()
      ensures powerSource.power == Charged(old(powerSource.power), powerSource.regen * dt)
      ensures old(powerSource.InRange()) && 0.0 <= dt ==> powerSource.InRange()
      ensures ok <==> cannon != null && turret != null
      ensures ok ==>
        cannon.timer == Cooled(old(cannon.timer), dt) && turret.timer == Cooled(old(turret.timer), dt) &&
        whiteOut == Cooled(old(whiteOut), dt)
      ensures cannon != null ==>
        cannon.level == old(cannon.level) && cannon.refresh == old(cannon.refresh) &&
        cannon.consumption == old(cannon.consumption) && cannon.wing == old(cannon.wing)
      ensures turret != null ==>
        turret.level == old(turret.level) && turret.refresh == old(turret.refresh) &&
        turret.consumption == old(turret.consumption) && turret.wing == old(turret.wing)
      ensures !ok && cannon != null ==> turret == null && cannon.timer == Cooled(old(cannon.timer), dt)
      ensures !ok ==> whiteOut == old(whiteOut)
    {
      powerSource.Charge(dt);
      if cannon == null {
        return false;
      }
      cannon.Update(dt);
      if turret == null {
        return false;
      }
      turret.Update(dt);
      whiteOut := Max(whiteOut - dt, 0.0);
      return true;
    }

    /** Space, then the mouse button, as the loop body polls them: the
        turret pays from what the cannon left. */
    method Fire(input: Controls, center: Point) returns (cannonShots: seq<Launch>, turretShots: seq<Launch>)
      requires Valid()
      modifies cannon, turret, powerSource
      ensures Valid()
      ensures |cannonShots| > 0 <==> input.fire && cannon != null && old(cannon.CanFire())
      ensures |cannonShots| > 0 ==> cannonShots == Volley(cannon.kind, cannon.level, old(cannon.wing), center, CannonAngle)
      ensures var cannonCost := if |cannonShots| > 0 then cannon.consumption else 0.0;
        && (|turretShots| > 0 <==>
              input.button && turret != null && old(turret.timer) <= 0.0 &&
              old(powerSource.power) - cannonCost >= turret.consumption)
        && powerSource.power ==
             old(powerSource.power) - cannonCost - (if |turretShots| > 0 then turret.consumption else 0.0)
      ensures |turretShots| > 0 ==>
        turretShots == Volley(turret.kind, turret.level, old(turret.wing), center,
                              trig.heading(AimVector(input.pointer, center)))
      ensures cannon != null ==>
        && cannon.level == old(cannon.level) && cannon.refresh == old(cannon.refresh)
        && cannon.consumption == old(cannon.consumption)
        && cannon.wing == (if |cannonShots| > 0 && cannon.kind == TurboLaser && cannon.level == 4
                           then !old(cannon.wing) else old(cannon.wing))
        && cannon.timer == (if |cannonShots| > 0 then cannon.refresh else old(cannon.timer))
      ensures turret != null ==>
        && turret.level == old(turret.level) && turret.refresh == old(turret.refresh)
        && turret.consumption == old(turret.consumption) && turret.wing == old(turret.wing)
        && turret.timer == (if |turretShots| > 0 then turret.refresh else old(turret.timer))
      ensures old(powerSource.InRange()) ==> powerSource.InRange()
    {
      cannonShots := FireCannon(input.fire, center);
      label Fired:
      turretShots := FireTurret(input.button, input.pointer, center);
      assert turret != null ==>
        (old@Fired(turret.CanFire()) <==>
         old(turret.timer) <= 0.0 && old@Fired(powerSource.power) >= turret.consumption);
    }

    /** What the loop body does with the controls enabled, between the two
        states: the look follows the keys (white while the white-out timer
        runs); space fires the cannon exactly when it is mounted and can
        fire, then the button fires the turret exactly when it is mounted,
        its cooldown is over and the power left after the cannon pays for
        it; each volley is the weapon's `Volley`; then the source recharges
        and, when both weapons are mounted, the timers cool. */
    twostate predicate ControlledOutcome(dt: real, input: Controls, center: Point,
                                         cannonShots: seq<Launch>, turretShots: seq<Launch>, ok: bool)
      reads this, cannon, turret, powerSource
    {
      var cannonCost := if |cannonShots| > 0 && cannon != null then cannon.consumption else 0.0;
      && old(cannon) == cannon && old(turret) == turret && old(powerSource) == powerSource
      && look == Look(ChooseLean(input.left, input.right), old(whiteOut) > 0.0)
      && (ok <==> cannon != null && turret != null)
      && (|cannonShots| > 0 <==> input.fire && cannon != null && old(cannon.CanFire()))
      && (|cannonShots| > 0 && cannon != null ==> cannonShots == Volley(cannon.kind, cannon.level, old(cannon.wing), center, CannonAngle))
      && (|turretShots| > 0 <==>
            input.button && turret != null && old(turret.timer) <= 0.0 &&
            old(powerSource.power) - cannonCost >= turret.consumption)
      && (|turretShots| > 0 && turret != null ==>
            turretShots == Volley(turret.kind, turret.level, old(turret.wing), center,
                                  trig.heading(AimVector(input.pointer, center))))
      && powerSource.power ==
           Charged(old(powerSource.power) - cannonCost
                   - (if |turretShots| > 0 && turret != null then turret.consumption else 0.0),
                   powerSource.regen * dt)
      && (cannon != null ==>
            && cannon.level == old(cannon.level) && cannon.refresh == old(cannon.refresh)
            && cannon.consumption == old(cannon.consumption)
            && cannon.wing == (if |cannonShots| > 0 && cannon.kind == TurboLaser && cannon.level == 4
                               then !old(cannon.wing) else old(cannon.wing)))
      && (turret != null ==>
            && turret.level == old(turret.level) && turret.refresh == old(turret.refresh)
            && turret.consumption == old(turret.consumption)
            && turret.wing == old(turret.wing))
      && (ok ==>
            && cannon.timer == Cooled(if |cannonShots| > 0 then cannon.refresh else old(cannon.timer), dt)
            && turret.timer == Cooled(if |turretShots| > 0 then turret.refresh else old(turret.timer), dt)
            && whiteOut == Cooled(old(whiteOut), dt))
    }

    /** The loop body with the controls enabled: pick the look, fire the
        cannon and the turret if asked, then recharge and cool down. */
    method ControlledStep(dt: real, input: Controls, center: Point)
      returns (cannonShots: seq<Launch>, turretShots: seq<Launch>, ok: bool)
      requires Valid()
      modifies this`look, this`whiteOut, cannon, turret, powerSource
      ensures Valid()
      ensures ControlledOutcome(dt, input, center, cannonShots, turretShots, ok)
      ensures old(powerSource.InRange()) && 0.0 <= dt ==> powerSource.InRange()
    {
      look := Look(ChooseLean(input.left, input.right), whiteOut > 0.0);
      cannonShots, turretShots := Fire(input, center);
      ok := CoolDown(dt);
    }

    /** One pass of `_main_loop` after its `yield`: nothing at all while the
        controls are disabled (no recharge, no cooling), the controlled step
        otherwise. A missing cannon or turret raises AttributeError in its
        `update` (`ok` false), which ends the loop there. */
    method MainLoopStep(dt: real, input: Controls, center: Point)
      returns (cannonShots: seq<Launch>, turretShots: seq<Launch>, ok: bool)
      requires Valid()
      modifies this`look, this`whiteOut, cannon, turret, powerSource
      ensures Valid()
      ensures !controlsEnabled ==>
        ok && cannonShots == [] && turretShots == [] && look == old(look) && whiteOut == old(whiteOut) &&
        unchanged(powerSource) && (cannon != null ==> unchanged(cannon)) && (turret != null ==> unchanged(turret))
      ensures controlsEnabled ==> ControlledOutcome(dt, input, center, cannonShots, turretShots, ok)
      ensures old(powerSource.InRange()) && 0.0 <= dt ==> powerSource.InRange()
    {
      if !controlsEnabled {
        return [], [], true;
      }
      cannonShots, turretShots, ok := ControlledStep(dt, input, center);
    }
  }
}

=== FILE: prelude.dfy ===
/** Option and Result, and Python's sequence indexing. */
module Prelude {

  datatype Option<+T> = None | Some(value: T)

  datatype Result<+R, +E> = Success(value: R) | Failure(error: E)

  /** `s[i]` as Python evaluates it: a negative index counts from the end,
      and an index outside both ranges raises IndexError (None here). */
  function PyIndex<T>(s: seq<T>, i: int): (r: Option<T>)
    ensures r.None? <==> i >= |s| || i < -|s|
    ensures 0 <= i < |s| ==> r == Some(s[i])
    ensures -|s| <= i < 0 ==> r == Some(s[|s| + i])
  {
    if 0 <= i < |s| then Some(s[i])
    else if -|s| <= i < 0 then Some(s[|s| + i])
    else None
  }

  function Reverse<T>(s: seq<T>): (r: seq<T>)
    ensures |r| == |s|
    ensures forall i :: 0 <= i < |s| ==> r[i] == s[|s| - 1 - i]
  {
    seq(|s|, i requires 0 <= i < |s| => s[|s| - 1 - i])
  }
}

=== FILE: shooter_game.dfy ===
/** The arcade variant of shooter_game.py: its `Player._main_loop`, which
    keeps the two weapon cooldowns in loop variables, and
    `ShooterGame._enemy_spawner`, which sends squadrons of five red enemies
    0.2 s apart whenever the enemy group is empty. */
module ShooterGame {
  import opened Prelude
  import opened Geometry
  import opened Equipment

  /** `Cannon.refresh_time` and `Turret.refresh_time`. */
  const CannonRefresh: real := 0.25
  const TurretRefresh: real := 0.2

  class ArcadePlayer {
    const trig: Trig
    /** Whether `self.cannon` and `self.turret` are set (they start as None). */
    var cannonMounted: bool
    var turretMounted: bool
    /** The loop variables `cannon_timer` and `turret_timer`. */
    var cannonTimer: real
    var turretTimer: real
    /** The animation chosen last (`set_animation` with the default offset 0.0). */
    var lean: Lean

    constructor (trig: Trig)
      ensures this.trig == trig && !cannonMounted && !turretMounted
      ensures cannonTimer == 0.0 && turretTimer == 0.0 && lean == Neutral
    {
      this.trig := trig;
      cannonMounted := false;
      turretMounted := false;
      cannonTimer := 0.0;
      turretTimer := 0.0;
      lean := Neutral;
    }

    /** The game setting `player.cannon` and `player.turret`. */
    method Arm()
      modifies this`cannonMounted, this`turretMounted
      ensures cannonMounted && turretMounted
    {
      cannonMounted := true;
      turretMounted := true;
    }

    /** One pass of `_main_loop`: choose the animation from the arrow keys;
        space fires the cannon straight up once its timer has run out and
        restarts the timer; the mouse button does the same for the turret,
        aimed at the pointer (a zero aim counts as pointing right); finally
        both timers cool down. */
    method Step(dt: real, input: Controls, center: Point)
      returns (cannonShot: Option<Launch>, turretShot: Option<Launch>)
      modifies this`cannonTimer, this`turretTimer, this`lean
      ensures lean == ChooseLean(input.left, input.right)
      ensures cannonShot.Some? <==> input.fire && cannonMounted && old(cannonTimer) <= 0.0
      ensures cannonShot.Some? ==> cannonShot.value == Launch(center, CannonAngle, CannonShotSpeed)
      ensures turretShot.Some? <==> input.button && turretMounted && old(turretTimer) <= 0.0
      ensures turretShot.Some? ==>
        turretShot.value == Launch(center, trig.heading(AimVector(input.pointer, center)), TurretShotSpeed)
      ensures cannonTimer == Cooled(if cannonShot.Some? then CannonRefresh else old(cannonTimer), dt)
      ensures turretTimer == Cooled(if turretShot.Some? then TurretRefresh else old(turretTimer), dt)
    {
      lean := ChooseLean(input.left, input.right);
      cannonShot, turretShot := None, None;
      if input.fire && cannonMounted && cannonTimer <= 0.0 {
        cannonShot := Some(Launch(center, CannonAngle, CannonShotSpeed));
        cannonTimer := CannonRefresh;
      }
      if input.button && turretMounted && turretTimer <= 0.0 {
        var angle := trig.heading(AimVector(input.pointer, center));
        turretShot := Some(Launch(center, angle, TurretShotSpeed));
        turretTimer := TurretRefresh;
      }
      cannonTimer := Cooled(cannonTimer, dt);
      turretTimer := Cooled(turretTimer, dt);
    }
  }

  /** The three squadron routes and their speed; they are flown by a spline
      provider that is not part of this model, so a spawn names its route. */
  const ArcadeRouteA: seq<Point> := [Point(38, -10), Point(39, 132), Point(140, 133), Point(257, 133), Point(257, 298)]
  const ArcadeRouteB: seq<Point> := [Point(38, -10), Point(39, 132), Point(140, 133), Point(257, 133), Point(257, -10)]

  function ArcadeRoutes(): (routes: seq<seq<Point>>)
    ensures |routes| == 3 && |routes[0]| == |routes[1]| == |routes[2]| == 5
    ensures routes[0][..4] == routes[1][..4] && routes[2] == Reverse(routes[1])
    ensures routes[2][0] == routes[1][4] && routes[2][4] == routes[1][0]
  {
    [ArcadeRouteA, ArcadeRouteB, Reverse(ArcadeRouteB)]
  }

  const ArcadeRouteSpeed: real := 150.0
  const ArcadeSquadron: nat := 5
  const ArcadeSpacing: real := 0.2

  datatype ArcadeMode = Resting | Launching

  /** `_enemy_spawner` with its locals as fields. */
  class ArcadeSpawner {
    var mode: ArcadeMode
    var spawnCount: nat
    var timer: real
    /** The route of the current squadron (an index into `ArcadeRoutes()`). */
    var route: nat

    ghost predicate Valid()
      reads this
    {
      spawnCount <= ArcadeSquadron && route < 3 && (mode == Resting ==> spawnCount == 0)
    }

    constructor ()
      ensures Valid() && mode == Resting && spawnCount == 0 && timer == ArcadeSpacing
    {
      mode := Resting;
      spawnCount := 0;
      timer := ArcadeSpacing;
      route := 0;
    }

    /** One pass: the timer counts down; a resting spawner facing an empty
        enemy group draws a route and starts a squadron in the same tick (the
        timer is not restarted); a launching one sends one enemy when the timer
        has run out and restarts it, or rests again once five are out. */
    method Update(dt: real, enemyCount: nat, routeDraw: nat) returns (spawn: Option<nat>)
      requires Valid() && routeDraw < 3
      modifies this
      ensures Valid()
      ensures var launching := old(mode) == Launching || enemyCount == 0;
        spawn.Some? <==> launching && old(spawnCount) < ArcadeSquadron && old(timer) - dt <= 0.0
      ensures old(mode) == Resting && enemyCount == 0 ==> route == routeDraw
      ensures old(mode) == Resting && enemyCount > 0 ==> mode == Resting && route == old(route)
      ensures spawn.Some? ==>
        spawn.value == route && timer == ArcadeSpacing && spawnCount == old(spawnCount) + 1 && mode == Launching
      ensures spawn.None? ==> timer == old(timer) - dt
      ensures old(mode) == Launching && mode == Resting ==> old(spawnCount) == ArcadeSquadron
      ensures old(mode) == Launching && old(spawnCount) == ArcadeSquadron ==>
        mode == Resting && spawnCount == 0 && spawn.None?
      ensures spawn.None? && !(old(mode) == Launching && old(spawnCount) == ArcadeSquadron) ==>
        spawnCount == old(spawnCount) &&
        mode == (if old(mode) == Resting && enemyCount == 0 then Launching else old(mode))
      ensures old(mode) == Launching ==> route == old(route)
    {
      timer := timer - dt;
      spawn := None;
      if mode == Resting && enemyCount == 0 {
        mode := Launching;
        route := routeDraw;
      }
      if mode == Launching {
        if spawnCount < ArcadeSquadron {
          if timer <= 0.0 {
            spawn := Some(route);
            timer := ArcadeSpacing;
            spawnCount := spawnCount + 1;
          }
        } else {
          mode := Resting;
          spawnCount := 0;
        }
      }
    }
  }
}

=== FILE: sprites.dfy ===
/** The sprite classes of engine.py: `AnimatedSprite`, whose animation
    generator calls the end handler once when a non-looping animation
    finishes, and `TrajectorySprite`, which additionally drives a trajectory
    provider until the sprite dies and calls its own end handler when the
    provider becomes finished. Each generator is an explicit state plus an
    `Update` method that plays one `send(dt)`. */
module Sprites {
  import opened Prelude
  import opened Geometry
  import opened Animations
  import opened Engine
  import opened Numerics

  /** A trajectory provider of any of the modelled kinds (the abstract
      `TrajectoryProvider` of the source). */
  datatype Provider =
    | StraightP(straight: StraightProvider)
    | SegmentsP(segments: LinearSegmentsProvider)
    | PredefinedP(predefined: PredefinedProvider)
    | SeekingP(seeking: SeekingProvider)
    | KeyboardP(keyboard: KeyboardProvider)
  {
    /** The provider object itself, which `update` changes. */
    function Obj(): object {
      match this
      case StraightP(p) => p
      case SegmentsP(p) => p
      case PredefinedP(p) => p
      case SeekingP(p) => p
      case KeyboardP(p) => p
    }

    ghost predicate Valid()
      reads Obj()
    {
      match this
      case SegmentsP(p) => p.Valid()
      case PredefinedP(p) => |p.positions| == |p.angles|
      case _ => true
    }

    predicate IsFinished()
      reads Obj()
    {
      match this
      case StraightP(p) => p.IsFinished()
      case SegmentsP(p) => p.IsFinished()
      case PredefinedP(p) => p.IsFinished()
      case SeekingP(p) => p.IsFinished()
      case KeyboardP(p) => p.IsFinished()
    }

    /** Whether the last `update` raised: the segments provider's distance
        falls in a row of zero width (the ZeroDivisionError). */
    predicate Raised()
      reads Obj()
    {
      match this
      case SegmentsP(p) =>
        var k := FirstCovering(p.lut, p.distance);
        k.Some? && Width(p.lut[k.value]) == 0
      case _ => false
    }

    /** `get_current_position()`; `None` is the IndexError of an empty predefined trajectory. */
    function Position(): Option<Point>
      reads Obj()
    {
      match this
      case StraightP(p) => Some(p.GetCurrentPosition())
      case SegmentsP(p) => Some(p.GetCurrentPosition())
      case PredefinedP(p) => p.GetCurrentPosition()
      case SeekingP(p) => Some(p.GetCurrentPosition())
      case KeyboardP(p) => Some(p.GetCurrentPosition())
    }

    /** `get_current_angle()`. */
    function Angle(): Option<real>
      reads Obj()
    {
      match this
      case StraightP(p) => Some(p.angle)
      case SegmentsP(p) => Some(p.angle)
      case PredefinedP(p) => p.GetCurrentAngle()
      case SeekingP(p) => Some(p.angle)
      case KeyboardP(p) => Some(p.angle)
    }
  }

  /** What the providers read from outside during an update: the seeking
      provider's mark, the virtual keyboard and the pressed keys. */
  datatype Surroundings = Surroundings(
    markAlive: bool, markCenter: Point, virtualFlags: set<Direction>, pressed: set<int>)

  /** The fields of a provider that `update` changes, as a value, so that a
      contract can compare the provider before and after. */
  datatype Snapshot =
    | StraightS(position: Vec, angle: real)
    | SegmentsS(distance: real, point: Point, angle: real)
    | PredefinedS(index: int, speed: real)
    | SeekingS(position: Vec, direction: Vec, angle: real, distance: real)
    | KeyboardS(position: Vec, angle: real)

  function Snap(p: Provider): Snapshot
    reads p.Obj()
  {
    match p
    case StraightP(s) => StraightS(s.position, s.angle)
    case SegmentsP(s) => SegmentsS(s.distance, s.position, s.angle)
    case PredefinedP(s) => PredefinedS(s.index, s.speed)
    case SeekingP(s) => SeekingS(s.position, s.direction, s.angle, s.distance)
    case KeyboardP(s) => KeyboardS(s.position, s.angle)
  }

  /** The provider, whose state was `before`, made exactly one `update(dt)`:
      each kind moved as its own update says (a segments provider that
      raised kept its position and angle). */
  predicate Stepped(p: Provider, before: Snapshot, dt: real, env: Surroundings)
    reads p.Obj()
  {
    match p
    case StraightP(s) =>
      && before.StraightS?
      && s.position == Plus(before.position, Times(Times(s.direction, s.speed), dt))
      && s.angle == before.angle + s.angularSpeed * dt
    case SegmentsP(s) =>
      before.SegmentsS? && SegmentsStepped(s, before.distance, before.point, before.angle, dt)
    case PredefinedP(s) =>
      && before.PredefinedS?
      && s.index == before.index + Trunc(s.speed * dt)
      && s.speed == before.speed
    case SeekingP(s) =>
      before.SeekingS? && SeekingStepped(s, before, dt, env.markAlive, env.markCenter)
    case KeyboardP(s) =>
      before.KeyboardS? && KeyboardStepped(s, before.position, before.angle, dt, ActiveFlags(env.virtualFlags, s.bindings, env.pressed))
  }

  predicate SegmentsStepped(s: LinearSegmentsProvider, distance: real, point: Point, angle: real, dt: real)
    reads s
  {
    && s.distance == Min(distance + s.speed * dt, s.total as real)
    && (s.IsFinished() <==> distance + s.speed * dt >= s.total as real)
    && var k := FirstCovering(s.lut, s.distance);
    && (k.Some? && Width(s.lut[k.value]) != 0 ==>
          var g := s.lut[k.value];
          s.position == TruncPoint(VecLerp(g.begin, g.end, (s.distance - g.initial as real) / Width(g) as real)) &&
          s.angle == s.trig.heading(Minus(g.end, g.begin)))
    && (!(k.Some? && Width(s.lut[k.value]) != 0) ==> s.position == point && s.angle == angle)
  }

  predicate SeekingStepped(s: SeekingProvider, before: Snapshot, dt: real, markAlive: bool, markCenter: Point)
    requires before.SeekingS?
    reads s
  {
    && (markAlive ==>
          s.angle == Steer(before.angle, s.trig.heading(Minus(ToVec(markCenter), before.position)), s.angularSpeed) &&
          s.direction == s.trig.unitAt(s.angle))
    && (!markAlive ==> s.angle == before.angle && s.direction == before.direction)
    && s.position == Plus(before.position, Times(Times(s.direction, s.speed), dt))
    && s.distance == before.distance + s.speed * dt
  }

  predicate KeyboardStepped(s: KeyboardProvider, position: Vec, angle: real, dt: real, flags: set<Direction>)
    reads s
  {
    var t := Translation(flags);
    && (t == Zero ==> s.position == position)
    && (t != Zero ==>
          s.position == ClampToBoundary(Plus(position, Times(Times(s.trig.normalized(t), s.speed), dt)), s.boundary))
    && s.angle == angle + (if CW in flags then s.rotationSpeed * dt else 0.0)
                        - (if CCW in flags then s.rotationSpeed * dt else 0.0)
  }

  /** `trajectory_provider.update(dt)`; `ok` is false when it raised, which
      only the linear-segments provider does, on a zero-width division. */
  method AdvanceProvider(p: Provider, dt: real, env: Surroundings) returns (ok: bool)
    requires p.Valid()
    modifies p.Obj()
    ensures p.Valid()
    ensures Stepped(p, old(Snap(p)), dt, env)
    ensures ok <==> !p.Raised()
  {
    ghost var before := Snap(p);
    match p
    case StraightP(s) =>
      s.Update(dt);
      ok := true;
    case SegmentsP(s) =>
      ok := s.Update(dt);
      assert SegmentsStepped(s, before.distance, before.point, before.angle, dt);
    case PredefinedP(s) =>
      s.Update(dt);
      ok := true;
    case SeekingP(s) =>
      s.Update(dt, env.markAlive, env.markCenter);
      assert SeekingStepped(s, before, dt, env.markAlive, env.markCenter);
      ok := true;
    case KeyboardP(s) =>
      s.Update(dt, env.virtualFlags, env.pressed);
      assert KeyboardStepped(s, before.position, before.angle, dt, ActiveFlags(env.virtualFlags, s.bindings, env.pressed));
      ok := true;
  }

  /** The handlers the game installs: none, or `lambda s: s.kill()`. */
  datatype EndHandler = NoHandler | KillSelf

  /** Where the animation generator is suspended: in the loop that plays an
      unfinished animation, or in the loop that waits while it is finished. */
  datatype LoopState = Playing | Holding

  class AnimatedSprite {
    var animation: Animation
    var angleOffset: Option<real>
    var angle: real
    var loopState: LoopState
    var handler: EndHandler
    /** Whether the sprite belongs to some group (`alive()`). */
    var alive: bool

    /** Drawing the current frame needs at least one frame. */
    ghost predicate Valid()
      reads this, animation
    {
      |animation.frames| > 0
    }

    /** The constructor primes the generator: it stops in the playing loop,
        or, for an animation that is already finished, in the waiting loop
        (no handler is installed yet, so none fires). */
    constructor (animation: Animation, angleOffset: Option<real>, alive: bool)
      requires |animation.frames| > 0
      ensures Valid() && this.animation == animation && this.angleOffset == angleOffset
      ensures this.alive == alive && angle == 0.0 && handler == NoHandler
      ensures loopState == (if animation.IsFinished() then Holding else Playing)
    {
      this.animation := animation;
      this.angleOffset := angleOffset;
      this.alive := alive;
      angle := 0.0;
      handler := NoHandler;
      loopState := if animation.IsFinished() then Holding else Playing;
    }

    method Kill()
      modifies this`alive
      ensures !alive
    {
      alive := false;
    }

    /** `set_animation`: a `None` offset keeps the current one. */
    method SetAnimation(anim: Animation, offset: Option<real>, resetAngle: bool)
      requires |anim.frames| > 0
      modifies this`animation, this`angleOffset, this`angle
      ensures Valid() && animation == anim
      ensures angleOffset == if offset.Some? then offset else old(angleOffset)
      ensures angle == if resetAngle then 0.0 else old(angle)
    {
      animation := anim;
      if offset.Some? {
        angleOffset := offset;
      }
      if resetAngle {
        angle := 0.0;
      }
    }

    method OnAnimationEnd(h: EndHandler)
      modifies this`handler
      ensures handler == h
    {
      handler := h;
    }

    /** The rotation `_update_image` applies to the frame, when an offset is set. */
    function RenderRotation(): (r: Option<real>)
      reads this
      ensures r.Some? <==> angleOffset.Some?
      ensures r.Some? ==> r.value + angle == angleOffset.value
    {
      if angleOffset.Some? then Some(-angle + angleOffset.value) else None
    }

    /** `update(dt)`, one `send(dt)` to the animation generator. While playing,
        the animation advances; the update that leaves it finished calls the
        handler (`fired`) and parks the generator. While parked, dt is ignored
        until the animation is no longer finished. */
    method Update(dt: real) returns (fired: bool)
      requires Valid()
      modifies this, animation
      ensures Valid() && animation == old(animation)
      ensures old(loopState) == Playing ==>
        animation.Head() == Advance(|animation.frames|, animation.delay, animation.loop, old(animation.Head()), dt)
      ensures old(loopState) == Holding ==> animation.Head() == old(animation.Head())
      ensures fired <==> old(loopState) == Playing && animation.IsFinished() && handler != NoHandler
      ensures loopState == (if animation.IsFinished() then Holding else Playing)
      ensures alive == (old(alive) && !(fired && handler == KillSelf))
      ensures angle == old(angle) && angleOffset == old(angleOffset) && handler == old(handler)
    {
      fired := false;
      if loopState == Playing {
        animation.Update(dt);
        if animation.IsFinished() {
          if handler != NoHandler {
            fired := true;
            if handler == KillSelf {
              alive := false;
            }
          }
          loopState := Holding;
        }
      } else if !animation.IsFinished() {
        loopState := Playing;
      }
    }
  }

  class TrajectorySprite {
    const sprite: AnimatedSprite
    var provider: Provider
    /** `rect.center`. */
    var center: Point
    /** Whether the trajectory generator has returned (the sprite was found dead)
        or was closed by an exception. */
    var exhausted: bool
    var handler: EndHandler

    ghost predicate Valid()
      reads this, sprite, sprite.animation, provider.Obj()
    {
      sprite.Valid() && provider.Valid()
    }

    /** A sprite created into a group: the trajectory generator is primed and
        the centre is the provider's first position. */
    constructor (animation: Animation, angleOffset: Option<real>, provider: Provider)
      requires |animation.frames| > 0 && provider.Valid()
      requires provider.Position().Some?
      ensures Valid() && fresh(sprite) && sprite.alive && sprite.animation == animation
      ensures this.provider == provider && center == provider.Position().value
      ensures !exhausted && handler == NoHandler
    {
      sprite := new AnimatedSprite(animation, angleOffset, true);
      this.provider := provider;
      center := provider.Position().value;
      exhausted := false;
      handler := NoHandler;
    }

    method OnTrajectoryEnd(h: EndHandler)
      modifies this`handler
      ensures handler == h
    {
      handler := h;
    }

    /** One resumption of `__create_gen` after its `yield`: update the
        provider, copy its angle and then its position, and return (exhaust
        the generator) when the sprite is no longer alive. An exception from
        the provider closes the generator too. */
    method ResumeTrajectory(dt: real, env: Surroundings) returns (ok: bool)
      requires Valid() && !exhausted
      modifies this`center, this`exhausted, sprite`angle, provider.Obj()
      ensures Valid()
      ensures Stepped(provider, old(Snap(provider)), dt, env)
      ensures ok <==> !provider.Raised() && provider.Angle().Some? && provider.Position().Some?
      ensures ok ==> provider.Position() == Some(center) && provider.Angle() == Some(sprite.angle)
      ensures !ok ==> center == old(center) && sprite.angle == old(sprite.angle)
      ensures exhausted <==> !ok || !sprite.alive
    {
      ok := AdvanceProvider(provider, dt, env);
      ghost var stepped := Stepped(provider, old(Snap(provider)), dt, env);
      assert stepped;
      if ok {
        // Both reads fail together: a provider has as many angles as positions.
        var a := provider.Angle();
        var c := provider.Position();
        if a.Some? && c.Some? {
          sprite.angle := a.value;
          center := c.value;
        } else {
          ok := false;
        }
      }
      exhausted := !ok || !sprite.alive;
    }

    /** What `update(dt)` does after `super().update(dt)`: one step of the
        trajectory generator unless it is exhausted, then, as the `finally`
        clause, the trajectory handler when the provider became finished
        during this step. `ok` is false when the provider raised. */
    method StepTrajectory(dt: real, env: Surroundings) returns (trajFired: bool, ok: bool)
      requires Valid()
      modifies this`center, this`exhausted, sprite`angle, sprite`alive, provider.Obj()
      ensures Valid()
      ensures old(exhausted) ==> ok && unchanged(provider.Obj()) && center == old(center) && sprite.angle == old(sprite.angle)
      ensures !old(exhausted) ==> Stepped(provider, old(Snap(provider)), dt, env)
      ensures !old(exhausted) ==> (ok <==> !provider.Raised() && provider.Angle().Some? && provider.Position().Some?)
      ensures !old(exhausted) && ok ==> provider.Position() == Some(center) && provider.Angle() == Some(sprite.angle)
      ensures !ok ==> center == old(center) && sprite.angle == old(sprite.angle)
      ensures trajFired <==> !old(provider.IsFinished()) && provider.IsFinished() && handler != NoHandler
      ensures exhausted == (old(exhausted) || !ok || !old(sprite.alive))
      ensures sprite.alive == (old(sprite.alive) && !(trajFired && handler == KillSelf))
    {
      var had := provider.IsFinished();
      ok := true;
      if !exhausted {
        ok := ResumeTrajectory(dt, env);
      }
      trajFired := !had && provider.IsFinished() && handler != NoHandler;
      if trajFired && handler == KillSelf {
        sprite.Kill();
      }
    }

    /** `update(dt)`: the animation part first, then the trajectory step.
        The animation handler may kill the sprite before the trajectory
        generator looks at `alive()`. */
    method Update(dt: real, env: Surroundings) returns (animFired: bool, trajFired: bool, ok: bool)
      requires Valid()
      modifies this`center, this`exhausted, sprite, sprite.animation, provider.Obj()
      ensures Valid()
      ensures sprite.animation == old(sprite.animation)
      ensures old(sprite.loopState) == Playing ==>
        sprite.animation.Head() ==
        Advance(|sprite.animation.frames|, sprite.animation.delay, sprite.animation.loop, old(sprite.animation.Head()), dt)
      ensures old(sprite.loopState) == Holding ==> sprite.animation.Head() == old(sprite.animation.Head())
      ensures animFired <==> old(sprite.loopState) == Playing && sprite.animation.IsFinished() && sprite.handler != NoHandler
      ensures sprite.loopState == (if sprite.animation.IsFinished() then Holding else Playing)
      ensures sprite.handler == old(sprite.handler) && sprite.angleOffset == old(sprite.angleOffset)
      ensures old(exhausted) ==> ok && unchanged(provider.Obj()) && center == old(center) && sprite.angle == old(sprite.angle)
      ensures !old(exhausted) ==> Stepped(provider, old(Snap(provider)), dt, env)
      ensures !old(exhausted) ==> (ok <==> !provider.Raised() && provider.Angle().Some? && provider.Position().Some?)
      ensures !old(exhausted) && ok ==> provider.Position() == Some(center) && provider.Angle() == Some(sprite.angle)
      ensures !ok ==> center == old(center) && sprite.angle == old(sprite.angle)
      ensures trajFired <==> !old(provider.IsFinished()) && provider.IsFinished() && handler != NoHandler
      ensures exhausted == (old(exhausted) || !ok || !old(sprite.alive) || (animFired && sprite.handler == KillSelf))
      ensures sprite.alive ==
        (old(sprite.alive) && !(animFired && sprite.handler == KillSelf) && !(trajFired && handler == KillSelf))
    {
      animFired := sprite.Update(dt);
      trajFired, ok := StepTrajectory(dt, env);
    }
  }
}

=== FILE: surface_factory.dfy ===
/** The sprite-sheet helpers of surface_factory.py over an image's alpha
    channel: `crop` (a subsurface), `trim` (cut away transparent margins)
    and `slice_image` (cut a sheet into tiles, optionally skipping blank
    ones). Only the alpha value of a pixel matters to them, so an image is
    its size and a grid of alpha values, row by row. */
module SpriteSheet {
  import opened Prelude
  import opened Numerics
  import opened Geometry

  /** `alpha[y][x]` is the alpha value of the pixel at (x, y). */
  datatype Image = Image(width: nat, height: nat, alpha: seq<seq<int>>)
  {
    predicate Valid() {
      |alpha| == height && forall y :: 0 <= y < height ==> |alpha[y]| == width
    }

    /** `get_at((x, y))[3] != 0`. */
    predicate Opaque(x: int, y: int)
      requires Valid()
    {
      0 <= x < width && 0 <= y < height && alpha[y][x] != 0
    }

    /** The rectangle lies within the image. */
    predicate Holds(r: Rect) {
      0 <= r.left && 0 <= r.top && r.Right() <= width && r.Bottom() <= height
    }

    /** No pixel of the image is visible. */
    predicate Blank()
      requires Valid()
    {
      forall x, y :: 0 <= x < width && 0 <= y < height ==> alpha[y][x] == 0
    }
  }

  // ---------------------------------------------------------------------------
  // crop and subsurface (surface_factory.py:69-72)
  // ---------------------------------------------------------------------------

  /** `image.subsurface(rect)`, which `crop` returns: the pixels under the
      rectangle, or ValueError when the rectangle leaves the image. */
  function Crop(img: Image, r: Rect): (out: Result<Image, string>)
    requires img.Valid()
    ensures out.Success? <==> img.Holds(r)
    ensures out.Success? ==>
      out.value.Valid() && out.value.width == r.width && out.value.height == r.height &&
      forall x, y :: 0 <= x < r.width && 0 <= y < r.height ==>
        out.value.alpha[y][x] == img.alpha[r.top + y][r.left + x]
  {
    if img.Holds(r) then
      Success(Image(r.width, r.height,
                    seq(r.height, j requires 0 <= j < r.height => img.alpha[r.top + j][r.left .. r.Right()])))
    else
      Failure("subsurface rectangle outside surface area")
  }

  /** Cropping to the whole image gives the image back. */
  lemma CropWholeIsIdentity(img: Image)
    requires img.Valid()
    ensures Crop(img, Rect(0, 0, img.width, img.height)) == Success(img)
  {
    var out := Crop(img, Rect(0, 0, img.width, img.height)).value;
    forall y | 0 <= y < img.height
      ensures out.alpha[y] == img.alpha[y]
    {
      assert img.alpha[y][0 .. img.width] == img.alpha[y];
    }
    assert out.alpha == img.alpha;
  }

  /** A crop of a crop is one crop of the original, shifted by the first
      rectangle's corner. */
  lemma CropOfCrop(img: Image, outer: Rect, inner: Rect)
    requires img.Valid() && img.Holds(outer)
    requires Crop(img, outer).value.Holds(inner)
    ensures var shifted := Rect(outer.left + inner.left, outer.top + inner.top, inner.width, inner.height);
      img.Holds(shifted) && Crop(Crop(img, outer).value, inner) == Crop(img, shifted)
  {
    var mid := Crop(img, outer).value;
    var shifted := Rect(outer.left + inner.left, outer.top + inner.top, inner.width, inner.height);
    var a, b := Crop(mid, inner).value, Crop(img, shifted).value;
    forall y | 0 <= y < inner.height
      ensures a.alpha[y] == b.alpha[y]
    {
      forall x | 0 <= x < inner.width
        ensures a.alpha[y][x] == b.alpha[y][x]
      {
        assert a.alpha[y][x] == mid.alpha[inner.top + y][inner.left + x];
      }
      assert a.alpha[y] == b.alpha[y];
    }
    assert a.alpha == b.alpha;
  }

  // ---------------------------------------------------------------------------
  // trim (surface_factory.py:33-66)
  // ---------------------------------------------------------------------------

  /** `trim` scans columns (x) for `left`/`right` and rows (y) for `top`/`bottom`. */
  datatype Axis = Columns | Rows

  function Extent(img: Image, axis: Axis): nat {
    if axis == Columns then img.width else img.height
  }

  /** Some pixel of column or row `i` is visible. */
  predicate LineOpaque(img: Image, axis: Axis, i: nat)
    requires img.Valid() && i < Extent(img, axis)
  {
    if axis == Columns then exists y :: 0 <= y < img.height && img.alpha[y][i] != 0
    else exists x :: 0 <= x < img.width && img.alpha[i][x] != 0
  }

  /** The first visible line at index `from` or later. */
  function FirstLine(img: Image, axis: Axis, from: nat): (r: Option<nat>)
    requires img.Valid()
    ensures r.Some? ==>
      from <= r.value < Extent(img, axis) && LineOpaque(img, axis, r.value) &&
      forall i :: from <= i < r.value ==> !LineOpaque(img, axis, i)
    ensures r.None? ==> forall i :: from <= i < Extent(img, axis) ==> !LineOpaque(img, axis, i)
    decreases Extent(img, axis) - from
  {
    if from >= Extent(img, axis) then None
    else if LineOpaque(img, axis, from) then Some(from)
    else FirstLine(img, axis, from + 1)
  }

  /** The last visible line below index `below`. */
  function LastLine(img: Image, axis: Axis, below: nat): (r: Option<nat>)
    requires img.Valid() && below <= Extent(img, axis)
    ensures r.Some? ==>
      r.value < below && LineOpaque(img, axis, r.value) &&
      forall i :: r.value < i < below ==> !LineOpaque(img, axis, i)
    ensures r.None? ==> forall i :: 0 <= i < below ==> !LineOpaque(img, axis, i)
  {
    if below == 0 then None
    else if LineOpaque(img, axis, below - 1) then Some(below - 1)
    else LastLine(img, axis, below - 1)
  }

  /** `left` (or `top`) as the first two loops of `trim` compute it: the
      `break` tests `left != 0`, so a hit in line 0 does not stop the scan
      and the result is the first visible line after line 0 (0 if none). */
  function LowAsWritten(img: Image, axis: Axis): nat
    requires img.Valid()
  {
    match FirstLine(img, axis, 1)
    case Some(i) => i
    case None => 0
  }

  /** `right` (or `bottom`): the index of the last visible line itself, or
      the extent when nothing is visible. */
  function HighAsWritten(img: Image, axis: Axis): nat
    requires img.Valid()
  {
    match LastLine(img, axis, Extent(img, axis))
    case Some(i) => i
    case None => Extent(img, axis)
  }

  /** `right - left` and `bottom - top` are never negative, so `trim`'s
      rectangle is always a rectangle of the image. */
  lemma AsWrittenBoundsOrdered(img: Image, axis: Axis)
    requires img.Valid()
    ensures LowAsWritten(img, axis) <= HighAsWritten(img, axis) <= Extent(img, axis)
  {
    var first := FirstLine(img, axis, 1);
    var last := LastLine(img, axis, Extent(img, axis));
    if first.Some? {
      assert LineOpaque(img, axis, first.value);
      assert last.Some?;
    }
  }

  /** The rectangle `trim` passes to `subsurface`. */
  function TrimRect(img: Image): (r: Rect)
    requires img.Valid()
    ensures img.Holds(r)
    ensures img.Blank() ==> r == Rect(0, 0, img.width, img.height)
  {
    AsWrittenBoundsOrdered(img, Columns);
    AsWrittenBoundsOrdered(img, Rows);
    BlankHasNoLines(img, Columns);
    BlankHasNoLines(img, Rows);
    var left, top := LowAsWritten(img, Columns), LowAsWritten(img, Rows);
    Rect(left, top, HighAsWritten(img, Columns) - left, HighAsWritten(img, Rows) - top)
  }

  /** A blank image has no visible line on either axis. */
  lemma BlankHasNoLines(img: Image, axis: Axis)
    requires img.Valid()
    ensures img.Blank() ==> FirstLine(img, axis, 0).None? && FirstLine(img, axis, 1).None?
    ensures img.Blank() ==> LastLine(img, axis, Extent(img, axis)).None?
  {
    if img.Blank() {
      forall i | 0 <= i < Extent(img, axis)
        ensures !LineOpaque(img, axis, i)
      {
      }
    }
  }

  /** An image with something visible always loses its last visible column
      and row to `trim`: they lie just outside the rectangle. */
  lemma TrimAsWrittenDropsLastLines(img: Image)
    requires img.Valid() && !img.Blank()
    ensures var r := TrimRect(img);
      r.Right() < img.width && LineOpaque(img, Columns, r.Right()) &&
      r.Bottom() < img.height && LineOpaque(img, Rows, r.Bottom())
  {
    var x, y :| 0 <= x < img.width && 0 <= y < img.height && img.alpha[y][x] != 0;
    assert LineOpaque(img, Columns, x);
    assert LineOpaque(img, Rows, y);
  }

  /** When line 0 and a later line are both visible, `left` (or `top`) moves
      past line 0: the first visible column or row is cut away as well. */
  lemma TrimAsWrittenSkipsLineZero(img: Image, axis: Axis, later: nat)
    requires img.Valid() && 0 < later < Extent(img, axis)
    requires LineOpaque(img, axis, 0) && LineOpaque(img, axis, later)
    ensures 0 < LowAsWritten(img, axis) <= later
    ensures LineOpaque(img, axis, LowAsWritten(img, axis))
  {
  }

  /** The smallest case: a single visible pixel is trimmed to nothing. */
  lemma TrimAsWrittenEmptiesOnePixel()
    ensures var img := Image(1, 1, [[255]]);
      img.Valid() && img.Opaque(0, 0) && TrimRect(img) == Rect(0, 0, 0, 0)
  {
    var img := Image(1, 1, [[255]]);
    assert img.alpha[0][0] != 0;
    assert LineOpaque(img, Columns, 0) && LineOpaque(img, Rows, 0);
  }

  /** A visible pixel makes its column and its row visible lines. */
  lemma VisibleLines(img: Image, x: nat, y: nat)
    requires img.Valid() && x < img.width && y < img.height && img.alpha[y][x] != 0
    ensures LineOpaque(img, Columns, x) && LineOpaque(img, Rows, y)
    ensures FirstLine(img, Columns, 0).Some? && LastLine(img, Columns, img.width).Some?
    ensures FirstLine(img, Rows, 0).Some? && LastLine(img, Rows, img.height).Some?
  {
    assert LineOpaque(img, Columns, x) && LineOpaque(img, Rows, y);
  }

  /** The bounding box of the visible pixels: first visible line to one past
      the last one on each axis, the whole image when nothing is visible. */
  function BoundingBox(img: Image): (r: Rect)
    requires img.Valid()
    ensures img.Holds(r)
    ensures img.Blank() ==> r == Rect(0, 0, img.width, img.height)
  {
    BlankHasNoLines(img, Columns);
    BlankHasNoLines(img, Rows);
    var left, right := FirstLine(img, Columns, 0), LastLine(img, Columns, img.width);
    var top, bottom := FirstLine(img, Rows, 0), LastLine(img, Rows, img.height);
    if left.None? || right.None? || top.None? || bottom.None? then
      Rect(0, 0, img.width, img.height)
    else
      Rect(left.value, top.value, right.value + 1 - left.value, bottom.value + 1 - top.value)
  }

  /** Every visible pixel stays inside the bounding box. */
  lemma BoundingBoxKeepsEveryVisiblePixel(img: Image, x: nat, y: nat)
    requires img.Valid() && img.Opaque(x, y)
    ensures var r := BoundingBox(img); r.left <= x < r.Right() && r.top <= y < r.Bottom()
  {
    VisibleLines(img, x, y);
  }

  /** The bounding box is tight: its first and last columns and rows each
      hold a visible pixel, so no smaller rectangle keeps them all. */
  lemma BoundingBoxIsTight(img: Image)
    requires img.Valid() && !img.Blank()
    ensures var r := BoundingBox(img);
      r.width > 0 && r.height > 0 &&
      LineOpaque(img, Columns, r.left) && LineOpaque(img, Columns, r.Right() - 1) &&
      LineOpaque(img, Rows, r.top) && LineOpaque(img, Rows, r.Bottom() - 1)
  {
    var x, y :| 0 <= x < img.width && 0 <= y < img.height && img.alpha[y][x] != 0;
    VisibleLines(img, x, y);
  }

  /** The inner loop of each scan in `trim`: whether line `i` has a visible
      pixel, stopping at the first one. */
  method ScanLine(img: Image, axis: Axis, i: nat) returns (hit: bool)
    requires img.Valid() && i < Extent(img, axis)
    ensures hit == LineOpaque(img, axis, i)
  {
    var n := if axis == Columns then img.height else img.width;
    var j := 0;
    hit := false;
    while j < n && !hit
      invariant 0 <= j <= n
      invariant hit ==> LineOpaque(img, axis, i)
      invariant !hit ==> forall k :: 0 <= k < j ==> (if axis == Columns then img.alpha[k][i] else img.alpha[i][k]) == 0
    {
      var a := if axis == Columns then img.alpha[j][i] else img.alpha[i][j];
      if a != 0 {
        hit := true;
      }
      j := j + 1;
    }
  }

  /** The loop for `left` (or `top`): scan forward, remember the line that
      has a visible pixel, and stop once the remembered line is not 0. */
  method ScanLow(img: Image, axis: Axis) returns (low: nat)
    requires img.Valid()
    ensures low == LowAsWritten(img, axis)
  {
    low := 0;
    var i := 0;
    while i < Extent(img, axis)
      invariant 0 <= i <= Extent(img, axis)
      invariant low == 0
      invariant forall k :: 1 <= k < i ==> !LineOpaque(img, axis, k)
    {
      var hit := ScanLine(img, axis, i);
      if hit {
        low := i;
      }
      if low != 0 {
        break;
      }
      i := i + 1;
    }
    assert low != 0 ==> FirstLine(img, axis, 1) == Some(low);
    assert low == 0 ==> FirstLine(img, axis, 1).None?;
  }

  /** The loop for `right` (or `bottom`): scan backward from the last line
      and stop at the first line with a visible pixel. */
  method ScanHigh(img: Image, axis: Axis) returns (high: nat)
    requires img.Valid()
    ensures high == HighAsWritten(img, axis)
  {
    var n := Extent(img, axis);
    high := n;
    var i := n;
    while i > 0
      invariant 0 <= i <= n
      invariant high == n
      invariant forall k :: i <= k < n ==> !LineOpaque(img, axis, k)
    {
      var hit := ScanLine(img, axis, i - 1);
      if hit {
        high := i - 1;
      }
      if high != n {
        break;
      }
      i := i - 1;
    }
    assert high != n ==> LastLine(img, axis, n) == Some(high);
    assert high == n ==> LastLine(img, axis, n).None?;
  }

  /** `trim(image)`: the four scans, then the subsurface of their rectangle. */
  method Trim(img: Image) returns (trimmed: Image)
    requires img.Valid()
    ensures Crop(img, TrimRect(img)) == Success(trimmed)
  {
    var left := ScanLow(img, Columns);
    var right := ScanHigh(img, Columns);
    var top := ScanLow(img, Rows);
    var bottom := ScanHigh(img, Rows);
    AsWrittenBoundsOrdered(img, Columns);
    AsWrittenBoundsOrdered(img, Rows);
    trimmed := Crop(img, Rect(left, top, right - left, bottom - top)).value;
  }

  // ---------------------------------------------------------------------------
  // slice_image (surface_factory.py:9-30)
  // ---------------------------------------------------------------------------

  /** Some pixel under the tile is visible. */
  predicate HasInk(img: Image, t: Rect)
    requires img.Valid()
  {
    exists x, y :: t.left <= x < t.Right() && t.top <= y < t.Bottom() && img.Opaque(x, y)
  }

  /** What the generator delivers: the tiles it yielded, and whether it ran
      to the end (false: `range` or `subsurface` raised ValueError after the
      tiles so far). */
  datatype Slicing = Slicing(tiles: seq<Rect>, complete: bool)

  /** Tile `t` comes before tile `u` in row-major order. */
  predicate Before(t: Rect, u: Rect) {
    t.top < u.top || (t.top == u.top && t.left < u.left)
  }

  /** The inner `for x in range(0, width, w)` from column x on, at row y. */
  function SliceRow(img: Image, x: nat, y: nat, w: nat, h: nat, skip: bool): (s: Slicing)
    requires img.Valid() && w > 0
    decreases img.width - x
  {
    if x >= img.width then Slicing([], true)
    else
      var t := Rect(x, y, w, h);
      if !img.Holds(t) then Slicing([], false)
      else
        var rest := SliceRow(img, x + w, y, w, h, skip);
        if !skip || HasInk(img, t) then Slicing([t] + rest.tiles, rest.complete) else rest
  }

  /** The outer `for y in range(0, height, h)` from row y on. */
  function SliceRows(img: Image, y: nat, w: nat, h: nat, skip: bool): (s: Slicing)
    requires img.Valid() && w > 0 && h > 0
    decreases img.height - y
  {
    if y >= img.height then Slicing([], true)
    else
      var row := SliceRow(img, 0, y, w, h, skip);
      if !row.complete then row
      else
        var rest := SliceRows(img, y + h, w, h, skip);
        Slicing(row.tiles + rest.tiles, rest.complete)
  }

  /** `slice_image(image, target_width, target_height, skip_blanks)`: tiles
      of min(target, image size); a step of 0 makes `range` raise, a
      negative one gives an empty range. */
  function Slice(img: Image, targetWidth: int, targetHeight: int, skip: bool): (s: Slicing)
    requires img.Valid()
  {
    var h, w := MinInt(targetHeight, img.height), MinInt(targetWidth, img.width);
    if h == 0 then Slicing([], false)
    else if h < 0 then Slicing([], true)
    else if w == 0 then Slicing([], false)
    else if w < 0 then Slicing([], true)
    else SliceRows(img, 0, w, h, skip)
  }

  /** The tiles of a row are w by h, at height y, inside the image, left to
      right, and (when blanks are skipped) each has a visible pixel. */
  lemma {:induction false} SliceRowShape(img: Image, x: nat, y: nat, w: nat, h: nat, skip: bool)
    requires img.Valid() && w > 0
    ensures var s := SliceRow(img, x, y, w, h, skip);
      (forall t :: t in s.tiles ==>
        t.width == w && t.height == h && t.top == y && x <= t.left && img.Holds(t) && (skip ==> HasInk(img, t))) &&
      (forall i, j :: 0 <= i < j < |s.tiles| ==> s.tiles[i].left < s.tiles[j].left)
    decreases img.width - x
  {
    if x < img.width && img.Holds(Rect(x, y, w, h)) {
      SliceRowShape(img, x + w, y, w, h, skip);
    }
  }

  /** The tiles of the rows from y on are w by h, inside the image, in
      row-major order, and (when blanks are skipped) each has a visible pixel. */
  lemma {:induction false} SliceRowsShape(img: Image, y: nat, w: nat, h: nat, skip: bool)
    requires img.Valid() && w > 0 && h > 0
    ensures var s := SliceRows(img, y, w, h, skip);
      (forall t :: t in s.tiles ==>
        t.width == w && t.height == h && y <= t.top && img.Holds(t) && (skip ==> HasInk(img, t))) &&
      (forall i, j :: 0 <= i < j < |s.tiles| ==> Before(s.tiles[i], s.tiles[j]))
    decreases img.height - y
  {
    if y < img.height {
      SliceRowShape(img, 0, y, w, h, skip);
      var row := SliceRow(img, 0, y, w, h, skip);
      if row.complete {
        SliceRowsShape(img, y + h, w, h, skip);
        var rest := SliceRows(img, y + h, w, h, skip);
        var all := row.tiles + rest.tiles;
        forall i, j | 0 <= i < j < |all|
          ensures Before(all[i], all[j])
        {
          if j < |row.tiles| {
            assert all[i] == row.tiles[i] && all[j] == row.tiles[j];
          } else if i < |row.tiles| {
            assert all[i] in row.tiles && all[j] in rest.tiles;
          } else {
            assert all[i] == rest.tiles[i - |row.tiles|] && all[j] == rest.tiles[j - |row.tiles|];
          }
        }
      }
    }
  }

  /** What `slice_image` yields: tiles of min(target, image size), inside
      the image, in row-major order, each with a visible pixel when blanks
      are skipped. */
  lemma SliceShape(img: Image, targetWidth: int, targetHeight: int, skip: bool)
    requires img.Valid()
    ensures var s := Slice(img, targetWidth, targetHeight, skip);
      (forall t :: t in s.tiles ==>
        img.Holds(t) && t.width == MinInt(targetWidth, img.width) && t.height == MinInt(targetHeight, img.height) &&
        (skip ==> HasInk(img, t))) &&
      (forall i, j :: 0 <= i < j < |s.tiles| ==> Before(s.tiles[i], s.tiles[j]))
  {
    var h, w := MinInt(targetHeight, img.height), MinInt(targetWidth, img.width);
    if h > 0 && w > 0 {
      SliceRowsShape(img, 0, w, h, skip);
    }
  }

  /** The tiles among `ts` that have a visible pixel, in order. */
  function Inked(img: Image, ts: seq<Rect>): (r: seq<Rect>)
    requires img.Valid()
    ensures |r| <= |ts|
    ensures forall t :: t in r ==> t in ts && HasInk(img, t)
    ensures forall t :: t in ts && HasInk(img, t) ==> t in r
  {
    if ts == [] then []
    else (if HasInk(img, ts[0]) then [ts[0]] else []) + Inked(img, ts[1..])
  }

  lemma {:induction false} InkedConcat(img: Image, a: seq<Rect>, b: seq<Rect>)
    requires img.Valid()
    ensures Inked(img, a + b) == Inked(img, a) + Inked(img, b)
    decreases |a|
  {
    if a != [] {
      assert (a + b)[0] == a[0];
      assert (a + b)[1..] == a[1..] + b;
      InkedConcat(img, a[1..], b);
    } else {
      assert a + b == b;
    }
  }

  lemma {:induction false} SkipRowKeepsInked(img: Image, x: nat, y: nat, w: nat, h: nat)
    requires img.Valid() && w > 0
    ensures var all := SliceRow(img, x, y, w, h, false);
      SliceRow(img, x, y, w, h, true) == Slicing(Inked(img, all.tiles), all.complete)
    decreases img.width - x
  {
    if x < img.width && img.Holds(Rect(x, y, w, h)) {
      var t := Rect(x, y, w, h);
      var all := SliceRow(img, x + w, y, w, h, false);
      SkipRowKeepsInked(img, x + w, y, w, h);
      assert ([t] + all.tiles)[1..] == all.tiles;
    }
  }

  lemma {:induction false} SkipRowsKeepsInked(img: Image, y: nat, w: nat, h: nat)
    requires img.Valid() && w > 0 && h > 0
    ensures var all := SliceRows(img, y, w, h, false);
      SliceRows(img, y, w, h, true) == Slicing(Inked(img, all.tiles), all.complete)
    decreases img.height - y
  {
    if y < img.height {
      SkipRowKeepsInked(img, 0, y, w, h);
      var row := SliceRow(img, 0, y, w, h, false);
      if row.complete {
        SkipRowsKeepsInked(img, y + h, w, h);
        InkedConcat(img, row.tiles, SliceRows(img, y + h, w, h, false).tiles);
      }
    }
  }

  /** With `skip_blanks` the generator yields exactly the tiles with a
      visible pixel, in the same order, and stops in the same way. */
  lemma SkipBlanksKeepsExactlyInkedTiles(img: Image, targetWidth: int, targetHeight: int)
    requires img.Valid()
    ensures var all := Slice(img, targetWidth, targetHeight, false);
      Slice(img, targetWidth, targetHeight, true) == Slicing(Inked(img, all.tiles), all.complete)
  {
    var h, w := MinInt(targetHeight, img.height), MinInt(targetWidth, img.width);
    if h > 0 && w > 0 {
      SkipRowsKeepsInked(img, 0, w, h);
    }
  }

  /** A target at least as large as the image gives the whole image as the
      only tile. */
  lemma SmallImageIsOneTile(img: Image, targetWidth: int, targetHeight: int)
    requires img.Valid() && 0 < img.width <= targetWidth && 0 < img.height <= targetHeight
    ensures Slice(img, targetWidth, targetHeight, false) == Slicing([Rect(0, 0, img.width, img.height)], true)
  {
    var w, h := img.width, img.height;
    assert SliceRow(img, w, 0, w, h, false) == Slicing([], true);
    assert SliceRow(img, 0, 0, w, h, false) == Slicing([Rect(0, 0, w, h)], true);
    assert SliceRows(img, h, w, h, false) == Slicing([], true);
  }

  lemma ModStep(a: int, w: int)
    requires w > 0 && a >= w
    ensures (a - w) % w == a % w
  {
    var q, r := a / w, a % w;
    var q', r' := (a - w) / w, (a - w) % w;
    assert a - w == w * (q - 1) + r;
    assert a - w == w * q' + r';
    assert w * (q - 1 - q') == r' - r;
    MultipleBeyondDivisor(w, q - 1 - q');
  }

  /** A non-zero multiple of w is at least w away from 0. */
  lemma {:induction false} MultipleBeyondDivisor(w: int, k: int)
    requires w > 0
    ensures k >= 1 ==> w * k >= w
    ensures k <= -1 ==> w * k <= -w
    decreases if k < 0 then -k else k
  {
    if k > 1 {
      MultipleBeyondDivisor(w, k - 1);
      assert w * k == w * (k - 1) + w;
    } else if k < -1 {
      MultipleBeyondDivisor(w, k + 1);
      assert w * k == w * (k + 1) - w;
    }
  }

  /** A row runs to its end exactly when the columns left from x are a
      whole number of tiles (given that the row itself fits). */
  lemma {:induction false} RowCompleteIffMultiple(img: Image, x: nat, y: nat, w: nat, h: nat, skip: bool)
    requires img.Valid() && w > 0 && y + h <= img.height
    ensures SliceRow(img, x, y, w, h, skip).complete <==> x >= img.width || (img.width - x) % w == 0
    decreases img.width - x
  {
    if x < img.width && x + w <= img.width {
      RowCompleteIffMultiple(img, x + w, y, w, h, skip);
      ModStep(img.width - x, w);
    }
  }

  /** A slicing runs to its end exactly when the rows left from y are a
      whole number of tiles and every row is. */
  lemma {:induction false} RowsCompleteIffMultiple(img: Image, y: nat, w: nat, h: nat, skip: bool)
    requires img.Valid() && 0 < w <= img.width && h > 0
    ensures SliceRows(img, y, w, h, skip).complete <==>
      y >= img.height || ((img.height - y) % h == 0 && img.width % w == 0)
    decreases img.height - y
  {
    if y < img.height {
      if y + h <= img.height {
        RowCompleteIffMultiple(img, 0, y, w, h, skip);
        RowsCompleteIffMultiple(img, y + h, w, h, skip);
        ModStep(img.height - y, h);
      } else {
        assert !img.Holds(Rect(0, y, w, h));
      }
    }
  }

  /** Slicing fails (raises after some tiles) exactly when the image is not
      a whole number of tiles in both directions. */
  lemma SliceCompleteIffMultiple(img: Image, targetWidth: int, targetHeight: int, skip: bool)
    requires img.Valid() && 0 < img.width && 0 < img.height && 0 < targetWidth && 0 < targetHeight
    ensures var w, h := MinInt(targetWidth, img.width), MinInt(targetHeight, img.height);
      Slice(img, targetWidth, targetHeight, skip).complete <==> img.width % w == 0 && img.height % h == 0
  {
    var w, h := MinInt(targetWidth, img.width), MinInt(targetHeight, img.height);
    RowsCompleteIffMultiple(img, 0, w, h, skip);
  }

  /** The blank test of `slice_image`: every pixel of the tile is visited
      (there is no early exit) and `found` records a visible one. */
  method TileHasInk(img: Image, t: Rect) returns (found: bool)
    requires img.Valid() && img.Holds(t)
    ensures found == HasInk(img, t)
  {
    found := false;
    var px := 0;
    while px < t.width
      invariant 0 <= px <= t.width
      invariant found <==> exists x, y :: t.left <= x < t.left + px && t.top <= y < t.Bottom() && img.Opaque(x, y)
    {
      var py := 0;
      var column := t.left + px;
      ghost var before := found;
      while py < t.height
        invariant 0 <= py <= t.height
        invariant found <==> before || exists y :: t.top <= y < t.top + py && img.Opaque(column, y)
      {
        if img.alpha[t.top + py][column] != 0 {
          found := true;
        }
        assert img.Opaque(column, t.top + py) <==> img.alpha[t.top + py][column] != 0;
        py := py + 1;
      }
      px := px + 1;
    }
  }

  /** One row of the generator: tiles left to right; a tile that leaves
      the image makes `subsurface` raise. */
  method SliceOneRow(img: Image, y: nat, w: nat, h: nat, skip: bool) returns (row: seq<Rect>, complete: bool)
    requires img.Valid() && w > 0
    ensures Slicing(row, complete) == SliceRow(img, 0, y, w, h, skip)
  {
    ghost var goal := SliceRow(img, 0, y, w, h, skip);
    row := [];
    var x := 0;
    while x < img.width
      invariant row + SliceRow(img, x, y, w, h, skip).tiles == goal.tiles
      invariant SliceRow(img, x, y, w, h, skip).complete == goal.complete
      decreases img.width - x
    {
      var t := Rect(x, y, w, h);
      if !img.Holds(t) {
        assert SliceRow(img, x, y, w, h, skip) == Slicing([], false);
        assert row + [] == row;
        return row, false;
      }
      var keep := true;
      if skip {
        keep := TileHasInk(img, t);
      }
      ghost var rest := SliceRow(img, x + w, y, w, h, skip);
      if keep {
        assert SliceRow(img, x, y, w, h, skip) == Slicing([t] + rest.tiles, rest.complete);
        assert row + ([t] + rest.tiles) == (row + [t]) + rest.tiles;
        row := row + [t];
      } else {
        assert SliceRow(img, x, y, w, h, skip) == rest;
      }
      x := x + w;
    }
    assert SliceRow(img, x, y, w, h, skip) == Slicing([], true);
    assert row + [] == row;
    complete := true;
  }

  /** `slice_image`: the generator's tiles in row-major order. */
  method SliceImage(img: Image, targetWidth: int, targetHeight: int, skip: bool)
    returns (tiles: seq<Rect>, complete: bool)
    requires img.Valid()
    ensures Slicing(tiles, complete) == Slice(img, targetWidth, targetHeight, skip)
  {
    var h := MinInt(targetHeight, img.height);
    var w := MinInt(targetWidth, img.width);
    if h == 0 || (h > 0 && w == 0) {
      return [], false;
    }
    if h < 0 || w < 0 {
      return [], true;
    }
    ghost var goal := SliceRows(img, 0, w, h, skip);
    assert Slice(img, targetWidth, targetHeight, skip) == goal;
    tiles := [];
    var y := 0;
    while y < img.height
      invariant y >= 0
      invariant tiles + SliceRows(img, y, w, h, skip).tiles == goal.tiles
      invariant SliceRows(img, y, w, h, skip).complete == goal.complete
      decreases img.height - y
    {
      var row, rowComplete := SliceOneRow(img, y, w, h, skip);
      ghost var rest := SliceRows(img, y + h, w, h, skip);
      if !rowComplete {
        assert SliceRows(img, y, w, h, skip) == Slicing(row, false);
        return tiles + row, false;
      }
      assert SliceRows(img, y, w, h, skip) == Slicing(row + rest.tiles, rest.complete);
      assert tiles + (row + rest.tiles) == (tiles + row) + rest.tiles;
      tiles := tiles + row;
      y := y + h;
    }
    assert SliceRows(img, y, w, h, skip) == Slicing([], true);
    assert tiles + [] == tiles;
    complete := true;
  }
}
